=== FILE: README.md ===
# Grading and schema comparison, modelled in Dafny

This project models two pieces of PrairieLearn as pure functions and proves
properties of them.

**The C autograder (`CGrader` in graders/c/cgrader/cgrader.py).** A question's
program calls the autograder's operations one after another on a shared
results record:

- `test_run` runs a student program and matches its output against
  expected and rejected patterns. It synthesises the "Expected …" message,
  disqualifies a test for a timeout, an oversized output or a rejected
  match (in that order), and otherwise awards all, any or partial credit.
- `add_test_result` appends one test and accumulates the totals and the
  per-field subtotals.
- `save_results` derives the overall and per-field scores.
- `compile_file`, `link_object_files` and `test_compile_file` build the
  submission. They reject objects that use forbidden symbols or sanitizer
  escape primitives, and gate the instructor's added units on the student's
  objects. They also declare the submission ungradable when an object or
  the executable is missing.
- `run_check_suite` turns the Check framework's XML log into tests.
- `start` runs the question's script, marks the submission ungradable when
  a call raises `UngradableError`, and saves the results in a `finally`
  clause. Another exception (the division by zero of `test_run` below)
  escapes `start` after the saving, and saving itself can raise (a field
  with a zero maximum), so nothing is saved.

Each operation with a defect is modelled twice: as written, and corrected.
`Session.Grade` composes the corrected operations; `Session.GradeAsWritten`
composes the operations as written and says when the two agree.

The world is explicit. Running a command, the files a command creates, the
text `nm` and `pkg-config` print, and the contents of preprocessed files are
parameters (`Build.Host`, `TestRun.Host`). The report is threaded through
every operation (`Build.State`, `Outcome`). Points are exact `real`s.

**The schema comparison (`diff` in packages/postgres-tools/src/diff.ts).** It
takes two loaded descriptions (table name to definition, enum name to
values) and assembles a report in a fixed order:

1. tables added
2. tables missing
3. enums added
4. enums missing
5. per-table line diffs
6. per-enum value changes

Styling (`chalk`) and the line-diff algorithm (`structuredPatch`) are
parameters (`SchemaDiff.Tools`).

Modules: `Wrappers` (Option, Outcome), `Text` (Python and JavaScript string
helpers), `Process` (`run_command`'s result), `Matcher` (`compile_re` and
`re.search`), `Report` (the results record), `TestRun`, `Build`,
`CheckSuite`, `Session` (`start`), and `SchemaDiff`.

## Model

| member | source | states |
|---|---|---|
| Text.SplitRebuilds | graders/c/cgrader/cgrader.py:473 | `re.split(r"\s+", t)` cuts a text into words and separators that are nonempty whitespace runs, and interleaving them rebuilds the text exactly |
| Text.SplitLines | graders/c/cgrader/cgrader.py:440 | `splitlines` yields lines with no line break in them, and yields none exactly for the empty text |
| Text.SplitLinesRebuilds | graders/c/cgrader/cgrader.py:440 | the lines are the text's own pieces: each followed by its line boundary (a `\r\n` pair or a single line-break character, the last line possibly by none) they glue back into the text exactly |
| Text.JoinWithSpaceHasNoLineBreak | graders/c/cgrader/cgrader.py:440 | lines joined with spaces form a single line |
| Text.PyPrefix | graders/c/cgrader/cgrader.py:539 | `out[0:n]` is a prefix of `out`, of length `min(n, len(out))` for non-negative `n` |
| Text.JsTrim | packages/postgres-tools/src/diff.ts:139 | a trimmed value neither starts nor ends with JavaScript whitespace |
| Process.CommandOutput | graders/c/cgrader/cgrader.py:118-147 | a command that cannot start yields "", a finished one its output, a killed one its output followed by text containing "TIMEOUT" |
| Process.TimeoutMessageIsMarked | graders/c/cgrader/cgrader.py:56-63 | appending the timeout diagnostic always makes the output contain "TIMEOUT" |
| Matcher.CompileRe | graders/c/cgrader/cgrader.py:464-479 | a caller's regex is shown by its source and matches as itself; a value's pattern always matches the value's own string; it is shown stripped (collapsed) or right-stripped (literal); a literal pattern matches exactly the texts containing the value, case-folded when asked |
| Matcher.Stringify | graders/c/cgrader/cgrader.py:433-437 | `str` of a value: a string is itself, an integer is a nonempty decimal without spaces that starts with '-' exactly when negative, a boolean is "True" or "False", a float is its given text (as `compile_re` also does, line 468) |
| Matcher.Search | graders/c/cgrader/cgrader.py:473-479 | a pattern with no chunk matches every text; a match needs a text at least as long as the pattern's first chunk |
| Matcher.SelfMatch | graders/c/cgrader/cgrader.py:473 | a whitespace-collapsed pattern matches its own text |
| Matcher.CollapsedMatchesRespaced | graders/c/cgrader/cgrader.py:473 | a collapsed pattern matches any text containing its words separated by arbitrary nonempty whitespace runs |
| Matcher.CollapsedSearchIsRespacedOccurrence | graders/c/cgrader/cgrader.py:473 | without case folding, a collapsed pattern matches a text exactly when the text contains the pattern's words separated by nonempty whitespace runs |
| Matcher.CollapsedSearchIsRespacedSpelling | graders/c/cgrader/cgrader.py:470-477 | with collapsing and with or without case folding (the default folds), a pattern matches a text exactly when the text contains a spelling of the pattern's words, case-insensitive when folding, separated by nonempty whitespace runs |
| Matcher.LiteralSearchIsSubstring | graders/c/cgrader/cgrader.py:475 | without collapsing or folding, a pattern matches exactly the texts containing the value's string |
| Matcher.FoldWidensSearch | graders/c/cgrader/cgrader.py:477 | `re.IGNORECASE` only adds matches: a case-sensitive match is also a case-insensitive one |
| Matcher.CollapseExample | graders/c/cgrader/cgrader.py:470-476 | "a   b" matches "a\nb" when whitespace is collapsed and does not match it literally |
| Matcher.IgnoreCaseExample | graders/c/cgrader/cgrader.py:477 | "Hello" matches "hello" only when case is ignored |
| Report.Start | graders/c/cgrader/cgrader.py:714-722 | a session starts with no test, no points, score 0.0, gradable, an empty message and no field subtotals |
| Report.ResolvePoints | graders/c/cgrader/cgrader.py:590-591 | boolean points become the maximum or 0.0; numeric points are kept |
| Report.ResolveImages | graders/c/cgrader/cgrader.py:601-604 | images are recorded only when given and nonempty, and as the given list |
| Report.AddToField | graders/c/cgrader/cgrader.py:610-620 | a field subtotal is created on first use, accumulated afterwards, and no other field changes |
| Report.AddTestResult | graders/c/cgrader/cgrader.py:590-621 | exactly one test is appended with the resolved points; totals grow by exactly its points and maximum; the field subtotal is updated only for a named field; nothing else in the report changes |
| Report.AddAll | graders/c/cgrader/cgrader.py:579-621 | a run of calls changes only the tests, the totals and the field subtotals; the earlier tests stay in front, one test is appended per call, the k-th new test is the record the k-th call returns, and a field map once present stays present |
| Report.AddAllTotals | graders/c/cgrader/cgrader.py:606-608 | a run of calls appends one test per call and adds their summed points and maxima |
| Report.AddAllFieldTotals | graders/c/cgrader/cgrader.py:610-620 | after a run of calls a field exists exactly when it existed or some call named it, and its subtotal grows by the sums over the calls naming it |
| Report.FieldTotalsFromStart | graders/c/cgrader/cgrader.py:610-620 | from a fresh report, each field subtotal is the sum over the calls that named it |
| Report.AddAllKeepsBounds | graders/c/cgrader/cgrader.py:606-608 | calls whose points lie between 0 and their maximum keep 0 <= points <= max_points |
| Report.AddTestResultFieldsMonotone | graders/c/cgrader/cgrader.py:618-620 | with non-negative points and maxima, a field subtotal never decreases |
| Report.FieldScore | graders/c/cgrader/cgrader.py:705-706 | a field's score times its maximum is its points (score 0.0 for a zero maximum, in the corrected model) |
| Report.FieldScoreAsWritten | graders/c/cgrader/cgrader.py:705-706 | the field score as written is points / max for every nonzero maximum, so score * max == points; it agrees with the corrected score for a positive maximum |
| Report.SaveResults | graders/c/cgrader/cgrader.py:701-706 | the score is points/max_points when max_points > 0 and is otherwise unchanged; every field gets its own score; nothing else changes |
| Report.SaveResultsAsWritten | graders/c/cgrader/cgrader.py:701-706 | saving as written fails exactly when some field has a zero maximum; otherwise it differs from the corrected saving only in the field scores, each of which satisfies score * max == points (negative maxima included), and it equals the corrected saving when no maximum is negative |
| Report.ZeroMaximumFieldFinding | graders/c/cgrader/cgrader.py:704-706 | a field with a zero maximum makes the saving as written fail, while the corrected saving scores it 0.0 |
| Report.NegativeMaximumField | graders/c/cgrader/cgrader.py:704-706 | a field with 1 point and maximum -2 is scored -0.5 as written and 0.0 by the corrected saving |
| Report.ZeroMaximumFieldReachable | graders/c/cgrader/cgrader.py:610-617 | one `add_test_result` call with max_points 0 and a field produces such a field |
| Report.SaveResultsIdempotent | graders/c/cgrader/cgrader.py:701-706 | saving twice gives the same report as saving once |
| Report.ScoreIsFraction | graders/c/cgrader/cgrader.py:702-703 | with 0 <= points <= max_points and max_points > 0 the score lies in [0, 1] |
| Report.MemoryFieldExample | graders/c/cgrader/cgrader.py:610-620 | two tests of 1/2 and 2/2 points in one field give that field 3/4 and score 0.75 |
| TestRun.Defaults | graders/c/cgrader/cgrader.py:415-432 | a call's defaults: ignore case, collapse spaces, no highlighting, timeout 1, size limit 10240, maximum 1, quantifier "any", no patterns |
| TestRun.Patterns | graders/c/cgrader/cgrader.py:448-457 | no patterns is an empty list; a single pattern, a string or a compiled regex, is a one-item list; a list is kept |
| TestRun.Mode | graders/c/cgrader/cgrader.py:448-462 | a missing expectation forces "all"; True and False mean "all" and "any"; a named quantifier is kept |
| TestRun.CompileAll | graders/c/cgrader/cgrader.py:481-482 | every pattern is compiled, in order, with the call's options |
| TestRun.ArgStrings | graders/c/cgrader/cgrader.py:433-437 | one argument or a list of them becomes the list of their `str` forms, in order: strings as themselves, integers in decimal, booleans as "True"/"False", floats as their text |
| TestRun.Argv | graders/c/cgrader/cgrader.py:483-490 | the command is run as its words followed by the arguments, if any |
| TestRun.TestName | graders/c/cgrader/cgrader.py:439-446 | the name is the given one, else derived from the input's lines, else from the arguments, else from the command's first word or whole line |
| TestRun.InputNameIsOneLine | graders/c/cgrader/cgrader.py:440 | a name derived from the input holds no line break between its quotes |
| TestRun.DisplayKeepsOutput | graders/c/cgrader/cgrader.py:498-501 | without highlighting, the shown output is "(NO OUTPUT)" for no output, else starts with the output and equals it exactly when it ends with a line break |
| TestRun.Display | graders/c/cgrader/cgrader.py:492-501 | the shown output is never empty, is "(NO OUTPUT)" for no output, and without highlighting starts with the output |
| TestRun.RecordedOutput | graders/c/cgrader/cgrader.py:535-540 | the shown output is recorded as it is unless it was too long; then the record starts with its first `size_limit` characters and ends with the truncation notice |
| TestRun.ShownPattern | graders/c/cgrader/cgrader.py:511-515 | a pattern is shown coloured exactly when highlighting is on and it matched |
| TestRun.ShownPatterns | graders/c/cgrader/cgrader.py:510-517 | every pattern is shown, in order |
| TestRun.Separator | graders/c/cgrader/cgrader.py:507-509 | patterns are separated by a blank line when one of them spans lines, else by a line break and a tab |
| TestRun.QuantifierWord | graders/c/cgrader/cgrader.py:504-506 | " one of" or " all of" appears only for more than one expected pattern, chosen by "any" |
| TestRun.Message | graders/c/cgrader/cgrader.py:503-533 | a given message is kept; without expected patterns there is none; otherwise it starts with "Expected" |
| TestRun.MessageListsPatterns | graders/c/cgrader/cgrader.py:503-531 | the synthesised message lists every expected pattern, and every rejected one after them |
| TestRun.CountFullIffAll | graders/c/cgrader/cgrader.py:546-549 | the match count is full exactly when every expected pattern matched |
| TestRun.CountZeroIffNone | graders/c/cgrader/cgrader.py:546-549 | the match count is zero exactly when no expected pattern matched |
| TestRun.Disqualify | graders/c/cgrader/cgrader.py:535-542 | a test is weighed exactly when no nonzero timeout saw "TIMEOUT", no nonzero size limit is exceeded and no rejected pattern matches; a rejected-match verdict has a matching rejected pattern |
| TestRun.Credit | graders/c/cgrader/cgrader.py:543-555 | outside "partial" the credit is the maximum or 0.0; "all" with every pattern matched gives the maximum; other non-partial modes with none matched give 0.0; "partial" over no pattern gives the maximum (corrected) |
| TestRun.Points | graders/c/cgrader/cgrader.py:535-555 | a disqualified test scores 0.0; outside "partial" a test scores its maximum or 0.0 |
| TestRun.CreditAsWritten | graders/c/cgrader/cgrader.py:543-551 | the credit as written fails exactly for "partial" with no expected pattern, and otherwise agrees with the corrected credit |
| TestRun.BinaryModes | graders/c/cgrader/cgrader.py:552-555 | outside "partial" the credit is the maximum or 0.0; "all" gives the maximum exactly when every pattern matched, the others exactly when one did |
| TestRun.PartialCredit | graders/c/cgrader/cgrader.py:543-551 | "partial" gives between 0 and the maximum, the maximum exactly when all matched and 0 exactly when none did |
| TestRun.Share | graders/c/cgrader/cgrader.py:544-551 | `max_points * k / n` for 0 <= k <= n lies in [0, max_points], reaching each end exactly at k = n and k = 0 |
| TestRun.DisqualifiersInOrder | graders/c/cgrader/cgrader.py:535-542 | a timeout wins and keeps the output whole; otherwise an oversized output scores 0 and is truncated; only an oversized output is ever truncated |
| TestRun.KilledRunScoresZero | graders/c/cgrader/cgrader.py:536-537 | with a nonzero timeout, a killed run is disqualified as timed out and scores 0 |
| TestRun.LongOutputIsTruncated | graders/c/cgrader/cgrader.py:538-540 | an oversized output scores 0 and is recorded as the first `size_limit` characters shown plus the truncation notice |
| TestRun.RejectionWins | graders/c/cgrader/cgrader.py:541-542 | a matching rejected pattern scores 0 whatever the expected patterns say |
| TestRun.NoExpectationFullCredit | graders/c/cgrader/cgrader.py:448-450 | with no expectation and no disqualification a test earns its maximum |
| TestRun.EmptyListUnderAnyScoresZero | graders/c/cgrader/cgrader.py:552-555 | an explicit empty expected list under "any" scores 0 |
| TestRun.Run | graders/c/cgrader/cgrader.py:415-564 | `test_run` adds exactly one test, named by the name rules, with no description, scored by the disqualifiers and the quantifier, with the synthesised message and the shown output; the totals change by exactly that test, the named field's subtotal (only when a field is given) by its points and maximum, and the score, output, message and gradable flag not at all |
| TestRun.RunAsWritten | graders/c/cgrader/cgrader.py:535-564 | `test_run` as written raises exactly when the call is not disqualified and asks for "partial" credit over no expected pattern; otherwise it adds the same test as the corrected one |
| TestRun.EmptyPartialFinding | graders/c/cgrader/cgrader.py:543-551 | an explicit empty expected list under "partial" makes `test_run` as written fail; the corrected one awards the maximum |
| Build.FlagWords | graders/c/cgrader/cgrader.py:164-168 | a list of flags is kept; no flags or an empty line means none |
| Build.PackageNames | graders/c/cgrader/cgrader.py:180-182 | a list of packages is kept; none means none |
| Build.PackageFlags | graders/c/cgrader/cgrader.py:180-185 | no flags unless a package argument is given (a blank line counts as given); when given, `pkg-config` is queried, even with no names, and its nonempty output is split into the flags; an empty output adds none |
| Build.LinkPackages | graders/c/cgrader/cgrader.py:180-182 | the link step receives the same package names, a given line already split into a list (handed on at line 271) |
| Build.BlankPackageLine | graders/c/cgrader/cgrader.py:180-185 | a blank package line queries `pkg-config --cflags` with no names and keeps what it prints, while the link step queries nothing (lines 312-317) |
| Build.CompileFlags | graders/c/cgrader/cgrader.py:164-185 | compile flags are the caller's, then the sanitizer flags when asked, then `pkg-config --cflags` |
| Build.FoundPrimitives | graders/c/cgrader/cgrader.py:212-214 | exactly the forbidden primitives occurring in the preprocessed text are found |
| Build.FoundSymbols | graders/c/cgrader/cgrader.py:228-230 | exactly the forbidden or rejected symbols listed by `nm` are found, each once |
| Build.PreprocessedFile | graders/c/cgrader/cgrader.py:204-208 | the preprocessed file is the first of `.i`, `.ii`, `.mi` that exists, and there is none exactly when none exists |
| Build.Validate | graders/c/cgrader/cgrader.py:198-237 | an object is kept exactly when neither a primitive nor a symbol was found, and then nothing changes; only that object can disappear; an object removed for primitives is explained by the primitives message alone, and otherwise a forbidden symbol adds the symbols message |
| Build.Exec | graders/c/cgrader/cgrader.py:193-196 | running a tool adds its files and appends its output |
| Build.CompileStudentUnit | graders/c/cgrader/cgrader.py:190-237 | a student object exists afterwards exactly when the compiler made it and it passed validation; other files are those the compiler made |
| Build.CompileAddedUnits | graders/c/cgrader/cgrader.py:243-253 | every added unit's command runs: a file exists afterwards exactly when it existed before or one of the commands created it, and the output is the previous output followed by each command's output, in order |
| Build.Objects | graders/c/cgrader/cgrader.py:191 | each unit's object is its path with suffix `.o`, in order |
| Build.CompileStage | graders/c/cgrader/cgrader.py:190-253 | when every student object exists, each added command's files join the student build, its outputs follow the student output in order, and the added objects are listed; otherwise the student build is kept and no added object is listed |
| Build.LinkCommandLayout | graders/c/cgrader/cgrader.py:306-329 | the link command lists the added objects before the student objects, then `-o exec -lm`, and puts `-Wl,--allow-multiple-definition` after the user and sanitizer flags exactly when there are added objects |
| Build.LinkFlags | graders/c/cgrader/cgrader.py:290-322 | the link flags start with the caller's and add one word per addition: the sanitizer flags when asked, the multiple-definition flag when there are added objects, and `pkg-config --libs` |
| Build.LinkCommand | graders/c/cgrader/cgrader.py:324-335 | the link command starts with the compiler, lists the added objects, the student objects and `-o exec -lm`, and ends with the link flags |
| Build.Link | graders/c/cgrader/cgrader.py:320-342 | linking is ungradable ("Linker errors") exactly when the executable is missing and `ungradable_if_failed` holds; it otherwise returns the linker output; it only appends to the message |
| Build.CompileWith | graders/c/cgrader/cgrader.py:149-276 | `compile_file` returns the student objects then the added ones, and its output starts with the compile output; it only appends to the message |
| Build.CompileUngradableIff | graders/c/cgrader/cgrader.py:255-261 | compilation is ungradable exactly when `ungradable_if_failed` holds and some student or attempted added object is missing |
| Build.AddedUnitsGated | graders/c/cgrader/cgrader.py:243-253 | a missing student object means no added unit is compiled; otherwise every added command has run: the files it creates exist and its output occurs in the collected output, after the students' output |
| Build.RejectedObjectBlocks | graders/c/cgrader/cgrader.py:215-261 | a student object removed by validation blocks the added units and, with `ungradable_if_failed`, makes the submission ungradable |
| Build.LinkFlagsAliasingFinding | graders/c/cgrader/cgrader.py:164-170 | as written, a nonempty flag list reaches the link step already extended, so the sanitizer flags appear twice |
| Build.CorrectedLinkFlags | graders/c/cgrader/cgrader.py:290-307 | with the caller's own list, the link flags are the list, the sanitizer flags once, the multiple-definition flag when needed, then `pkg-config --libs` |
| Build.HandedOnFlags | graders/c/cgrader/cgrader.py:164-185 | as written the link step receives the caller's flags unchanged unless they are a nonempty list; that list arrives extended in place, the caller's words first; without the sanitizer and `pkg-config` flags it arrives unchanged (handed on at line 270) |
| Build.CompileFile | graders/c/cgrader/cgrader.py:149-277 | `compile_file` is ungradable only with "Compilation errors", or with "Linker errors" when an executable is named; it returns the student objects followed by the added objects attempted |
| Build.CompileFileAsWritten | graders/c/cgrader/cgrader.py:149-277 | `compile_file` as written agrees with the corrected one whenever the flags handed to the link step are the caller's, in particular without the sanitizer and `pkg-config --cflags` flags |
| Build.AddedWithMain | graders/c/cgrader/cgrader.py:362-368 | a main file is compiled after the other added units |
| Build.TestCompileFile | graders/c/cgrader/cgrader.py:344-395 | `test_compile_file` is ungradable exactly when compiling is, and otherwise adds one test worth `points`, earned exactly when the executable (or every object) exists |
| Build.RecordCompileTest | graders/c/cgrader/cgrader.py:382-395 | an ungradable compile is passed on unchanged; otherwise a test is recorded and the files are kept |
| Build.TestCompileFileAsWritten | graders/c/cgrader/cgrader.py:344-395 | `test_compile_file` as written agrees with the corrected one when the flags reach the link step unchanged, and is ungradable exactly when `compile_file` as written is |
| CheckSuite.CaseEntry | graders/c/cgrader/cgrader.py:679-691 | a case is worth 1 point and earns it exactly when its result is "success"; its output is its message or "" |
| CheckSuite.CaseEntries | graders/c/cgrader/cgrader.py:678-691 | a suite gives one test per case, in document order |
| CheckSuite.CaseName | graders/c/cgrader/cgrader.py:669-688 | with no part used the name is empty; a used title starts the name, else a used case name does; a used iteration ends it with " (run n)", else a used id ends it |
| CheckSuite.Entries | graders/c/cgrader/cgrader.py:676-691 | a log gives one call per case over all suites |
| CheckSuite.EntriesInOrder | graders/c/cgrader/cgrader.py:676-691 | the call for the j-th case of the i-th suite comes right after the calls for all cases of the earlier suites, in document order |
| CheckSuite.EntriesCoverCases | graders/c/cgrader/cgrader.py:676-691 | every case of every suite has its call |
| CheckSuite.RecordedCase | graders/c/cgrader/cgrader.py:684-691 | the test recorded by the call made for a case carries the case's name and message, is worth one point and earns it exactly when the case succeeded, at the call's position after the earlier tests |
| CheckSuite.RunCheckSuite | graders/c/cgrader/cgrader.py:673-699 | a missing log or one that does not parse appends its explanation and is ungradable; a parsed log adds one test per case |
| CheckSuite.SuiteSums | graders/c/cgrader/cgrader.py:678-691 | a suite's tests are worth one point per case and award one per success |
| CheckSuite.EntriesSums | graders/c/cgrader/cgrader.py:676-691 | over a whole log, one test per case, one point each, one earned per success |
| CheckSuite.ParsedLogTotals | graders/c/cgrader/cgrader.py:673-691 | a parsed log raises points by the successes and the maximum by the cases, keeping gradability and the message |
| CheckSuite.DefaultName | graders/c/cgrader/cgrader.py:627-630 | by default a case is named "description - id" |
| CheckSuite.SeparatorsPlaced | graders/c/cgrader/cgrader.py:669-672 | ": " appears only between a used title and a used case name; " - " appears only before a used id following one of them |
| CheckSuite.SuiteEnvironment | graders/c/cgrader/cgrader.py:640-655 | the suite's environment is the caller's plus TEMP, the log file, the sandbox ids when unsandboxed and the malloc debugger when asked, and nothing else |
| Session.RunStep | graders/c/cgrader/cgrader.py:741-744 | with the corrected operations, recording and `test_run` calls never abort and add one test; only compile, link and suite calls can raise `UngradableError` |
| Session.TestsOnlyNeverAbort | graders/c/cgrader/cgrader.py:741-744 | with the corrected operations, a script of recording and `test_run` calls never aborts and adds one test per call |
| Session.RunSteps | graders/c/cgrader/cgrader.py:741-744 | no call of the script changes the gradable flag |
| Session.Grade | graders/c/cgrader/cgrader.py:713-746 | the corrected `start` saves the tests and message the script produced before it stopped, gradable exactly when no call raised `UngradableError` |
| Session.RunStepAsWritten | graders/c/cgrader/cgrader.py:741-744 | a call as written behaves as the corrected call when it is unaffected by a finding; it crashes, leaving the state as it was, exactly for a `test_run` that divides by zero (lines 543-551) |
| Session.RunStepsAsWritten | graders/c/cgrader/cgrader.py:741-744 | the script as written agrees with the corrected script when no call is affected by a finding |
| Session.GradeAsWritten | graders/c/cgrader/cgrader.py:741-746 | `start` as written saves nothing only when it crashes; when no call is affected it saves the corrected report by the saving as written, crashing exactly when a field has a zero maximum; without zero or negative field maxima it saves exactly what the corrected `start` saves (saving at lines 701-706) |
| Session.EmptyPartialCrashesSession | graders/c/cgrader/cgrader.py:741-746 | a first `test_run` with an empty "partial" list crashes `start` as written after saving the fresh, gradable report with no test; the corrected `start` records that test with full credit (lines 543-551) |
| Session.ZeroFieldLosesReport | graders/c/cgrader/cgrader.py:704-706 | one `add_test_result` with a zero maximum and a field makes `start` as written save nothing and crash; the corrected `start` saves one test (the `finally` at lines 745-746) |
| Session.TestsOnlyAsWritten | graders/c/cgrader/cgrader.py:741-744 | as written, a script of recording and `test_run` calls never raises `UngradableError`: it completes or crashes |
| Session.EmptyScript | graders/c/cgrader/cgrader.py:713-746 | an empty script saves a gradable report with no tests and score 0.0 |
| SchemaDiff.FormatText | packages/postgres-tools/src/diff.ts:32-37 | text is left unchanged unless coloured output is on and a style is given |
| SchemaDiff.UncolouredIgnoresPaint | packages/postgres-tools/src/diff.ts:32-37 | without colour the report does not depend on the styling at all |
| SchemaDiff.Difference | packages/postgres-tools/src/diff.ts:48-55 | the added and missing lists hold exactly the keys of one side absent from the other |
| SchemaDiff.Intersection | packages/postgres-tools/src/diff.ts:100-103 | the compared keys are exactly those on both sides, each once |
| SchemaDiff.ListSection | packages/postgres-tools/src/diff.ts:57-63 | an empty list yields no section |
| SchemaDiff.ListSectionContents | packages/postgres-tools/src/diff.ts:57-71 | without colour a list section is empty exactly when its list is, and holds every marked name |
| SchemaDiff.ReportListsTables | packages/postgres-tools/src/diff.ts:48-71 | the report names every added table as "+ name" and every missing table as "- name" |
| SchemaDiff.ReportListsEnums | packages/postgres-tools/src/diff.ts:73-97 | the report names every added enum as "+ name" and every missing enum as "- name" |
| SchemaDiff.HunksAppend | packages/postgres-tools/src/diff.ts:117-126 | each hunk after the first is preceded by "...\n"; the first hunk has no separator |
| SchemaDiff.TableDiff | packages/postgres-tools/src/diff.ts:112-128 | a table whose patch has no hunk contributes nothing |
| SchemaDiff.TableDiffIff | packages/postgres-tools/src/diff.ts:104-128 | without colour a table contributes exactly when its patch has a hunk, opening with its heading and ending with a blank line |
| SchemaDiff.EnumDiff | packages/postgres-tools/src/diff.ts:139-145 | an enum whose trimmed values agree contributes nothing |
| SchemaDiff.EnumDiffIff | packages/postgres-tools/src/diff.ts:136-146 | without colour an enum contributes exactly when its trimmed values differ, and then shows "- old" and "+ new" |
| SchemaDiff.SameDescriptionEmpty | packages/postgres-tools/src/diff.ts:47-146 | comparing a description with itself reports nothing, given a line diff that finds no hunk between equal texts |
| SchemaDiff.Report | packages/postgres-tools/src/diff.ts:47-146 | without colour the report is empty exactly when no table or enum is added or missing and the per-definition part is empty (which SchemaDiff.ChangesEmptyIff characterises) |
| SchemaDiff.ChangesEmptyIff | packages/postgres-tools/src/diff.ts:98-146 | without colour the per-definition part is empty exactly when every table in both descriptions has a patch without hunks and every enum in both has equal trimmed values |
| SchemaDiff.Diff | packages/postgres-tools/src/diff.ts:31-149 | the corrected report equals the report as written when both targets are of the same kind |
| SchemaDiff.DiffAsWritten | packages/postgres-tools/src/diff.ts:83-89 | when the second description adds no enum, the report as written equals the corrected one |
| SchemaDiff.EnumsAddedHeadingFinding | packages/postgres-tools/src/diff.ts:83-89 | as written the "Enums added" heading carries the first target's type; the corrected report carries the second's; the two differ when the targets are of different kinds |

## Left out

- Process spawning, `su`, the sandbox user, pipes, decoding and the
  timeout clock (cgrader.py:98-147). A run is an input: failed to start,
  finished, or killed.
- `shlex.split` and `shlex.join` are host parameters (`split`).
- Matcher.Stringify: a float argument or pattern value is carried as the
  text `str` gives it; float formatting is not modelled. Pattern values of
  other types (cgrader.py:467-468) are not modelled.
- TestRun.Patterns: a single pattern is a string or a compiled regex by its
  type. Another scalar is not wrapped in a list (cgrader.py:450-451), and
  iterating over it raises `TypeError` (cgrader.py:481); that case is not
  modelled.
- ANSI highlighting of matches with `r.sub` (cgrader.py:493-497) is a host
  parameter (`paint`).
- Python's `re` engine. Patterns built from values are modelled as literal
  chunks joined by `\s+`. A caller's own `re.Pattern` is an opaque predicate.
- Case folding is ASCII only.
- XML parsing of the Check log. The parsed log is an input: missing,
  unparsable with an error text, or a list of suites.
- File-system effects are modelled as a set of existing paths:
  `os.path.isfile`, `os.unlink`, `chmod`/`change_mode`, `mkdtemp`, copying
  the log, and writing results.json.
- Once an object is deleted for invalid primitives, `nm -j` runs on a
  missing file; its error text is taken to list no symbol, so the object
  gets the primitives message only and no second deletion happens.
- `objcopy` runs but its effect on the object is not modelled.
- `absolute()` on object paths is not modelled.
- The in-place growth of a caller's own `add_c_file` list, `flags` list and
  `env` dictionary across calls is not modelled. A nonempty `flags` list
  is extended by `compile_file` (cgrader.py:170, 185) and again by
  `link_object_files` (cgrader.py:295, 307, 317), so a script that reuses
  one list passes the accumulated words to every later call; each call of
  the model starts from the caller's words. The aliasing of a nonempty
  `flags` list within one `compile_file` call is modelled.
- The order of `", ".join` over a Python set is unspecified. The model lists
  found symbols in `nm` order and primitives in a fixed order.
- TestRun.TestName: requires a nonempty argv for a list command. With an
  empty one, `next(iter(command))` raises `StopIteration`.
- Process.CommandOutput: states that a killed run's text starts with its
  output and contains "TIMEOUT". It does not state the diagnostic's full
  wording.
- Text.JsTrim: states only that the result has no whitespace at either end.
  That it is the longest such middle part follows from its definition.
- Text.SplitLines: its own contract states only that the lines hold no
  line break; that they are the text's pieces between boundaries is
  Text.SplitLinesRebuilds.
- Session.RunStep, Session.TestsOnlyNeverAbort and Session.Grade compose the
  corrected operations, so they do not promise what the program as written
  does; Session.RunStepAsWritten, Session.TestsOnlyAsWritten and
  Session.GradeAsWritten do, and say when the two agree.
- Build.TestCompileFile composes the corrected `compile_file`;
  Build.TestCompileFileAsWritten composes the one as written.
- The exception that escapes `start` as written is modelled only as a
  `crashed` flag: its traceback and the process's exit status are not
  modelled.
- `add_manual_grading` and `test_send_in_check_out` are thin wrappers over
  the modelled calls and are not modelled.
- `loadDescription`, database and disk access, `chalk` and
  `structuredPatch` are outside the model. Styling and line diffs are
  parameters.
- JavaScript `Object.keys` puts integer-like keys first. The model keeps
  the stored order.
- A description is a list of named items, so duplicate keys are not
  excluded. A lookup takes the first entry.
- SchemaDiff.ListSection and SchemaDiff.TableDiff: the "only when nonempty"
  direction is stated for any styling. The "exactly when" direction is
  stated without colour, because a styling function may map text to "".

## Findings

| source | as written | input that shows it | evidently intended | confidence | as-written member | corrected member |
|---|---|---|---|---|---|---|
| graders/c/cgrader/cgrader.py:543-551 | under "partial" the match count is divided by `len(exp_output)` | `test_run(cmd, exp_output=[], must_match_all_outputs="partial")` with output that is not disqualified: division by zero raises `ZeroDivisionError` | no expected pattern means nothing can fail, so full credit, as `exp_output=None` gives | not executed | TestRun.EmptyPartialFinding | TestRun.Run |
| graders/c/cgrader/cgrader.py:704-706 | every field's score is `points / max_points` with no guard, unlike the overall score at line 702 (a negative field maximum is also divided by, see Report.NegativeMaximumField) | `add_test_result("t", points=0, max_points=0, field="f")`, then `save_results()`: `ZeroDivisionError` | score 0.0 for a field with a zero maximum, as for the overall score | not executed | Report.ZeroMaximumFieldFinding | Report.SaveResults |
| graders/c/cgrader/cgrader.py:164-170 | `cflags = flags` aliases a list argument, which compile extends in place; link receives the same list (line 270) and extends it again (line 295) | `compile_file("a.c", "a", flags=["-Wall"], enable_asan=True)`: the link command holds the ASAN flags twice, plus `pkg-config --cflags` output | link sees the caller's own flags | not executed | Build.LinkFlagsAliasingFinding | Build.CorrectedLinkFlags |
| packages/postgres-tools/src/diff.ts:84 | the "Enums added to" heading prints `db1.type` | a database compared with a directory of descriptions whose directory adds an enum: the heading says "(database)" after the directory's path | `db2.type`, like the other three headings | not executed | SchemaDiff.EnumsAddedHeadingFinding | SchemaDiff.Diff |

=== FILE: build.dfy ===
/** The build pipeline of the autograder (`compile_file`, `link_object_files`,
    `test_compile_file`): which commands run in which order, which objects
    survive the validator, when instructor-added units are compiled, and when
    the submission is declared ungradable. The compiler, `nm`, `pkg-config`
    and `objcopy` are outside the model: what they print and which files a
    compile or link leaves behind are inputs. */
module Build {
  import opened Wrappers
  import opened Text
  import opened Report

  /** Symbols a submission may neither define nor reference: the hooks
      that would let it silence or reconfigure the sanitizers. */
  const INVALID_SYMBOLS: set<string> := {
    "__asan_default_options", "__asan_on_error", "__asan_malloc_hook",
    "__asan_free_hook", "__asan_unpoison_memory_region",
    "__asan_set_error_exit_code", "__asan_set_death_callback",
    "__asan_set_error_report_callback", "__msan_default_options",
    "__msan_malloc_hook", "__msan_free_hook", "__msan_unpoison",
    "__msan_unpoison_string", "__msan_set_exit_code", "__lsan_is_turned_off",
    "__lsan_default_suppressions", "__lsan_do_leak_check", "__lsan_disable",
    "__lsan_enable", "__lsan_ignore_object", "__lsan_register_root_region",
    "__lsan_unregister_root_region", "__sanitizer_set_death_callback",
    "__sanitizer_set_report_path", "__sanitizer_sandbox_on_notify"
  }

  /** Attributes a submission may not use in its preprocessed source. */
  const NO_SANITIZE: string := "no_sanitize"
  const DISABLE_INSTRUMENTATION: string := "disable_sanitizer_instrumentation"
  const INVALID_PRIMITIVES: seq<string> := [NO_SANITIZE, DISABLE_INSTRUMENTATION]

  const ASAN_FLAGS: seq<string> := ["-fsanitize=address", "-static-libasan", "-g", "-O0"]

  /** The link flag that lets instructor-added objects override student
      definitions. */
  const ALLOW_MULTIPLE: string := "-Wl,--allow-multiple-definition"

  const RED: string := "\U{1b}[31m"
  const RESET: string := "\U{1b}[0m"

  /** What the autograder cannot compute itself: the text a command prints
      (given its argument vector and whether it runs sandboxed), the files
      a compile or link command leaves behind, the contents of a file, and
      `shlex.split`. */
  datatype Host = Host(
    run: (seq<string>, bool) -> string,
    creates: seq<string> -> set<string>,
    read: string -> string,
    split: string -> seq<string>)

  /** What the pipeline reads and changes: the files that exist and the
      report (whose message collects the diagnostics). */
  datatype State = State(files: set<string>, report: Report)

  /** A source file `stem + suffix`; `with_suffix` swaps the suffix. */
  datatype Source = Source(stem: string, suffix: string) {
    function Path(): string { stem + suffix }
    function Object(): string { stem + ".o" }
  }

  /** The `flags` argument: absent, one command line, or a list. */
  datatype Flags = NoFlags | FlagLine(line: string) | FlagList(words: seq<string>)

  /** The `pkg_config_flags` argument: absent, one line, or a list. */
  datatype Packages = NoPackages | PackageLine(line: string) | PackageList(names: seq<string>)

  /** The arguments of one `compile_file` call. An empty `compiler` or
      `execFile` stands for the argument being absent. */
  datatype CompileArgs = CompileArgs(
    sources: seq<Source>,
    execFile: string,
    added: seq<Source>,
    compiler: string,
    flags: Flags,
    packages: Packages,
    warnings: bool,
    ungradableIfFailed: bool,
    asan: bool,
    rejectSymbols: set<string>,
    objcopyArgs: seq<string>)

  /** The words a flags argument stands for: a non-empty line is split, an
      empty one (or an empty list, or none) is no flags. */
  function FlagWords(f: Flags, host: Host): (ws: seq<string>)
    ensures f.FlagList? ==> ws == f.words
    ensures f.NoFlags? || f == FlagLine([]) ==> ws == []
  {
    match f
    case NoFlags => []
    case FlagLine(line) => if line == [] then [] else host.split(line)
    case FlagList(ws) => ws
  }

  function PackageNames(p: Packages, host: Host): (ns: seq<string>)
    ensures p.PackageList? ==> ns == p.names
    ensures p.PackageLine? && p.line != [] ==> ns == host.split(p.line)
    ensures p.NoPackages? || p == PackageLine([]) ==> ns == []
  {
    match p
    case NoPackages => []
    case PackageLine(line) => if line == [] then [] else host.split(line)
    case PackageList(ns) => ns
  }

  /** A package argument is given: present and, as Python tests it,
      not empty. A blank line counts as given. */
  predicate PackagesGiven(p: Packages) {
    match p
    case NoPackages => false
    case PackageLine(line) => line != []
    case PackageList(ns) => ns != []
  }

  /** The `pkg-config` query: the option, then the package names. */
  function PkgConfigCommand(p: Packages, option: string, host: Host): (argv: seq<string>)
    ensures |argv| == 2 + |PackageNames(p, host)|
    ensures argv[..2] == ["pkg-config", option] && argv[2..] == PackageNames(p, host)
  {
    ["pkg-config", option] + PackageNames(p, host)
  }

  /** The flags `pkg-config` contributes (`--cflags` when compiling,
      `--libs` when linking): nothing unless a package argument is given;
      otherwise `pkg-config` is queried, even when the names are empty,
      and what it prints is split into words. */
  function PackageFlags(p: Packages, option: string, host: Host): (ws: seq<string>)
    ensures !PackagesGiven(p) ==> ws == []
    ensures PackagesGiven(p) && host.run(PkgConfigCommand(p, option, host), true) != [] ==>
              ws == host.split(host.run(PkgConfigCommand(p, option, host), true))
    ensures host.run(PkgConfigCommand(p, option, host), true) == [] ==> ws == []
  {
    if !PackagesGiven(p) then []
    else
      var out := host.run(PkgConfigCommand(p, option, host), true);
      if out == [] then [] else host.split(out)
  }

  /** The package argument the link step receives from `compile_file`: a
      given line has already been split into a list of names. */
  function LinkPackages(p: Packages, host: Host): (q: Packages)
    ensures PackageNames(q, host) == PackageNames(p, host)
    ensures p.PackageLine? && p.line != [] ==> q.PackageList?
    ensures !(p.PackageLine? && p.line != []) ==> q == p
  {
    if p.PackageLine? && p.line != [] then PackageList(host.split(p.line)) else p
  }

  /** A blank package line names no package, yet compiling still queries
      `pkg-config --cflags` with no names and keeps what it prints; the
      link step receives the empty list the line split into and queries
      nothing. */
  lemma BlankPackageLine(p: Packages, host: Host)
    requires p.PackageLine? && p.line != [] && host.split(p.line) == []
    ensures PkgConfigCommand(p, "--cflags", host) == ["pkg-config", "--cflags"]
    ensures host.run(["pkg-config", "--cflags"], true) != [] ==>
              PackageFlags(p, "--cflags", host) == host.split(host.run(["pkg-config", "--cflags"], true))
    ensures PackageFlags(LinkPackages(p, host), "--libs", host) == []
  {
    assert PkgConfigCommand(p, "--cflags", host) == ["pkg-config", "--cflags"] + [];
  }

  function CompilerOf(given: string, default: string): string {
    if given == [] then default else given
  }

  /** The flags every compile command ends with. */
  function CompileFlags(a: CompileArgs, host: Host): (ws: seq<string>)
    ensures ws == FlagWords(a.flags, host) + (if a.asan then ASAN_FLAGS else [])
                  + PackageFlags(a.packages, "--cflags", host)
  {
    FlagWords(a.flags, host) + (if a.asan then ASAN_FLAGS else []) + PackageFlags(a.packages, "--cflags", host)
  }

  /** The names of `INVALID_PRIMITIVES` that occur in a preprocessed
      text, in their listed order. */
  function FoundPrimitives(text: string): (found: seq<string>)
    ensures forall p :: p in found <==> p in INVALID_PRIMITIVES && Contains(text, p)
    ensures |found| <= |INVALID_PRIMITIVES|
  {
    (if Contains(text, NO_SANITIZE) then [NO_SANITIZE] else [])
    + (if Contains(text, DISABLE_INSTRUMENTATION) then [DISABLE_INSTRUMENTATION] else [])
  }

  predicate Distinct(xs: seq<string>) {
    forall i, j :: 0 <= i < j < |xs| ==> xs[i] != xs[j]
  }

  /** `(INVALID_SYMBOLS | reject_symbols) & set(symbols)`, listed without
      repetition in the order `nm` printed them. */
  function FoundSymbols(symbols: seq<string>, forbidden: set<string>): (found: seq<string>)
    ensures forall s :: s in found <==> s in forbidden && s in symbols
    ensures Distinct(found)
    decreases |symbols|
  {
    if symbols == [] then []
    else
      var rest := FoundSymbols(symbols[1..], forbidden - {symbols[0]});
      if symbols[0] in forbidden then [symbols[0]] + rest else rest
  }

  /** The preprocessed text of a unit: the first of its `.i`, `.ii` and
      `.mi` files that exists, if any. */
  function PreprocessedFile(u: Source, files: set<string>): (f: Option<string>)
    ensures f.Some? ==> f.value in files
    ensures f.None? <==> u.stem + ".i" !in files && u.stem + ".ii" !in files && u.stem + ".mi" !in files
    ensures u.stem + ".i" in files ==> f == Some(u.stem + ".i")
    ensures u.stem + ".i" !in files && u.stem + ".ii" in files ==> f == Some(u.stem + ".ii")
    ensures u.stem + ".i" !in files && u.stem + ".ii" !in files && u.stem + ".mi" in files ==> f == Some(u.stem + ".mi")
  {
    if u.stem + ".i" in files then Some(u.stem + ".i")
    else if u.stem + ".ii" in files then Some(u.stem + ".ii")
    else if u.stem + ".mi" in files then Some(u.stem + ".mi")
    else None
  }

  function PrimitivesMessage(found: seq<string>): string {
    "\n" + RED + "The following unauthorized primitives were found in the submitted code:\n\t"
    + Join(", ", found) + RESET
  }

  function SymbolsMessage(found: seq<string>): string {
    "\n" + RED + "The following unauthorized function(s) and/or variable(s) were found in the submitted code:\n\t"
    + Join(", ", found) + RESET
  }

  /** The build so far: the files that exist and the output collected. */
  datatype Progress = Progress(files: set<string>, out: string)

  /** The primitives the validator finds for a unit, given the files. */
  function PrimitivesFound(u: Source, files: set<string>, host: Host): seq<string> {
    match PreprocessedFile(u, files)
    case None => []
    case Some(f) => FoundPrimitives(host.read(f))
  }

  /** The symbols the validator finds in a unit's object. */
  function SymbolsFound(u: Source, a: CompileArgs, host: Host): seq<string> {
    FoundSymbols(SplitLines(host.run(["nm", "-j", u.Object()], false)), INVALID_SYMBOLS + a.rejectSymbols)
  }

  /** The validator run on an object that exists: the object is deleted
      (and the output explains why) when its preprocessed text uses an
      invalid primitive, and otherwise when `nm` lists a forbidden symbol.
      Once the object is deleted `nm` finds no file and lists no symbol,
      so a rejected object is explained by one message only. `objcopy`
      prints nothing the autograder keeps. */
  function Validate(p: Progress, u: Source, a: CompileArgs, host: Host): (q: Progress)
    requires u.Object() in p.files
    ensures u.Object() in q.files <==> PrimitivesFound(u, p.files, host) == [] && SymbolsFound(u, a, host) == []
    ensures q.files == p.files || q.files == p.files - {u.Object()}
    ensures PrimitivesFound(u, p.files, host) != [] ==> q.out == p.out + PrimitivesMessage(PrimitivesFound(u, p.files, host))
    ensures PrimitivesFound(u, p.files, host) == [] && SymbolsFound(u, a, host) != [] ==>
              q.out == p.out + SymbolsMessage(SymbolsFound(u, a, host))
    ensures u.Object() in q.files ==> q == p
    ensures p.out <= q.out
  {
    var prims := PrimitivesFound(u, p.files, host);
    var p1 := if prims == [] then p else Progress(p.files - {u.Object()}, p.out + PrimitivesMessage(prims));
    var syms := if prims == [] then SymbolsFound(u, a, host) else [];
    if syms == [] then p1 else Progress(p1.files - {u.Object()}, p1.out + SymbolsMessage(syms))
  }

  function StudentCommand(u: Source, a: CompileArgs, defaultCompiler: string, host: Host): seq<string> {
    [CompilerOf(a.compiler, defaultCompiler), "-save-temps", "-c", u.Path(), "-o", u.Object()] + CompileFlags(a, host)
  }

  function AddedCommand(u: Source, a: CompileArgs, defaultCompiler: string, host: Host): seq<string> {
    [CompilerOf(a.compiler, defaultCompiler), "-c", u.Path(), "-o", u.Object()] + CompileFlags(a, host)
  }

  /** Runs a compile or link command: its output is collected and the
      files it leaves behind now exist. */
  function Exec(p: Progress, argv: seq<string>, host: Host): (q: Progress)
    ensures q.files == p.files + host.creates(argv)
    ensures q.out == p.out + host.run(argv, false)
  {
    Progress(p.files + host.creates(argv), p.out + host.run(argv, false))
  }

  /** Compiles one student unit and validates its object if it exists. */
  function CompileStudentUnit(p: Progress, u: Source, a: CompileArgs, defaultCompiler: string, host: Host): (q: Progress)
    ensures var built := Exec(p, StudentCommand(u, a, defaultCompiler, host), host);
            u.Object() in q.files <==>
              u.Object() in built.files && PrimitivesFound(u, built.files, host) == [] && SymbolsFound(u, a, host) == []
    ensures forall f :: f != u.Object() ==> (f in q.files <==> f in p.files + host.creates(StudentCommand(u, a, defaultCompiler, host)))
  {
    var built := Exec(p, StudentCommand(u, a, defaultCompiler, host), host);
    if u.Object() in built.files then Validate(built, u, a, host) else built
  }

  /** The student units, compiled and validated in order. */
  function CompileStudentUnits(p: Progress, us: seq<Source>, a: CompileArgs, defaultCompiler: string, host: Host): Progress
    decreases |us|
  {
    if us == [] then p
    else CompileStudentUnits(CompileStudentUnit(p, us[0], a, defaultCompiler, host), us[1..], a, defaultCompiler, host)
  }

  /** What each added unit's compile command prints, in order. */
  function AddedOutputs(us: seq<Source>, a: CompileArgs, defaultCompiler: string, host: Host): (outs: seq<string>)
    ensures |outs| == |us|
    ensures forall i :: 0 <= i < |us| ==> outs[i] == host.run(AddedCommand(us[i], a, defaultCompiler, host), false)
  {
    seq(|us|, i requires 0 <= i < |us| => host.run(AddedCommand(us[i], a, defaultCompiler, host), false))
  }

  /** The instructor-added units, compiled in order (no validation): every
      command runs, the files each one leaves behind now exist, and the
      outputs are appended in order. */
  function CompileAddedUnits(p: Progress, us: seq<Source>, a: CompileArgs, defaultCompiler: string, host: Host): (q: Progress)
    ensures forall f :: f in q.files <==>
              f in p.files || exists i :: 0 <= i < |us| && f in host.creates(AddedCommand(us[i], a, defaultCompiler, host))
    ensures q.out == p.out + Join("", AddedOutputs(us, a, defaultCompiler, host))
    decreases |us|
  {
    if us == [] then p
    else
      AddedStep(us, a, defaultCompiler, host);
      CompileAddedUnits(Exec(p, AddedCommand(us[0], a, defaultCompiler, host), host), us[1..], a, defaultCompiler, host)
  }

  /** The first added unit, then the rest. */
  lemma AddedStep(us: seq<Source>, a: CompileArgs, defaultCompiler: string, host: Host)
    requires us != []
    ensures Join("", AddedOutputs(us, a, defaultCompiler, host))
            == host.run(AddedCommand(us[0], a, defaultCompiler, host), false) + Join("", AddedOutputs(us[1..], a, defaultCompiler, host))
    ensures forall f :: (exists i :: 0 <= i < |us| && f in host.creates(AddedCommand(us[i], a, defaultCompiler, host)))
                        <==> f in host.creates(AddedCommand(us[0], a, defaultCompiler, host))
                             || exists j :: 0 <= j < |us[1..]| && f in host.creates(AddedCommand(us[1..][j], a, defaultCompiler, host))
  {
    var outs := AddedOutputs(us, a, defaultCompiler, host);
    assert outs == [outs[0]] + AddedOutputs(us[1..], a, defaultCompiler, host);
    JoinEmptyCons(outs[0], AddedOutputs(us[1..], a, defaultCompiler, host));
    forall f
      ensures (exists i :: 0 <= i < |us| && f in host.creates(AddedCommand(us[i], a, defaultCompiler, host)))
              ==> f in host.creates(AddedCommand(us[0], a, defaultCompiler, host))
                  || exists j :: 0 <= j < |us[1..]| && f in host.creates(AddedCommand(us[1..][j], a, defaultCompiler, host))
    {
      if exists i :: 0 <= i < |us| && f in host.creates(AddedCommand(us[i], a, defaultCompiler, host)) {
        var i :| 0 <= i < |us| && f in host.creates(AddedCommand(us[i], a, defaultCompiler, host));
        if i > 0 {
          assert us[1..][i - 1] == us[i];
        }
      }
    }
  }

  function Objects(us: seq<Source>): (objs: seq<string>)
    ensures |objs| == |us| && forall i :: 0 <= i < |us| ==> objs[i] == us[i].Object()
  {
    seq(|us|, i requires 0 <= i < |us| => us[i].Object())
  }

  predicate AllExist(objs: seq<string>, files: set<string>) {
    forall i :: 0 <= i < |objs| ==> objs[i] in files
  }

  /** The compile stage of `compile_file`: student units first; the added
      units only when every student object still exists, and then every
      one of them is compiled, in order. Returns the build and the added
      objects that were attempted. */
  function CompileStage(files: set<string>, a: CompileArgs, defaultCompiler: string, host: Host): (r: (Progress, seq<string>))
    ensures var students := CompileStudentUnits(Progress(files, []), a.sources, a, defaultCompiler, host);
            AllExist(Objects(a.sources), students.files) ==>
              r.1 == Objects(a.added)
              && (forall f :: f in r.0.files <==>
                    f in students.files
                    || exists i :: 0 <= i < |a.added| && f in host.creates(AddedCommand(a.added[i], a, defaultCompiler, host)))
              && r.0.out == students.out + Join("", AddedOutputs(a.added, a, defaultCompiler, host))
    ensures var students := CompileStudentUnits(Progress(files, []), a.sources, a, defaultCompiler, host);
            !AllExist(Objects(a.sources), students.files) ==> r.1 == [] && r.0 == students
  {
    var students := CompileStudentUnits(Progress(files, []), a.sources, a, defaultCompiler, host);
    if AllExist(Objects(a.sources), students.files) then
      (CompileAddedUnits(students, a.added, a, defaultCompiler, host), Objects(a.added))
    else (students, [])
  }

  /** The arguments of one `link_object_files` call. */
  datatype LinkArgs = LinkArgs(
    students: seq<string>,
    added: seq<string>,
    execFile: string,
    compiler: string,
    flags: Flags,
    packages: Packages,
    warnings: bool,
    ungradableIfFailed: bool,
    asan: bool)

  /** The flags the link command ends with: the caller's first, then one
      word for each addition. */
  function LinkFlags(l: LinkArgs, host: Host): (ws: seq<string>)
    ensures FlagWords(l.flags, host) <= ws
    ensures |ws| == |FlagWords(l.flags, host)| + (if l.asan then |ASAN_FLAGS| else 0) + (if l.added != [] then 1 else 0)
                    + |PackageFlags(l.packages, "--libs", host)|
  {
    FlagWords(l.flags, host) + (if l.asan then ASAN_FLAGS else [])
    + (if l.added != [] then [ALLOW_MULTIPLE] else []) + PackageFlags(l.packages, "--libs", host)
  }

  /** The link command: added objects come before the student objects, so
      that the student's definitions are the ones that can be overridden. */
  function LinkCommand(l: LinkArgs, defaultCompiler: string, host: Host): (argv: seq<string>)
    ensures |argv| == 4 + |l.added| + |l.students| + |LinkFlags(l, host)|
    ensures argv[0] == CompilerOf(l.compiler, defaultCompiler)
    ensures argv[|argv| - |LinkFlags(l, host)|..] == LinkFlags(l, host)
  {
    [CompilerOf(l.compiler, defaultCompiler)] + l.added + l.students + ["-o", l.execFile, "-lm"] + LinkFlags(l, host)
  }

  /** The link command lists the compiler, every added object, every
      student object, then the output options and the flags; the
      multiple-definition flag follows the user's and sanitizer flags
      exactly when there are added objects. */
  lemma LinkCommandLayout(l: LinkArgs, defaultCompiler: string, host: Host)
    ensures var argv := LinkCommand(l, defaultCompiler, host);
            var n, m := |l.added|, |l.students|;
            |argv| == 4 + n + m + |LinkFlags(l, host)|
            && argv[1..1 + n] == l.added && argv[1 + n..1 + n + m] == l.students
            && argv[1 + n + m..4 + n + m] == ["-o", l.execFile, "-lm"]
    ensures var base := FlagWords(l.flags, host) + (if l.asan then ASAN_FLAGS else []);
            var flags := LinkFlags(l, host);
            (l.added != [] ==> |flags| > |base| && flags[|base|] == ALLOW_MULTIPLE)
            && (l.added == [] ==> flags == base + PackageFlags(l.packages, "--libs", host))
  {
    var argv := LinkCommand(l, defaultCompiler, host);
    var head := [CompilerOf(l.compiler, defaultCompiler)] + l.added;
    assert argv == head + l.students + ["-o", l.execFile, "-lm"] + LinkFlags(l, host);
  }

  /** `link_object_files`: runs the link; when the executable was not
      produced and `ungradable_if_failed` holds, the linker output goes to
      the message and the submission is ungradable; otherwise non-empty
      output is reported as warnings when asked. Returns the output. */
  function Link(s: State, l: LinkArgs, defaultCompiler: string, host: Host): (r: Outcome<State, string>)
    ensures var argv := LinkCommand(l, defaultCompiler, host);
            r.State().files == s.files + host.creates(argv)
    ensures var argv := LinkCommand(l, defaultCompiler, host);
            r.Ungradable? <==> l.execFile !in s.files + host.creates(argv) && l.ungradableIfFailed
    ensures r.Ungradable? ==> r.reason == "Linker errors"
    ensures r.Done? ==> r.value == host.run(LinkCommand(l, defaultCompiler, host), false)
    ensures r.State().report == s.report.(message := r.State().report.message)
    ensures s.report.message <= r.State().report.message
  {
    var argv := LinkCommand(l, defaultCompiler, host);
    var out := host.run(argv, false);
    var files := s.files + host.creates(argv);
    if l.execFile !in files && l.ungradableIfFailed then
      Ungradable(State(files, AppendMessage(s.report, "Linker errors, please fix and try again.\n\n" + out + "\n")),
                 "Linker errors")
    else
      var report := if out != [] && l.warnings then AppendMessage(s.report, "Linker warnings:\n\n" + out + "\n") else s.report;
      Done(State(files, report), out)
  }

  /** The flags `compile_file` hands on to the link step as written: a
      non-empty list is the very list the compile step extended in place
      (with the sanitizer and `pkg-config --cflags` flags), any other form
      is passed unchanged. */
  function HandedOnFlags(a: CompileArgs, host: Host): (f: Flags)
    ensures !(a.flags.FlagList? && a.flags.words != []) ==> f == a.flags
    ensures !a.asan && PackageFlags(a.packages, "--cflags", host) == [] ==> f == a.flags
    ensures a.flags.FlagList? && a.flags.words != [] ==> f.FlagList? && a.flags.words <= f.words
  {
    if a.flags.FlagList? && a.flags.words != [] then FlagList(CompileFlags(a, host)) else a.flags
  }

  function LinkArgsFor(a: CompileArgs, students: seq<string>, added: seq<string>, flags: Flags, host: Host): LinkArgs {
    LinkArgs(students, added, a.execFile, a.compiler, flags, LinkPackages(a.packages, host), a.warnings, a.ungradableIfFailed, a.asan)
  }

  /** `compile_file` with `return_objects`, the link step receiving
      `linkFlags`. */
  function CompileWith(s: State, a: CompileArgs, defaultCompiler: string, host: Host, linkFlags: Flags)
    : (r: Outcome<State, (string, seq<string>)>)
    ensures r.Done? ==> r.value.1 == Objects(a.sources) + CompileStage(s.files, a, defaultCompiler, host).1
    ensures r.Done? && a.execFile == [] ==> r.value.0 == CompileStage(s.files, a, defaultCompiler, host).0.out
    ensures r.Done? ==> CompileStage(s.files, a, defaultCompiler, host).0.out <= r.value.0
    ensures r.State().report == s.report.(message := r.State().report.message)
    ensures s.report.message <= r.State().report.message
  {
    var (built, addedObjs) := CompileStage(s.files, a, defaultCompiler, host);
    var studentObjs := Objects(a.sources);
    if a.ungradableIfFailed && !AllExist(studentObjs + addedObjs, built.files) then
      Ungradable(State(built.files, AppendMessage(s.report, "Compilation errors, please fix and try again.\n\n" + built.out + "\n")),
                 "Compilation errors")
    else
      var report := if built.out != [] && a.warnings then AppendMessage(s.report, "Compilation warnings:\n\n" + built.out + "\n")
                    else s.report;
      var s1 := State(built.files, report);
      if a.execFile == [] then Done(s1, (built.out, studentObjs + addedObjs))
      else match Link(s1, LinkArgsFor(a, studentObjs, addedObjs, linkFlags, host), defaultCompiler, host)
        case Ungradable(s2, why) => Ungradable(s2, why)
        case Done(s2, linkOut) => Done(s2, (built.out + linkOut, studentObjs + addedObjs))
  }

  /** `compile_file`, the link step receiving the caller's own flags: it
      fails only for compilation or linker errors, the latter only when
      an executable is named, and returns the student objects followed by
      the added objects attempted. */
  function CompileFile(s: State, a: CompileArgs, defaultCompiler: string, host: Host): (r: Outcome<State, (string, seq<string>)>)
    ensures r.Ungradable? ==> r.reason == "Compilation errors" || (r.reason == "Linker errors" && a.execFile != [])
    ensures r.Done? ==> r.value.1 == Objects(a.sources) + CompileStage(s.files, a, defaultCompiler, host).1
  {
    CompileWith(s, a, defaultCompiler, host, a.flags)
  }

  /** `compile_file` as written, the link step receiving the list the
      compile step extended. It differs from the corrected one only when
      that list reaches the link step changed. */
  function CompileFileAsWritten(s: State, a: CompileArgs, defaultCompiler: string, host: Host): (r: Outcome<State, (string, seq<string>)>)
    ensures HandedOnFlags(a, host) == a.flags ==> r == CompileFile(s, a, defaultCompiler, host)
    ensures !a.asan && PackageFlags(a.packages, "--cflags", host) == [] ==> r == CompileFile(s, a, defaultCompiler, host)
  {
    CompileWith(s, a, defaultCompiler, host, HandedOnFlags(a, host))
  }

  /** The submission is declared ungradable by the compile step exactly
      when `ungradable_if_failed` holds and some student object, or some
      added object that was attempted, does not exist after compiling; the
      compiler output then goes to the message. */
  lemma CompileUngradableIff(s: State, a: CompileArgs, defaultCompiler: string, host: Host)
    ensures var (built, addedObjs) := CompileStage(s.files, a, defaultCompiler, host);
            var r := CompileFile(s, a, defaultCompiler, host);
            (r.Ungradable? && r.reason == "Compilation errors")
            <==> a.ungradableIfFailed && !AllExist(Objects(a.sources) + addedObjs, built.files)
  {
    var (built, addedObjs) := CompileStage(s.files, a, defaultCompiler, host);
    var r := CompileFile(s, a, defaultCompiler, host);
    if !(a.ungradableIfFailed && !AllExist(Objects(a.sources) + addedObjs, built.files)) && a.execFile != [] {
      var s1 := r.State();
      var l := LinkArgsFor(a, Objects(a.sources), addedObjs, a.flags, host);
      assert "Linker errors" != "Compilation errors";
    }
  }

  /** Instructor-added units are compiled only when every student object
      survived; otherwise none of them is even attempted. When they are,
      each one's command runs: the files it leaves behind exist afterwards
      and its output occurs in the collected output. */
  lemma AddedUnitsGated(files: set<string>, a: CompileArgs, defaultCompiler: string, host: Host)
    ensures var students := CompileStudentUnits(Progress(files, []), a.sources, a, defaultCompiler, host);
            var (built, addedObjs) := CompileStage(files, a, defaultCompiler, host);
            !AllExist(Objects(a.sources), students.files) ==> built == students && addedObjs == []
    ensures var students := CompileStudentUnits(Progress(files, []), a.sources, a, defaultCompiler, host);
            var (built, addedObjs) := CompileStage(files, a, defaultCompiler, host);
            AllExist(Objects(a.sources), students.files) ==>
              addedObjs == Objects(a.added) && students.out <= built.out
              && forall i :: 0 <= i < |a.added| ==>
                   host.creates(AddedCommand(a.added[i], a, defaultCompiler, host)) <= built.files
                   && Contains(built.out, host.run(AddedCommand(a.added[i], a, defaultCompiler, host), false))
  {
    var students := CompileStudentUnits(Progress(files, []), a.sources, a, defaultCompiler, host);
    var (built, addedObjs) := CompileStage(files, a, defaultCompiler, host);
    if AllExist(Objects(a.sources), students.files) {
      var outs := AddedOutputs(a.added, a, defaultCompiler, host);
      forall i | 0 <= i < |a.added|
        ensures host.creates(AddedCommand(a.added[i], a, defaultCompiler, host)) <= built.files
        ensures Contains(built.out, host.run(AddedCommand(a.added[i], a, defaultCompiler, host), false))
      {
        JoinContainsEach("", outs, i);
        ContainsAfter(students.out, Join("", outs), outs[i]);
      }
    }
  }

  /** A student object that the validator rejects blocks every added
      unit, and with `ungradable_if_failed` the whole submission. */
  lemma RejectedObjectBlocks(s: State, a: CompileArgs, defaultCompiler: string, host: Host, i: nat)
    requires i < |a.sources|
    requires a.sources[i].Object() !in CompileStudentUnits(Progress(s.files, []), a.sources, a, defaultCompiler, host).files
    ensures CompileStage(s.files, a, defaultCompiler, host).1 == []
    ensures a.ungradableIfFailed ==> CompileFile(s, a, defaultCompiler, host).Ungradable?
  {
    var students := CompileStudentUnits(Progress(s.files, []), a.sources, a, defaultCompiler, host);
    assert Objects(a.sources)[i] == a.sources[i].Object();
    assert !AllExist(Objects(a.sources), students.files);
    var (built, addedObjs) := CompileStage(s.files, a, defaultCompiler, host);
    assert (Objects(a.sources) + addedObjs)[i] == a.sources[i].Object();
  }

  /** The aliasing of `flags` in `compile_file` as written: a non-empty
      list of flags, with the sanitizer enabled, reaches the link command
      with the sanitizer flags twice, once from the compile step's in-place
      extension (followed by the `pkg-config --cflags` flags) and once from
      the link step's own. */
  lemma LinkFlagsAliasingFinding(a: CompileArgs, host: Host, students: seq<string>, added: seq<string>)
    requires a.flags.FlagList? && a.flags.words != [] && a.asan
    ensures var ws := a.flags.words;
            var cf := PackageFlags(a.packages, "--cflags", host);
            var flags := LinkFlags(LinkArgsFor(a, students, added, HandedOnFlags(a, host), host), host);
            flags[..|ws|] == ws && flags[|ws|..|ws| + 4] == ASAN_FLAGS
            && flags[|ws| + 4..|ws| + 4 + |cf|] == cf && flags[|ws| + 4 + |cf|..|ws| + 8 + |cf|] == ASAN_FLAGS
  {
    var ws := a.flags.words;
    var cf := PackageFlags(a.packages, "--cflags", host);
    var rest := (if added != [] then [ALLOW_MULTIPLE] else []) + PackageFlags(LinkPackages(a.packages, host), "--libs", host);
    assert |ASAN_FLAGS| == 4;
    var l := LinkArgsFor(a, students, added, HandedOnFlags(a, host), host);
    assert l.flags == FlagList(CompileFlags(a, host)) && l.asan && l.packages == LinkPackages(a.packages, host);
    var fw := FlagWords(l.flags, host);
    assert fw == ws + ASAN_FLAGS + cf;
    assert LinkFlags(l, host) == fw + ASAN_FLAGS + rest;
    assert fw + ASAN_FLAGS + rest == ws + ASAN_FLAGS + cf + ASAN_FLAGS + rest;
    Pieces(ws, ASAN_FLAGS, cf, ASAN_FLAGS, rest);
  }

  /** Handing on the caller's own flags, the link command carries the
      sanitizer flags once, right after the caller's flags, followed only
      by its own additions. */
  lemma CorrectedLinkFlags(a: CompileArgs, host: Host, students: seq<string>, added: seq<string>)
    requires a.flags.FlagList? && a.flags.words != [] && a.asan
    ensures var ws := a.flags.words;
            var flags := LinkFlags(LinkArgsFor(a, students, added, a.flags, host), host);
            flags[..|ws|] == ws && flags[|ws|..|ws| + 4] == ASAN_FLAGS
            && flags[|ws| + 4..] == (if added != [] then [ALLOW_MULTIPLE] else []) + PackageFlags(LinkPackages(a.packages, host), "--libs", host)
  {
    var ws := a.flags.words;
    var rest := (if added != [] then [ALLOW_MULTIPLE] else []) + PackageFlags(LinkPackages(a.packages, host), "--libs", host);
    var l := LinkArgsFor(a, students, added, a.flags, host);
    assert l.flags == a.flags && l.asan && l.added == added && l.packages == LinkPackages(a.packages, host);
    assert FlagWords(l.flags, host) == ws;
    assert |ASAN_FLAGS| == 4;
    assert LinkFlags(l, host) == ws + ASAN_FLAGS + rest;
    assert LinkFlags(l, host) == ws + ASAN_FLAGS + [] + [] + rest;
    Pieces(ws, ASAN_FLAGS, [], [], rest);
  }

  /** Where each piece of a concatenation sits. */
  lemma Pieces(a: seq<string>, b: seq<string>, c: seq<string>, d: seq<string>, e: seq<string>)
    ensures var s := a + b + c + d + e;
            var i, j, k := |a|, |a| + |b|, |a| + |b| + |c|;
            s[..i] == a && s[i..j] == b && s[j..k] == c && s[k..k + |d|] == d && s[j..] == c + d + e
  {
  }

  /** The arguments of one `test_compile_file` call. */
  datatype TestCompileArgs = TestCompileArgs(
    compile: CompileArgs,
    mainFile: Option<Source>,
    points: real,
    field: Option<string>,
    name: string)

  /** The units `test_compile_file` adds: the added ones, then the main
      file when one is given. */
  function AddedWithMain(t: TestCompileArgs): (us: seq<Source>)
    ensures t.mainFile.None? ==> us == t.compile.added
    ensures t.mainFile.Some? ==> us == t.compile.added + [t.mainFile.value]
  {
    if t.mainFile.Some? then t.compile.added + [t.mainFile.value] else t.compile.added
  }

  /** The test `test_compile_file` records once compiling returned. */
  function RecordCompileTest(t: TestCompileArgs, c: Outcome<State, (string, seq<string>)>): (r: Outcome<State, TestResult>)
    ensures c.Ungradable? ==> r == Ungradable(c.state, c.reason)
    ensures c.Done? ==> r.Done? && r.state.files == c.state.files
  {
    match c
    case Ungradable(s1, why) => Ungradable(s1, why)
    case Done(s1, (out, objects)) =>
      var success := if t.compile.execFile != [] then t.compile.execFile in s1.files else AllExist(objects, s1.files);
      var added := AddTestResult(s1.report, Entry(t.name, [], Amount(if success then t.points else 0.0), Some([]),
                                                  out, t.points, t.field, NoImages));
      Done(State(s1.files, added.report), added.test)
  }

  /** `test_compile_file`: compiles (and links, when an executable is
      named), then adds one test worth `points`, earned when the executable
      exists, or, without one, when every object exists. */
  function TestCompileFile(s: State, t: TestCompileArgs, defaultCompiler: string, host: Host)
    : (r: Outcome<State, TestResult>)
    ensures var c := CompileFile(s, t.compile.(added := AddedWithMain(t)), defaultCompiler, host);
            c.Ungradable? <==> r.Ungradable?
    ensures var c := CompileFile(s, t.compile.(added := AddedWithMain(t)), defaultCompiler, host);
            r.Done? ==>
              var success := if t.compile.execFile != [] then t.compile.execFile in c.state.files
                             else AllExist(c.value.1, c.state.files);
              r.value.points == (if success then t.points else 0.0) && r.value.maxPoints == t.points
              && r.value.name == t.name && r.value.output == c.value.0
              && r.state.report.tests == c.state.report.tests + [r.value]
  {
    RecordCompileTest(t, CompileFile(s, t.compile.(added := AddedWithMain(t)), defaultCompiler, host))
  }

  /** `test_compile_file` as written, over `compile_file` as written: the
      same as the corrected one unless the caller's flags reach the link
      step changed. */
  function TestCompileFileAsWritten(s: State, t: TestCompileArgs, defaultCompiler: string, host: Host)
    : (r: Outcome<State, TestResult>)
    ensures HandedOnFlags(t.compile, host) == t.compile.flags ==> r == TestCompileFile(s, t, defaultCompiler, host)
    ensures r.Ungradable? <==>
              CompileFileAsWritten(s, t.compile.(added := AddedWithMain(t)), defaultCompiler, host).Ungradable?
  {
    var a := t.compile.(added := AddedWithMain(t));
    assert CompileFlags(a, host) == CompileFlags(t.compile, host);
    assert HandedOnFlags(a, host) == HandedOnFlags(t.compile, host);
    RecordCompileTest(t, CompileFileAsWritten(s, a, defaultCompiler, host))
  }
}

=== FILE: checksuite.dfy ===
/** `CGrader.run_check_suite`: runs a program built with the Check unit
    test framework and turns each test case of its XML log into one test
    of the report. Running the program, copying the log and parsing the
    XML happen outside the model; the parsed log is an input. */
module CheckSuite {
  import opened Wrappers
  import opened Report

  /** One `<test>` element: its `result` attribute and the texts of its
      `id`, `iteration`, `description` and `message` children (`None` when
      the element has no such attribute or child). */
  datatype SuiteCase = SuiteCase(
    result: Option<string>,
    id: Option<string>,
    iteration: Option<string>,
    description: Option<string>,
    message: Option<string>)

  /** One `<suite>` element: the text of its `title` child and its tests. */
  datatype Suite = Suite(title: Option<string>, cases: seq<SuiteCase>)

  /** The log as the autograder finds it after the run. */
  datatype SuiteLog = LogMissing | LogUnparsable(error: string) | LogParsed(suites: seq<Suite>)

  /** Which parts make up a test's name (`use_suite_title`,
      `use_case_name`, `use_unit_test_id`, `use_iteration`). */
  datatype NameParts = NameParts(suiteTitle: bool, caseName: bool, unitTestId: bool, iteration: bool)

  /** The parts used when the caller passes none: the case name and the
      unit-test id. */
  const DEFAULT_PARTS: NameParts := NameParts(false, true, true, false)

  /** A `findtext` result as an f-string renders it: a missing text is
      "None". */
  function Rendered(t: Option<string>): string {
    match t
    case None => "None"
    case Some(s) => s
  }

  /** The separator between the suite title and the case name: present
      only when both are used. */
  function TitleSeparator(p: NameParts): string {
    if p.suiteTitle && p.caseName then ": " else ""
  }

  /** The separator before the unit-test id: present only when the id is
      used after a title or a case name. */
  function IdSeparator(p: NameParts): string {
    if p.unitTestId && (p.suiteTitle || p.caseName) then " - " else ""
  }

  /** The name of the test recorded for a case: title, separator, case
      name, separator, id and iteration, each part empty when not used. */
  function CaseName(p: NameParts, s: Suite, c: SuiteCase): (name: string)
    ensures !p.suiteTitle && !p.caseName && !p.unitTestId && !p.iteration ==> name == []
    ensures p.suiteTitle ==> Rendered(s.title) <= name
    ensures !p.suiteTitle && p.caseName ==> Rendered(c.description) <= name
    ensures p.iteration ==> |name| >= |" (run " + Rendered(c.iteration) + ")"|
                            && name[|name| - |" (run " + Rendered(c.iteration) + ")"|..] == " (run " + Rendered(c.iteration) + ")"
    ensures !p.iteration && p.unitTestId ==> |name| >= |Rendered(c.id)| && name[|name| - |Rendered(c.id)|..] == Rendered(c.id)
  {
    (if p.suiteTitle then Rendered(s.title) else "") + TitleSeparator(p)
    + (if p.caseName then Rendered(c.description) else "") + IdSeparator(p)
    + (if p.unitTestId then Rendered(c.id) else "")
    + (if p.iteration then " (run " + Rendered(c.iteration) + ")" else "")
  }

  predicate Succeeded(c: SuiteCase) {
    c.result == Some("success")
  }

  /** The `add_test_result` call made for a case: worth one point, earned
      exactly when the case succeeded, with the case's message (or
      nothing) as output. */
  function CaseEntry(p: NameParts, s: Suite, c: SuiteCase): (e: Entry)
    ensures ResolvePoints(e.points, e.maxPoints) == if Succeeded(c) then 1.0 else 0.0
    ensures e.maxPoints == 1.0 && e.field.None? && e.name == CaseName(p, s, c)
    ensures e.output == c.message.GetOr([])
  {
    Entry(CaseName(p, s, c), [], Passed(Succeeded(c)), Some([]), c.message.GetOr([]), 1.0, None, NoImages)
  }

  /** The calls for the cases of one suite, in document order. */
  function CaseEntries(p: NameParts, s: Suite, cases: seq<SuiteCase>): (es: seq<Entry>)
    ensures |es| == |cases|
    ensures forall i :: 0 <= i < |cases| ==> es[i] == CaseEntry(p, s, cases[i])
    decreases |cases|
  {
    if cases == [] then [] else [CaseEntry(p, s, cases[0])] + CaseEntries(p, s, cases[1..])
  }

  /** The calls for every case of every suite, in document order (the
      position of each call is stated by EntriesInOrder, and that every
      case has its call by EntriesCoverCases). */
  function Entries(p: NameParts, suites: seq<Suite>): (es: seq<Entry>)
    ensures |es| == CaseCount(suites)
    decreases |suites|
  {
    if suites == [] then [] else CaseEntries(p, suites[0], suites[0].cases) + Entries(p, suites[1..])
  }

  /** The number of cases in the suites before suite `i`. */
  function CasesBefore(suites: seq<Suite>, i: nat): nat
    requires i <= |suites|
    decreases i
  {
    if i == 0 then 0 else |suites[0].cases| + CasesBefore(suites[1..], i - 1)
  }

  /** Document order: the call for the j-th case of the i-th suite comes
      right after the calls for every case of the suites before it. */
  lemma {:induction false} EntriesInOrder(p: NameParts, suites: seq<Suite>, i: nat, j: nat)
    requires i < |suites| && j < |suites[i].cases|
    ensures CasesBefore(suites, i) + j < |Entries(p, suites)|
    ensures Entries(p, suites)[CasesBefore(suites, i) + j] == CaseEntry(p, suites[i], suites[i].cases[j])
    decreases i
  {
    if i == 0 {
      EntriesFront(p, suites, j);
    } else {
      EntriesInOrder(p, suites[1..], i - 1, j);
      assert suites[1..][i - 1] == suites[i];
      EntriesBack(p, suites, CasesBefore(suites[1..], i - 1) + j);
    }
  }

  /** Every case of every suite has its call among the calls. */
  lemma EntriesCoverCases(p: NameParts, suites: seq<Suite>)
    ensures forall i, j :: 0 <= i < |suites| && 0 <= j < |suites[i].cases| ==> CaseEntry(p, suites[i], suites[i].cases[j]) in Entries(p, suites)
  {
    forall i, j | 0 <= i < |suites| && 0 <= j < |suites[i].cases|
      ensures CaseEntry(p, suites[i], suites[i].cases[j]) in Entries(p, suites)
    {
      EntriesInOrder(p, suites, i, j);
    }
  }

  /** The calls for the first suite's cases come first. */
  lemma EntriesFront(p: NameParts, suites: seq<Suite>, n: nat)
    requires suites != [] && n < |suites[0].cases|
    ensures n < |Entries(p, suites)| && Entries(p, suites)[n] == CaseEntry(p, suites[0], suites[0].cases[n])
  {
    var head := CaseEntries(p, suites[0], suites[0].cases);
    assert Entries(p, suites) == head + Entries(p, suites[1..]);
  }

  /** The calls for the later suites follow those of the first suite. */
  lemma EntriesBack(p: NameParts, suites: seq<Suite>, k: nat)
    requires suites != [] && k < |Entries(p, suites[1..])|
    ensures |suites[0].cases| + k < |Entries(p, suites)|
    ensures Entries(p, suites)[|suites[0].cases| + k] == Entries(p, suites[1..])[k]
  {
    var head := CaseEntries(p, suites[0], suites[0].cases);
    assert Entries(p, suites) == head + Entries(p, suites[1..]);
  }

  function CaseCount(suites: seq<Suite>): nat
    decreases |suites|
  {
    if suites == [] then 0 else |suites[0].cases| + CaseCount(suites[1..])
  }

  function SuccessCount(cases: seq<SuiteCase>): nat
    decreases |cases|
  {
    if cases == [] then 0 else (if Succeeded(cases[0]) then 1 else 0) + SuccessCount(cases[1..])
  }

  function Successes(suites: seq<Suite>): nat
    decreases |suites|
  {
    if suites == [] then 0 else SuccessCount(suites[0].cases) + Successes(suites[1..])
  }

  /** `run_check_suite` once the program has run: a missing log or one
      that does not parse adds its explanation to the message and makes
      the submission ungradable, adding no test; otherwise one test per
      case is added, in order. */
  function RunCheckSuite(r: Report, log: SuiteLog, p: NameParts): (o: Outcome<Report, ()>)
    ensures log.LogMissing? ==>
              o == Ungradable(AppendMessage(r, "Test suite log file not found. Consult the instructor.\n"),
                              "Test suite log file not found.")
    ensures log.LogUnparsable? ==>
              o == Ungradable(AppendMessage(r, "Error parsing test suite log.\n\n" + log.error + "\n"),
                              "Error parsing test suite log.")
    ensures log.LogParsed? ==> o == Done(AddAll(r, Entries(p, log.suites)), ())
  {
    match log
    case LogMissing =>
      Ungradable(AppendMessage(r, "Test suite log file not found. Consult the instructor.\n"), "Test suite log file not found.")
    case LogUnparsable(error) =>
      Ungradable(AppendMessage(r, "Error parsing test suite log.\n\n" + error + "\n"), "Error parsing test suite log.")
    case LogParsed(suites) => Done(AddAll(r, Entries(p, suites)), ())
  }

  lemma {:induction false} SumPointsAppend(a: seq<Entry>, b: seq<Entry>)
    ensures SumPoints(a + b) == SumPoints(a) + SumPoints(b)
    ensures SumMaxPoints(a + b) == SumMaxPoints(a) + SumMaxPoints(b)
    decreases |a|
  {
    if a != [] {
      assert (a + b)[0] == a[0] && (a + b)[1..] == a[1..] + b;
      SumPointsAppend(a[1..], b);
    } else {
      assert a + b == b;
    }
  }

  lemma {:induction false} SuiteSums(p: NameParts, s: Suite, cases: seq<SuiteCase>)
    ensures SumPoints(CaseEntries(p, s, cases)) == SuccessCount(cases) as real
    ensures SumMaxPoints(CaseEntries(p, s, cases)) == |cases| as real
    decreases |cases|
  {
    if cases != [] {
      SuiteSums(p, s, cases[1..]);
      var es := CaseEntries(p, s, cases);
      assert es[0] == CaseEntry(p, s, cases[0]) && es[1..] == CaseEntries(p, s, cases[1..]);
    }
  }

  /** Over a whole log, the calls are one per case, each worth one point,
      and they award one point per successful case. */
  lemma {:induction false} EntriesSums(p: NameParts, suites: seq<Suite>)
    ensures |Entries(p, suites)| == CaseCount(suites)
    ensures SumPoints(Entries(p, suites)) == Successes(suites) as real
    ensures SumMaxPoints(Entries(p, suites)) == CaseCount(suites) as real
    decreases |suites|
  {
    if suites != [] {
      var head, tail := CaseEntries(p, suites[0], suites[0].cases), Entries(p, suites[1..]);
      EntriesSums(p, suites[1..]);
      SuiteSums(p, suites[0], suites[0].cases);
      SumPointsAppend(head, tail);
      assert Entries(p, suites) == head + tail;
      var k, n := SuccessCount(suites[0].cases), Successes(suites[1..]);
      assert Successes(suites) == k + n;
      assert (k + n) as real == k as real + n as real;
      var c, m := |suites[0].cases|, CaseCount(suites[1..]);
      assert CaseCount(suites) == c + m;
      assert (c + m) as real == c as real + m as real;
    } else {
      assert Entries(p, suites) == [];
      assert SumPoints([]) == 0.0 && SumMaxPoints([]) == 0.0;
    }
  }

  /** A parsed log adds exactly one test per case, worth one point each,
      and exactly one point per successful case. */
  lemma ParsedLogTotals(r: Report, suites: seq<Suite>, p: NameParts)
    ensures var o := RunCheckSuite(r, LogParsed(suites), p);
            o.Done? && |o.state.tests| == |r.tests| + CaseCount(suites)
            && o.state.points == r.points + Successes(suites) as real
            && o.state.maxPoints == r.maxPoints + CaseCount(suites) as real
            && o.state.gradable == r.gradable && o.state.message == r.message
  {
    EntriesSums(p, suites);
    AddAllTotals(r, Entries(p, suites));
  }

  /** A recorded test is the one for case `c` of suite `s`: it carries the
      case's name and message, is worth one point, and earns it exactly
      when the case succeeded. */
  predicate RecordedAs(t: TestResult, p: NameParts, s: Suite, c: SuiteCase) {
    t.name == CaseName(p, s, c) && t.output == c.message.GetOr([])
    && t.maxPoints == 1.0 && t.points == (if Succeeded(c) then 1.0 else 0.0)
  }

  /** The test that the n-th of a sequence of calls records, when that
      call is the one made for a case. With RunCheckSuite's contract and
      EntriesInOrder, the test recorded for the j-th case of the i-th
      suite of a parsed log sits at `|r.tests| + CasesBefore(suites, i) + j`. */
  lemma RecordedCase(r: Report, es: seq<Entry>, n: nat, p: NameParts, s: Suite, c: SuiteCase)
    requires n < |es| && es[n] == CaseEntry(p, s, c)
    ensures |r.tests| + n < |AddAll(r, es).tests|
    ensures RecordedAs(AddAll(r, es).tests[|r.tests| + n], p, s, c)
  {
    var e := CaseEntry(p, s, c);
    var t := AddTestResult(r, e).test;
    assert AddAll(r, es).tests[|r.tests| + n] == t;
    assert t.name == e.name && t.output == e.output && t.maxPoints == e.maxPoints;
    assert t.points == ResolvePoints(e.points, e.maxPoints);
  }

  /** With the default parts a case is named "<description> - <id>". */
  lemma DefaultName(s: Suite, c: SuiteCase)
    ensures CaseName(DEFAULT_PARTS, s, c) == Rendered(c.description) + " - " + Rendered(c.id)
  {
  }

  /** The separators: ": " exactly between a used title and a used case
      name, " - " exactly before a used id that follows a used title or
      case name. */
  lemma SeparatorsPlaced(p: NameParts, s: Suite, c: SuiteCase)
    ensures p.suiteTitle && p.caseName && !p.unitTestId && !p.iteration ==>
              CaseName(p, s, c) == Rendered(s.title) + ": " + Rendered(c.description)
    ensures !p.suiteTitle && !p.caseName && p.unitTestId && !p.iteration ==>
              CaseName(p, s, c) == Rendered(c.id)
    ensures p.suiteTitle && !p.caseName && p.unitTestId && !p.iteration ==>
              CaseName(p, s, c) == Rendered(s.title) + " - " + Rendered(c.id)
    ensures p.suiteTitle && p.caseName && p.unitTestId && p.iteration ==>
              CaseName(p, s, c) == Rendered(s.title) + ": " + Rendered(c.description) + " - " + Rendered(c.id)
                                   + " (run " + Rendered(c.iteration) + ")"
  {
  }

  /** The environment the suite runs with: the caller's variables, the
      temporary directory, the log file name, and either the sandbox
      user's ids (unsandboxed runs) or nothing more, plus the malloc
      debugging library when asked. */
  function SuiteEnvironment(env: map<string, string>, logFile: string, sandboxed: bool, mallocDebug: bool,
                            uid: string, gid: string): (e: map<string, string>)
    ensures "TEMP" in e && e["TEMP"] == "/tmp"
    ensures "CK_XML_LOG_FILE_NAME" in e && e["CK_XML_LOG_FILE_NAME"] == logFile
    ensures !sandboxed ==> "SANDBOX_UID" in e && e["SANDBOX_UID"] == uid && "SANDBOX_GID" in e && e["SANDBOX_GID"] == gid
    ensures mallocDebug ==> "LD_PRELOAD" in e && e["LD_PRELOAD"] == "/lib/x86_64-linux-gnu/libc_malloc_debug.so"
    ensures forall k :: k in env && k !in {"TEMP", "CK_XML_LOG_FILE_NAME", "SANDBOX_UID", "SANDBOX_GID", "LD_PRELOAD"}
                        ==> k in e && e[k] == env[k]
    ensures e.Keys == env.Keys + {"TEMP", "CK_XML_LOG_FILE_NAME"} + (if sandboxed then {} else {"SANDBOX_UID", "SANDBOX_GID"})
                      + (if mallocDebug then {"LD_PRELOAD"} else {})
  {
    var e1 := env["TEMP" := "/tmp"]["CK_XML_LOG_FILE_NAME" := logFile];
    var e2 := if sandboxed then e1 else e1["SANDBOX_UID" := uid]["SANDBOX_GID" := gid];
    if mallocDebug then e2["LD_PRELOAD" := "/lib/x86_64-linux-gnu/libc_malloc_debug.so"] else e2
  }
}

=== FILE: matcher.dfy ===
/** The patterns of `CGrader.test_run`: how an expected or rejected value
    is turned into a matcher (the local `compile_re`) and what it means for
    that matcher to find a match in the captured output (`re.search`). */
module Matcher {
  import opened Text

  /** An expected or rejected value other than a compiled regex, or one
      of `args`; the autograder applies `str()` to it. A float is carried
      with the text `str()` gives it (Python's shortest round-trip form),
      which the model takes as given. */
  datatype Value = Str(s: string) | Int(i: int) | Bool(b: bool) | Float(text: string)

  /** What a caller may pass: a plain value, or a regex it compiled itself,
      of which the model knows only its source text and which texts it
      finds a match in. */
  datatype PatternValue = Plain(value: Value) | Regex(source: string, accepts: string -> bool)

  /** Python's `str(v)`: a string is itself, an integer its decimal
      digits (a minus sign exactly for a negative one, no white space), a
      flag "True" or "False". */
  function Stringify(v: Value): (r: string)
    ensures v.Str? ==> r == v.s
    ensures v.Int? ==> r != [] && NoSpace(r) && (v.i < 0 <==> r[0] == '-')
    ensures v.Bool? ==> r == if v.b then "True" else "False"
    ensures v.Float? ==> r == v.text
  {
    match v
    case Str(s) => s
    case Int(i) => IntToString(i)
    case Bool(b) => if b then "True" else "False"
    case Float(text) => text
  }

  /** A compiled matcher. `Chunks(cs, fold)` is the regex
      `escape(cs[0]) \s+ escape(cs[1]) ... \s+ escape(cs[n])`, compared
      case-insensitively when `fold` holds; `Opaque` is a caller's regex. */
  datatype Matcher = Chunks(chunks: seq<string>, fold: bool) | Opaque(accepts: string -> bool)

  /** The pair `compile_re` returns: the text shown in messages, and the
      matcher used for scoring. */
  datatype Compiled = Compiled(shown: string, matcher: Matcher)

  predicate CharMatch(fold: bool, a: char, b: char) {
    if fold then Lower(a) == Lower(b) else a == b
  }

  /** `s` starts with the literal `c`. */
  predicate StartsWithChunk(fold: bool, s: string, c: string) {
    |c| <= |s| && forall j :: 0 <= j < |c| ==> CharMatch(fold, s[j], c[j])
  }

  /** The chunk regex matches some prefix of `s` (anchored `re.match`). */
  predicate MatchPrefix(chunks: seq<string>, fold: bool, s: string)
    decreases |chunks|
  {
    chunks == [] ||
    (StartsWithChunk(fold, s, chunks[0]) &&
     (|chunks| == 1 ||
      exists k :: |chunks[0]| < k <= |s| && AllSpace(s[|chunks[0]|..k])
                  && MatchPrefix(chunks[1..], fold, s[k..])))
  }

  /** `m.search(text) is not None`: an empty chunk list matches every
      text, and a match leaves room in the text for the first chunk. What
      a match means is stated by CollapsedSearchIsRespacedSpelling,
      CollapsedSearchIsRespacedOccurrence and LiteralSearchIsSubstring. */
  predicate Search(m: Matcher, text: string): (found: bool)
    ensures m.Chunks? && m.chunks == [] ==> found
    ensures m.Chunks? && m.chunks != [] && found ==> |m.chunks[0]| <= |text|
  {
    assert m.Chunks? && m.chunks == [] ==> MatchPrefix(m.chunks, m.fold, text[0..]);
    match m
    case Chunks(cs, fold) => exists i :: 0 <= i <= |text| && MatchPrefix(cs, fold, text[i..])
    case Opaque(accepts) => accepts(text)
  }

  /** `t` occurs in `text`, compared case-insensitively when `fold` holds. */
  predicate ContainsFolded(fold: bool, text: string, t: string) {
    exists i :: 0 <= i <= |text| && StartsWithChunk(fold, text[i..], t)
  }

  /** `compile_re(t)` with the call's `ignore_consec_spaces` (`collapse`) and
      `ignore_case` flags. A caller's regex is kept as it is, flags and all;
      any other value is stringified, and either each white-space run of its
      text becomes `\s+` (collapse) or the whole text is matched literally. */
  function CompileRe(p: PatternValue, collapse: bool, ignoreCase: bool): (c: Compiled)
    ensures p.Regex? ==> c.shown == p.source
    ensures p.Regex? ==> forall text :: Search(c.matcher, text) == p.accepts(text)
    ensures p.Plain? ==> Search(c.matcher, Stringify(p.value))
    ensures p.Plain? ==> c.shown == if collapse then Strip(Stringify(p.value))
                                    else StripRight(Stringify(p.value))
    ensures p.Plain? && !collapse ==>
              forall text :: Search(c.matcher, text) <==> ContainsFolded(ignoreCase, text, Stringify(p.value))
  {
    match p
    case Regex(source, accepts) => Compiled(source, Opaque(accepts))
    case Plain(v) =>
      var t := Stringify(v);
      if collapse then
        SelfMatch(t, ignoreCase);
        Compiled(Strip(t), Chunks(SplitSpace(t), ignoreCase))
      else
        assert MatchPrefix([t], ignoreCase, t[0..]);
        Compiled(StripRight(t), Chunks([t], ignoreCase))
  }

  /** A chunk pattern matches every text that spells its chunks with any
      non-empty white-space runs in between, whatever follows. */
  lemma {:induction false} MatchesInterleaved(cs: seq<string>, seps: seq<string>, fold: bool, post: string)
    requires |cs| >= 1 && |seps| == |cs| - 1 && SpaceRuns(seps)
    ensures MatchPrefix(cs, fold, Interleave(cs, seps) + post)
    decreases |cs|
  {
    var s := Interleave(cs, seps) + post;
    if |cs| == 1 {
      assert s == cs[0] + post;
    } else {
      var rest := Interleave(cs[1..], seps[1..]);
      assert s == cs[0] + seps[0] + (rest + post);
      MatchesInterleaved(cs[1..], seps[1..], fold, post);
      var k := |cs[0]| + |seps[0]|;
      assert s[|cs[0]|..k] == seps[0];
      assert s[k..] == rest + post;
    }
    assert StartsWithChunk(fold, s, cs[0]);
  }

  /** A chunk pattern finds a match wherever its chunks appear spelled
      with non-empty white-space runs in between. */
  lemma SearchInterleaved(cs: seq<string>, seps: seq<string>, fold: bool, pre: string, post: string)
    requires |cs| >= 1 && |seps| == |cs| - 1 && SpaceRuns(seps)
    ensures Search(Chunks(cs, fold), pre + Interleave(cs, seps) + post)
  {
    var body := Interleave(cs, seps) + post;
    MatchesInterleaved(cs, seps, fold, post);
    assert (pre + body)[|pre|..] == body;
    assert pre + Interleave(cs, seps) + post == pre + body;
  }

  /** Under `ignore_consec_spaces`, the pattern built from `t` finds a match
      in any text containing `t` re-spaced: every white-space run of `t`
      replaced by any non-empty run of white space. */
  lemma CollapsedMatchesRespaced(t: string, seps: seq<string>, fold: bool, pre: string, post: string)
    requires |seps| == |SplitSpace(t)| - 1 && SpaceRuns(seps)
    ensures Search(Chunks(SplitSpace(t), fold), pre + Interleave(SplitSpace(t), seps) + post)
  {
    SearchInterleaved(SplitSpace(t), seps, fold, pre, post);
  }

  /** The pattern built from `t` always finds a match in `t` itself. */
  lemma SelfMatch(t: string, fold: bool)
    ensures Search(Chunks(SplitSpace(t), fold), t)
  {
    SplitRebuilds(t);
    SplitSeparatorsShape(t);
    CollapsedMatchesRespaced(t, SplitSeparators(t), fold, [], []);
    assert [] + Interleave(SplitSpace(t), SplitSeparators(t)) + [] == t;
  }

  /** Conversely, a case-sensitive chunk pattern only matches a prefix that
      spells its chunks with non-empty white-space runs in between. */
  lemma MatchPrefixIsRespacing(cs: seq<string>, s: string)
    requires |cs| >= 1 && MatchPrefix(cs, false, s)
    ensures exists seps, post :: |seps| == |cs| - 1 && SpaceRuns(seps) && s == Interleave(cs, seps) + post
  {
    var seps, post := Respacing(cs, s);
  }

  /** The white-space runs and the trailing text of a case-sensitive
      chunk match. */
  lemma {:induction false} Respacing(cs: seq<string>, s: string) returns (seps: seq<string>, post: string)
    requires |cs| >= 1 && MatchPrefix(cs, false, s)
    ensures |seps| == |cs| - 1 && SpaceRuns(seps) && s == Interleave(cs, seps) + post
    decreases |cs|
  {
    var n := |cs[0]|;
    assert s[..n] == cs[0];
    if |cs| == 1 {
      seps, post := [], s[n..];
      assert s == s[..n] + s[n..];
    } else {
      var k :| n < k <= |s| && AllSpace(s[n..k]) && MatchPrefix(cs[1..], false, s[k..]);
      var seps', post' := Respacing(cs[1..], s[k..]);
      seps, post := [s[n..k]] + seps', post';
      SliceThree(s, n, k - n);
      assert s[n..][..k - n] == s[n..k] && s[n..][k - n..] == s[k..];
      RespacingCons(cs, s[n..k], seps', s[k..], post);
    }
  }

  /** One step of `Respacing`: a chunk, a run, then the rest. */
  lemma RespacingCons(cs: seq<string>, sep: string, seps': seq<string>, rest: string, post: string)
    requires |cs| >= 2 && |seps'| == |cs| - 2
    requires sep != [] && AllSpace(sep) && SpaceRuns(seps')
    requires rest == Interleave(cs[1..], seps') + post
    ensures SpaceRuns([sep] + seps')
    ensures cs[0] + sep + rest == Interleave(cs, [sep] + seps') + post
  {
    var seps := [sep] + seps';
    assert seps[1..] == seps';
    InterleaveStep(cs, seps);
  }

  /** `text` contains the chunks `cs` spelled with non-empty white-space
      runs in between. */
  ghost predicate RespacedIn(cs: seq<string>, text: string)
    requires |cs| >= 1
  {
    exists pre, seps, post :: |seps| == |cs| - 1 && SpaceRuns(seps)
                              && text == pre + Interleave(cs, seps) + post
  }

  lemma SearchFindsRespacing(cs: seq<string>, text: string)
    requires |cs| >= 1 && Search(Chunks(cs, false), text)
    ensures RespacedIn(cs, text)
  {
    var i :| 0 <= i <= |text| && MatchPrefix(cs, false, text[i..]);
    var seps, post := Respacing(cs, text[i..]);
    var pre := text[..i];
    assert text == pre + text[i..];
    assert text == pre + Interleave(cs, seps) + post;
  }

  /** With `ignore_consec_spaces` and case-sensitive matching, the pattern
      built from `t` finds a match exactly when the text contains `t`
      re-spaced. */
  lemma CollapsedSearchIsRespacedOccurrence(t: string, text: string)
    ensures Search(Chunks(SplitSpace(t), false), text) <==> RespacedIn(SplitSpace(t), text)
  {
    var cs := SplitSpace(t);
    if Search(Chunks(cs, false), text) {
      SearchFindsRespacing(cs, text);
    }
    if RespacedIn(cs, text) {
      var pre, seps, post :| |seps| == |cs| - 1 && SpaceRuns(seps) && text == pre + Interleave(cs, seps) + post;
      CollapsedMatchesRespaced(t, seps, false, pre, post);
    }
  }

  /** `v` spells the chunk `c`: letter for letter, up to ASCII case when
      `fold` holds. */
  predicate Spells(fold: bool, v: string, c: string) {
    |v| == |c| && forall j :: 0 <= j < |c| ==> CharMatch(fold, v[j], c[j])
  }

  predicate SpellsAll(fold: bool, vs: seq<string>, cs: seq<string>) {
    |vs| == |cs| && forall i :: 0 <= i < |cs| ==> Spells(fold, vs[i], cs[i])
  }

  /** `text` contains a spelling of the chunks `cs` (up to case when
      `fold` holds) with non-empty white-space runs in between. */
  ghost predicate RespacedSpellingIn(cs: seq<string>, fold: bool, text: string)
    requires |cs| >= 1
  {
    exists pre, vs, seps, post :: SpellsAll(fold, vs, cs) && |seps| == |cs| - 1 && SpaceRuns(seps)
                                  && text == pre + Interleave(vs, seps) + post
  }

  /** A chunk pattern matches every spelling of its chunks with non-empty
      white-space runs in between, whatever follows. */
  lemma {:induction false} MatchesSpelling(cs: seq<string>, vs: seq<string>, seps: seq<string>, fold: bool, post: string)
    requires |cs| >= 1 && SpellsAll(fold, vs, cs) && |seps| == |cs| - 1 && SpaceRuns(seps)
    ensures MatchPrefix(cs, fold, Interleave(vs, seps) + post)
    decreases |cs|
  {
    var s := Interleave(vs, seps) + post;
    if |cs| == 1 {
      assert s == vs[0] + post;
    } else {
      var rest := Interleave(vs[1..], seps[1..]);
      assert s == vs[0] + seps[0] + (rest + post);
      assert SpellsAll(fold, vs[1..], cs[1..]) by {
        forall i | 0 <= i < |cs| - 1
          ensures Spells(fold, vs[1..][i], cs[1..][i])
        {
          assert vs[1..][i] == vs[i + 1] && cs[1..][i] == cs[i + 1];
        }
      }
      MatchesSpelling(cs[1..], vs[1..], seps[1..], fold, post);
      var k := |cs[0]| + |seps[0]|;
      assert s[|cs[0]|..k] == seps[0];
      assert s[k..] == rest + post;
    }
    assert s[..|vs[0]|] == vs[0];
    assert StartsWithChunk(fold, s, cs[0]);
  }

  /** The spelling, the white-space runs and the trailing text of a chunk
      match. */
  lemma {:induction false} SpelledRespacing(cs: seq<string>, fold: bool, s: string)
    returns (vs: seq<string>, seps: seq<string>, post: string)
    requires |cs| >= 1 && MatchPrefix(cs, fold, s)
    ensures SpellsAll(fold, vs, cs) && |seps| == |cs| - 1 && SpaceRuns(seps) && s == Interleave(vs, seps) + post
    decreases |cs|
  {
    var n := |cs[0]|;
    var v := s[..n];
    assert Spells(fold, v, cs[0]);
    if |cs| == 1 {
      vs, seps, post := [v], [], s[n..];
      assert s == s[..n] + s[n..];
    } else {
      var k :| n < k <= |s| && AllSpace(s[n..k]) && MatchPrefix(cs[1..], fold, s[k..]);
      var vs', seps', post' := SpelledRespacing(cs[1..], fold, s[k..]);
      vs, seps, post := [v] + vs', [s[n..k]] + seps', post';
      SliceThree(s, n, k - n);
      assert s[n..][..k - n] == s[n..k] && s[n..][k - n..] == s[k..];
      SpelledCons(cs, fold, v, vs', s[n..k], seps', s[k..], post');
    }
  }

  /** One step of `SpelledRespacing`: a spelled chunk, a run, then the
      rest. */
  lemma SpelledCons(cs: seq<string>, fold: bool, v: string, vs': seq<string>, sep: string, seps': seq<string>,
                    rest: string, post: string)
    requires |cs| >= 2 && Spells(fold, v, cs[0]) && SpellsAll(fold, vs', cs[1..]) && |seps'| == |cs| - 2
    requires sep != [] && AllSpace(sep) && SpaceRuns(seps')
    requires rest == Interleave(vs', seps') + post
    ensures SpellsAll(fold, [v] + vs', cs) && SpaceRuns([sep] + seps')
    ensures v + sep + rest == Interleave([v] + vs', [sep] + seps') + post
  {
    var vs, seps := [v] + vs', [sep] + seps';
    assert vs[1..] == vs' && seps[1..] == seps';
    InterleaveStep(vs, seps);
    forall i | 0 <= i < |cs|
      ensures Spells(fold, vs[i], cs[i])
    {
      if i > 0 {
        assert vs[i] == vs'[i - 1] && cs[i] == cs[1..][i - 1];
      }
    }
    forall i | 0 <= i < |seps|
      ensures seps[i] != [] && AllSpace(seps[i])
    {
      if i > 0 {
        assert seps[i] == seps'[i - 1];
      }
    }
  }

  /** With `ignore_consec_spaces`, folded or not, the pattern built from
      `t` finds a match exactly when the text contains a spelling of `t`'s
      words (up to case when `ignore_case` holds) separated by non-empty
      white-space runs. */
  lemma CollapsedSearchIsRespacedSpelling(t: string, fold: bool, text: string)
    ensures Search(Chunks(SplitSpace(t), fold), text) <==> RespacedSpellingIn(SplitSpace(t), fold, text)
  {
    var cs := SplitSpace(t);
    if Search(Chunks(cs, fold), text) {
      SearchFindsSpelling(cs, fold, text);
    }
    if RespacedSpellingIn(cs, fold, text) {
      SpellingIsFound(cs, fold, text);
    }
  }

  lemma SearchFindsSpelling(cs: seq<string>, fold: bool, text: string)
    requires |cs| >= 1 && Search(Chunks(cs, fold), text)
    ensures RespacedSpellingIn(cs, fold, text)
  {
    var i :| 0 <= i <= |text| && MatchPrefix(cs, fold, text[i..]);
    var vs, seps, post := SpelledRespacing(cs, fold, text[i..]);
    assert text == text[..i] + text[i..];
    assert text == text[..i] + Interleave(vs, seps) + post;
  }

  lemma SpellingIsFound(cs: seq<string>, fold: bool, text: string)
    requires |cs| >= 1 && RespacedSpellingIn(cs, fold, text)
    ensures Search(Chunks(cs, fold), text)
  {
    var pre, vs, seps, post :| SpellsAll(fold, vs, cs) && |seps| == |cs| - 1 && SpaceRuns(seps)
                               && text == pre + Interleave(vs, seps) + post;
    MatchesSpelling(cs, vs, seps, fold, post);
    assert text[|pre|..] == Interleave(vs, seps) + post;
  }

  /** Without `ignore_consec_spaces` and with case-sensitive matching the
      text is matched literally: a match is an occurrence of `str(t)`. */
  lemma LiteralSearchIsSubstring(v: Value, text: string)
    ensures Search(CompileRe(Plain(v), false, false).matcher, text) <==> Contains(text, Stringify(v))
  {
    var t := Stringify(v);
    if Contains(text, t) {
      var i :| 0 <= i <= |text| && t <= text[i..];
      assert StartsWithChunk(false, text[i..], t);
    }
    if ContainsFolded(false, text, t) {
      var i :| 0 <= i <= |text| && StartsWithChunk(false, text[i..], t);
      assert t == text[i..][..|t|];
    }
  }

  /** Case folding only widens what a chunk pattern accepts. */
  lemma {:induction false} FoldWidensMatchPrefix(cs: seq<string>, s: string)
    requires MatchPrefix(cs, false, s)
    ensures MatchPrefix(cs, true, s)
    decreases |cs|
  {
    if |cs| > 1 {
      var k :| |cs[0]| < k <= |s| && AllSpace(s[|cs[0]|..k]) && MatchPrefix(cs[1..], false, s[k..]);
      FoldWidensMatchPrefix(cs[1..], s[k..]);
    }
  }

  /** A case-sensitive match is also a case-insensitive one. */
  lemma FoldWidensSearch(cs: seq<string>, text: string)
    requires Search(Chunks(cs, false), text)
    ensures Search(Chunks(cs, true), text)
  {
    var i :| 0 <= i <= |text| && MatchPrefix(cs, false, text[i..]);
    FoldWidensMatchPrefix(cs, text[i..]);
  }

  lemma SplitExample()
    ensures SplitSpace("a   b") == ["a", "b"]
  {
    var t := "a   b";
    assert t[1..] == "   b" && t[..1] == "a";
    assert "   b"[3..] == "b" && "   b"[..3] == "   ";
    assert WordLength("b") == 1;
    assert SplitSpace("b") == ["b"];
    assert WordLength(t) == 1;
    assert SpaceLength("   b") == 3;
  }

  /** "a   b" finds "a\nb" when white-space runs are collapsed, and does not
      when the text is matched literally. */
  lemma CollapseExample()
    ensures Search(CompileRe(Plain(Str("a   b")), true, false).matcher, "a\nb")
    ensures !Search(CompileRe(Plain(Str("a   b")), false, false).matcher, "a\nb")
  {
    CollapsedExampleMatches();
    LiteralExampleFails();
  }

  lemma CollapsedExampleMatches()
    ensures Search(Chunks(SplitSpace("a   b"), false), "a\nb")
  {
    SplitExample();
    assert SpaceRuns(["\n"]);
    CollapsedMatchesRespaced("a   b", ["\n"], false, [], []);
    assert Interleave(["a", "b"], ["\n"]) == "a\nb";
    assert [] + Interleave(SplitSpace("a   b"), ["\n"]) + [] == "a\nb";
  }

  lemma LiteralExampleFails()
    ensures !Search(Chunks(["a   b"], false), "a\nb")
  {
    forall i | 0 <= i <= 3
      ensures !MatchPrefix(["a   b"], false, "a\nb"[i..])
    {
      assert |"a\nb"[i..]| < 5;
    }
  }

  /** Case folding applies only when `ignore_case` is set. */
  lemma IgnoreCaseExample()
    ensures Search(CompileRe(Plain(Str("Hello")), false, true).matcher, "hello")
    ensures !Search(CompileRe(Plain(Str("Hello")), false, false).matcher, "hello")
  {
    FoldedExampleMatches();
    UnfoldedExampleFails();
  }

  lemma FoldedExampleMatches()
    ensures Search(Chunks(["Hello"], true), "hello")
  {
    assert MatchPrefix(["Hello"], true, "hello"[0..]);
  }

  lemma UnfoldedExampleFails()
    ensures !Search(Chunks(["Hello"], false), "hello")
  {
    forall i | 0 <= i <= 5
      ensures !MatchPrefix(["Hello"], false, "hello"[i..])
    {
      if i == 0 {
        assert "hello"[0..][0] != "Hello"[0];
      } else {
        assert |"hello"[i..]| < 5;
      }
    }
  }
}

=== FILE: process.dfy ===
/** The process runner (`CGrader.run_command`), reduced to what the rest of
    the autograder observes: the text it returns. Spawning, the sandbox user,
    the pipes and the decoding happen outside the model; the way the child
    ended is an input. */
module Process {
  import opened Text

  /** The diagnostic appended when the child did not finish in time. */
  const TIMEOUT_MESSAGE: string := "\n\n" + "TIMEOUT" + TIMEOUT_DETAIL

  const TIMEOUT_DETAIL: string :=
    "! Typically this means the program took too long,\n"
    + "requested more inputs than provided, or an infinite loop was found.\n"
    + "If your program is reading data using scanf inside a loop, this\n"
    + "could also mean that scanf does not support the input provided\n"
    + "(e.g., reading an int if the input is a double).\n"

  /** How one command invocation ended, as seen by the autograder. */
  datatype ProcessRun =
    | SpawnFailed              // `Popen` raised: the command could not start
    | Finished(output: string) // the child exited; its merged, decoded output
    | Killed(output: string)   // a `communicate` call timed out; the output
                               // retrieved from the killed child

  lemma TimeoutMessageIsMarked(out: string)
    ensures Contains(out + TIMEOUT_MESSAGE, "TIMEOUT")
  {
    var head := out + "\n\n";
    ContainsInMiddle(head, "TIMEOUT", TIMEOUT_DETAIL);
    assert head + "TIMEOUT" + TIMEOUT_DETAIL == out + TIMEOUT_MESSAGE;
  }

  /** The text `run_command` returns for a run. */
  function CommandOutput(run: ProcessRun): (text: string)
    ensures run.SpawnFailed? ==> text == []
    ensures run.Finished? ==> text == run.output
    ensures run.Killed? ==> run.output <= text && Contains(text, "TIMEOUT")
  {
    match run
    case SpawnFailed => []
    case Finished(out) => out
    case Killed(out) =>
      TimeoutMessageIsMarked(out);
      out + TIMEOUT_MESSAGE
  }
}

=== FILE: report.dfy ===
/** The score aggregator: the report `CGrader.start` creates, the test
    records `add_test_result` appends to it, and the scores `save_results`
    derives from the totals before the report is written out. */
module Report {
  import opened Wrappers

  /** One image attached to a test: a path or a dictionary of attributes. */
  datatype ImageRef = ImagePath(path: string) | ImageSpec(attributes: map<string, string>)

  /** The `images` argument: nothing, a single image, or a list of them. */
  datatype ImagesArg = NoImages | OneImage(image: ImageRef) | ImageList(images: seq<ImageRef>)

  /** The `points` argument: a pass/fail flag or an amount. */
  datatype PointsArg = Passed(ok: bool) | Amount(value: real)

  /** One entry of the report's `tests` list; `images` is absent from the
      record unless images were given. */
  datatype TestResult = TestResult(
    name: string,
    description: string,
    points: real,
    maxPoints: real,
    output: string,
    message: string,
    images: Option<seq<ImageRef>>)

  /** One entry of `partial_scores`; `score` appears only once the report
      has been saved. */
  datatype FieldTotal = FieldTotal(points: real, maxPoints: real, score: Option<real>)

  /** The grading report. `partialScores` is absent until a test names a
      field. */
  datatype Report = Report(
    score: real,
    points: real,
    maxPoints: real,
    output: string,
    message: string,
    gradable: bool,
    tests: seq<TestResult>,
    partialScores: Option<map<string, FieldTotal>>)

  /** The report as `start` creates it. */
  function Start(): (r: Report)
    ensures r.tests == [] && r.gradable && r.message == []
    ensures r.points == 0.0 && r.maxPoints == 0.0 && r.score == 0.0
    ensures r.partialScores.None?
  {
    Report(0.0, 0.0, 0.0, [], [], true, [], None)
  }

  /** `self.result["message"] += text`. */
  function AppendMessage(r: Report, text: string): (r': Report)
    ensures r'.message == r.message + text
    ensures r' == r.(message := r'.message)
  {
    r.(message := r.message + text)
  }

  /** Points a `points` argument stands for: a flag means all or nothing. */
  function ResolvePoints(points: PointsArg, maxPoints: real): (p: real)
    ensures points.Passed? ==> p == if points.ok then maxPoints else 0.0
    ensures points.Amount? ==> p == points.value
  {
    match points
    case Passed(ok) => if ok then maxPoints else 0.0
    case Amount(v) => v
  }

  /** The `images` list a record carries: a non-empty single image becomes a
      one-element list, a non-empty list is kept, anything empty leaves the
      record without images. */
  function ResolveImages(images: ImagesArg): (r: Option<seq<ImageRef>>)
    ensures r.Some? ==> r.value != []
    ensures images.NoImages? ==> r.None?
    ensures images.ImageList? ==> (r.Some? <==> images.images != [])
    ensures images.ImageList? && r.Some? ==> r.value == images.images
  {
    match images
    case NoImages => None
    case OneImage(ImagePath(p)) => if p == [] then None else Some([images.image])
    case OneImage(ImageSpec(a)) => if a == map[] then None else Some([images.image])
    case ImageList(xs) => if xs == [] then None else Some(xs)
  }

  /** The arguments of one `add_test_result` call. */
  datatype Entry = Entry(
    name: string,
    description: string,
    points: PointsArg,
    msg: Option<string>,
    output: string,
    maxPoints: real,
    field: Option<string>,
    images: ImagesArg)

  /** An `add_test_result` call with the defaults of its optional
      arguments. */
  function SimpleEntry(name: string, points: PointsArg, output: string, maxPoints: real, field: Option<string>): Entry {
    Entry(name, [], points, Some([]), output, maxPoints, field, NoImages)
  }

  /** The report after one `add_test_result` call, and the record it
      returns. */
  datatype Added = Added(report: Report, test: TestResult)

  /** The field subtotals after a test worth `points` out of `maxPoints` is
      tagged with `field`. */
  function AddToField(scores: Option<map<string, FieldTotal>>, field: string, points: real, maxPoints: real): (r: map<string, FieldTotal>)
    ensures r.Keys == (if scores.Some? then scores.value.Keys else {}) + {field}
    ensures scores.None? || field !in scores.value ==> r[field] == FieldTotal(points, maxPoints, None)
    ensures scores.Some? && field in scores.value ==>
              r[field] == scores.value[field].(points := scores.value[field].points + points,
                                               maxPoints := scores.value[field].maxPoints + maxPoints)
    ensures scores.Some? ==> forall f :: f in scores.value && f != field ==> r[f] == scores.value[f]
  {
    var m := if scores.Some? then scores.value else map[];
    if field in m then
      m[field := m[field].(points := m[field].points + points, maxPoints := m[field].maxPoints + maxPoints)]
    else
      m[field := FieldTotal(points, maxPoints, None)]
  }

  /** `add_test_result`: appends exactly one record, grows the totals by
      exactly that record's points and maximum, creates or accumulates the
      subtotal of the field it names, and changes nothing else. */
  function AddTestResult(r: Report, e: Entry): (a: Added)
    ensures a.test.points == ResolvePoints(e.points, e.maxPoints)
    ensures a.test.maxPoints == e.maxPoints
    ensures a.test.name == e.name && a.test.description == e.description && a.test.output == e.output
    ensures a.test.message == e.msg.GetOr([])
    ensures a.test.images == ResolveImages(e.images)
    ensures a.report.tests == r.tests + [a.test]
    ensures a.report.points == r.points + a.test.points
    ensures a.report.maxPoints == r.maxPoints + a.test.maxPoints
    ensures e.field.None? ==> a.report.partialScores == r.partialScores
    ensures e.field.Some? ==> a.report.partialScores == Some(AddToField(r.partialScores, e.field.value, a.test.points, e.maxPoints))
    ensures a.report.score == r.score && a.report.output == r.output
    ensures a.report.message == r.message && a.report.gradable == r.gradable
  {
    var p := ResolvePoints(e.points, e.maxPoints);
    var test := TestResult(e.name, e.description, p, e.maxPoints, e.output, e.msg.GetOr([]), ResolveImages(e.images));
    var scores := if e.field.Some? then Some(AddToField(r.partialScores, e.field.value, p, e.maxPoints)) else r.partialScores;
    Added(r.(tests := r.tests + [test], points := r.points + p, maxPoints := r.maxPoints + e.maxPoints,
             partialScores := scores),
          test)
  }

  /** A sequence of `add_test_result` calls, in order: only the tests,
      the totals and the field subtotals change, every earlier test
      stays where it was, and the k-th call appends the k-th new test. */
  function AddAll(r: Report, es: seq<Entry>): (r': Report)
    ensures r' == r.(tests := r'.tests, points := r'.points, maxPoints := r'.maxPoints, partialScores := r'.partialScores)
    ensures r.tests <= r'.tests
    ensures |r'.tests| == |r.tests| + |es|
    ensures forall n :: |r.tests| <= n < |r'.tests| ==> r'.tests[n] == AddTestResult(r, es[n - |r.tests|]).test
    ensures r.partialScores.Some? ==> r'.partialScores.Some?
    decreases |es|
  {
    if es == [] then r
    else
      var r1 := AddTestResult(r, es[0]).report;
      var rest := AddAll(r1, es[1..]);
      assert forall n :: |r.tests| <= n < |rest.tests| ==> rest.tests[n] == AddTestResult(r, es[n - |r.tests|]).test by {
        forall n | |r.tests| <= n < |rest.tests|
          ensures rest.tests[n] == AddTestResult(r, es[n - |r.tests|]).test
        {
          if n == |r.tests| {
            assert rest.tests[n] == r1.tests[n];
          } else {
            assert es[1..][n - |r1.tests|] == es[n - |r.tests|];
            SameEntrySameTest(r1, r, es[n - |r.tests|]);
          }
        }
      }
      rest
  }

  /** The record an `add_test_result` call returns depends only on the
      call, not on the report it is added to. */
  lemma SameEntrySameTest(r1: Report, r2: Report, e: Entry)
    ensures AddTestResult(r1, e).test == AddTestResult(r2, e).test
  {
  }

  function SumPoints(es: seq<Entry>): real
    decreases |es|
  {
    if es == [] then 0.0 else ResolvePoints(es[0].points, es[0].maxPoints) + SumPoints(es[1..])
  }

  function SumMaxPoints(es: seq<Entry>): real
    decreases |es|
  {
    if es == [] then 0.0 else es[0].maxPoints + SumMaxPoints(es[1..])
  }

  /** The calls that name `field`. */
  function Tagged(es: seq<Entry>, field: string): (t: seq<Entry>)
    ensures |t| <= |es|
    decreases |es|
  {
    if es == [] then []
    else (if es[0].field == Some(field) then [es[0]] else []) + Tagged(es[1..], field)
  }

  /** The session totals are the sums over the recorded tests: after any
      sequence of calls the report holds one record per call, in order,
      and its points and maximum grew by exactly the calls' sums. */
  lemma {:induction false} AddAllTotals(r: Report, es: seq<Entry>)
    ensures |AddAll(r, es).tests| == |r.tests| + |es|
    ensures AddAll(r, es).tests[..|r.tests|] == r.tests
    ensures AddAll(r, es).points == r.points + SumPoints(es)
    ensures AddAll(r, es).maxPoints == r.maxPoints + SumMaxPoints(es)
    ensures AddAll(r, es).gradable == r.gradable && AddAll(r, es).message == r.message
    decreases |es|
  {
    if es != [] {
      var r1 := AddTestResult(r, es[0]).report;
      AddAllTotals(r1, es[1..]);
      assert AddAll(r, es).tests[..|r.tests|] == AddAll(r1, es[1..]).tests[..|r1.tests|][..|r.tests|];
    }
  }

  /** Whether the report holds a subtotal for `field`. */
  predicate HasField(r: Report, field: string) {
    r.partialScores.Some? && field in r.partialScores.value
  }

  /** The points of a field's subtotal, 0.0 while it has none. */
  function FieldPoints(r: Report, field: string): real {
    if HasField(r, field) then r.partialScores.value[field].points else 0.0
  }

  /** The maximum of a field's subtotal, 0.0 while it has none. */
  function FieldMaxPoints(r: Report, field: string): real {
    if HasField(r, field) then r.partialScores.value[field].maxPoints else 0.0
  }

  lemma AddOneToField(r: Report, e: Entry, field: string)
    ensures HasField(AddTestResult(r, e).report, field) <==> HasField(r, field) || e.field == Some(field)
    ensures FieldPoints(AddTestResult(r, e).report, field)
            == FieldPoints(r, field) + (if e.field == Some(field) then ResolvePoints(e.points, e.maxPoints) else 0.0)
    ensures FieldMaxPoints(AddTestResult(r, e).report, field)
            == FieldMaxPoints(r, field) + (if e.field == Some(field) then e.maxPoints else 0.0)
  {
  }

  lemma TaggedStep(es: seq<Entry>, field: string)
    requires es != []
    ensures SumPoints(Tagged(es, field))
            == (if es[0].field == Some(field) then ResolvePoints(es[0].points, es[0].maxPoints) else 0.0)
               + SumPoints(Tagged(es[1..], field))
    ensures SumMaxPoints(Tagged(es, field))
            == (if es[0].field == Some(field) then es[0].maxPoints else 0.0) + SumMaxPoints(Tagged(es[1..], field))
    ensures Tagged(es, field) != [] <==> es[0].field == Some(field) || Tagged(es[1..], field) != []
  {
    var t := Tagged(es, field);
    if es[0].field == Some(field) {
      assert t[0] == es[0] && t[1..] == Tagged(es[1..], field);
    } else {
      assert t == Tagged(es[1..], field);
    }
  }

  /** A field's subtotal is the sum over the calls that named it, and it
      exists exactly when the field was named before or by one of them. */
  lemma {:induction false} AddAllFieldTotals(r: Report, es: seq<Entry>, field: string)
    ensures HasField(AddAll(r, es), field) <==> HasField(r, field) || Tagged(es, field) != []
    ensures FieldPoints(AddAll(r, es), field) == FieldPoints(r, field) + SumPoints(Tagged(es, field))
    ensures FieldMaxPoints(AddAll(r, es), field) == FieldMaxPoints(r, field) + SumMaxPoints(Tagged(es, field))
    decreases |es|
  {
    if es != [] {
      var r1 := AddTestResult(r, es[0]).report;
      AddOneToField(r, es[0], field);
      AddAllFieldTotals(r1, es[1..], field);
      TaggedStep(es, field);
    }
  }

  /** From a fresh report, the subtotal of a field exists exactly when some
      call named it, and it is the sum over those calls. */
  lemma FieldTotalsFromStart(es: seq<Entry>, field: string)
    ensures HasField(AddAll(Start(), es), field) <==> Tagged(es, field) != []
    ensures FieldPoints(AddAll(Start(), es), field) == SumPoints(Tagged(es, field))
    ensures FieldMaxPoints(AddAll(Start(), es), field) == SumMaxPoints(Tagged(es, field))
  {
    AddAllFieldTotals(Start(), es, field);
  }

  /** Every call awards between nothing and its maximum. */
  predicate WithinBounds(es: seq<Entry>) {
    forall i :: 0 <= i < |es| ==> 0.0 <= ResolvePoints(es[i].points, es[i].maxPoints) <= es[i].maxPoints
  }

  /** The aggregate never exceeds the aggregate maximum when no single test
      does. */
  lemma {:induction false} AddAllKeepsBounds(r: Report, es: seq<Entry>)
    requires 0.0 <= r.points <= r.maxPoints
    requires WithinBounds(es)
    ensures 0.0 <= AddAll(r, es).points <= AddAll(r, es).maxPoints
    decreases |es|
  {
    if es != [] {
      assert 0.0 <= ResolvePoints(es[0].points, es[0].maxPoints) <= es[0].maxPoints;
      AddAllKeepsBounds(AddTestResult(r, es[0]).report, es[1..]);
    }
  }

  /** Subtotals only grow as tests with non-negative points are added. */
  lemma AddTestResultFieldsMonotone(r: Report, e: Entry, field: string)
    requires r.partialScores.Some? && field in r.partialScores.value
    requires 0.0 <= ResolvePoints(e.points, e.maxPoints) && 0.0 <= e.maxPoints
    ensures AddTestResult(r, e).report.partialScores.Some?
    ensures field in AddTestResult(r, e).report.partialScores.value
    ensures AddTestResult(r, e).report.partialScores.value[field].points >= r.partialScores.value[field].points
    ensures AddTestResult(r, e).report.partialScores.value[field].maxPoints >= r.partialScores.value[field].maxPoints
  {
  }

  /** A field's score once saved. */
  function FieldScore(t: FieldTotal): (r: FieldTotal)
    ensures r.points == t.points && r.maxPoints == t.maxPoints && r.score.Some?
    ensures t.maxPoints > 0.0 ==> r.score.value * t.maxPoints == t.points
    ensures t.maxPoints <= 0.0 ==> r.score.value == 0.0
  {
    t.(score := Some(if t.maxPoints > 0.0 then t.points / t.maxPoints else 0.0))
  }

  /** `save_results` with a guard on every division: the overall score is
      points over maximum when the maximum is positive and keeps its
      previous value otherwise; each field's score is its own points over
      its own maximum, and 0.0 for a field whose maximum is not positive. */
  function SaveResults(r: Report): (s: Report)
    ensures r.maxPoints > 0.0 ==> s.score * r.maxPoints == r.points
    ensures r.maxPoints <= 0.0 ==> s.score == r.score
    ensures s == r.(score := s.score, partialScores := s.partialScores)
    ensures r.partialScores.None? <==> s.partialScores.None?
    ensures r.partialScores.Some? ==> s.partialScores.value.Keys == r.partialScores.value.Keys
    ensures r.partialScores.Some? ==>
              forall f :: f in r.partialScores.value ==> s.partialScores.value[f] == FieldScore(r.partialScores.value[f])
  {
    var score := if r.maxPoints > 0.0 then r.points / r.maxPoints else r.score;
    var scores := match r.partialScores
                  case None => None
                  case Some(m) => Some(map f | f in m :: FieldScore(m[f]));
    r.(score := score, partialScores := scores)
  }

  /** A field's score as written: its points over its maximum, whatever
      the maximum's sign. */
  function FieldScoreAsWritten(t: FieldTotal): (r: FieldTotal)
    requires t.maxPoints != 0.0
    ensures r.points == t.points && r.maxPoints == t.maxPoints && r.score.Some?
    ensures r.score.value * t.maxPoints == t.points
    ensures t.maxPoints > 0.0 ==> r == FieldScore(t)
  {
    t.(score := Some(t.points / t.maxPoints))
  }

  /** Some field's maximum is zero. */
  predicate ZeroField(r: Report) {
    r.partialScores.Some? && exists f :: f in r.partialScores.value && r.partialScores.value[f].maxPoints == 0.0
  }

  /** No field's maximum is negative. */
  predicate NoNegativeField(r: Report) {
    r.partialScores.Some? ==> forall f :: f in r.partialScores.value ==> r.partialScores.value[f].maxPoints >= 0.0
  }

  /** `save_results` exactly as written: the per-field division has no
      guard, so a field whose maximum is zero raises `ZeroDivisionError`
      (`None` here) instead of producing a report, and a field with a
      negative maximum is scored points over maximum. The overall score
      is guarded as in the corrected saving. */
  function SaveResultsAsWritten(r: Report): (s: Option<Report>)
    ensures s.None? <==> ZeroField(r)
    ensures s.Some? ==> s.value == SaveResults(r).(partialScores := s.value.partialScores)
    ensures s.Some? && r.partialScores.Some? ==>
              s.value.partialScores.Some? && s.value.partialScores.value.Keys == r.partialScores.value.Keys
              && forall f :: f in r.partialScores.value ==>
                   s.value.partialScores.value[f].score.Some?
                   && s.value.partialScores.value[f].score.value * r.partialScores.value[f].maxPoints
                      == r.partialScores.value[f].points
    ensures s.Some? && NoNegativeField(r) ==> s.value == SaveResults(r)
  {
    match r.partialScores
    case Some(m) =>
      if exists f :: f in m && m[f].maxPoints == 0.0 then None
      else
        var scores := map f | f in m :: FieldScoreAsWritten(m[f]);
        assert NoNegativeField(r) ==> scores == SaveResults(r).partialScores.value;
        Some(SaveResults(r).(partialScores := Some(scores)))
    case None => Some(SaveResults(r))
  }

  /** A field with a negative maximum is scored points over maximum as
      written (1 point of -2 scores -0.5), where the corrected saving
      scores it 0.0. */
  lemma NegativeMaximumField()
    ensures var r := Start().(partialScores := Some(map["f" := FieldTotal(1.0, -2.0, None)]));
            SaveResultsAsWritten(r).Some? && SaveResultsAsWritten(r).value.partialScores.value["f"].score == Some(-0.5)
            && SaveResults(r).partialScores.value["f"].score == Some(0.0)
  {
    var r := Start().(partialScores := Some(map["f" := FieldTotal(1.0, -2.0, None)]));
    assert r.partialScores.value.Keys == {"f"};
    assert !ZeroField(r);
  }

  /** A field whose maximum is zero makes the unguarded `save_results`
      fail, while the guarded one scores the field 0.0. */
  lemma ZeroMaximumFieldFinding(r: Report, field: string)
    requires HasField(r, field) && FieldMaxPoints(r, field) == 0.0
    ensures SaveResultsAsWritten(r).None?
    ensures SaveResults(r).partialScores.Some? && SaveResults(r).partialScores.value[field].score == Some(0.0)
  {
  }

  /** One test with a zero maximum tagged with a field (as
      `add_test_result("style", points=0, max_points=0, field="style")`)
      is enough to reach the case `ZeroMaximumFieldFinding` describes. */
  lemma ZeroMaximumFieldReachable(name: string, field: string)
    ensures var r := AddTestResult(Start(), SimpleEntry(name, Amount(0.0), [], 0.0, Some(field))).report;
            HasField(r, field) && FieldMaxPoints(r, field) == 0.0
  {
    AddOneToField(Start(), SimpleEntry(name, Amount(0.0), [], 0.0, Some(field)), field);
  }

  /** Saving is idempotent: scores are derived from the totals alone. */
  lemma SaveResultsIdempotent(r: Report)
    ensures SaveResults(SaveResults(r)) == SaveResults(r)
  {
    var s := SaveResults(r);
    if s.partialScores.Some? {
      assert s.partialScores.value == map f | f in s.partialScores.value :: FieldScore(s.partialScores.value[f]);
    }
  }

  /** When no test exceeds its maximum, the saved overall score is a
      fraction between 0 and 1. */
  lemma ScoreIsFraction(r: Report)
    requires 0.0 <= r.points <= r.maxPoints && r.maxPoints > 0.0
    ensures 0.0 <= SaveResults(r).score <= 1.0
  {
    var s := SaveResults(r).score;
    assert s * r.maxPoints == r.points;
  }

  /** Two tests tagged "memory" worth 1 of 2 and 2 of 2 give the field 3 of
      4 points and a score of 0.75. */
  lemma MemoryFieldExample()
    ensures var r := AddAll(Start(), [SimpleEntry("a", Amount(1.0), [], 2.0, Some("memory")),
                                      SimpleEntry("b", Amount(2.0), [], 2.0, Some("memory"))]);
            SaveResults(r).partialScores == Some(map["memory" := FieldTotal(3.0, 4.0, Some(0.75))])
  {
    var e1 := SimpleEntry("a", Amount(1.0), [], 2.0, Some("memory"));
    var e2 := SimpleEntry("b", Amount(2.0), [], 2.0, Some("memory"));
    var r1 := AddTestResult(Start(), e1).report;
    var m1 := r1.partialScores.value;
    assert m1.Keys == {"memory"} && m1["memory"] == FieldTotal(1.0, 2.0, None);
    var r2 := AddTestResult(r1, e2).report;
    var m2 := r2.partialScores.value;
    assert m2.Keys == {"memory"} && m2["memory"] == FieldTotal(3.0, 4.0, None);
    assert [e1, e2][1..] == [e2];
    assert AddAll(Start(), [e1, e2]) == AddAll(r1, [e2]) == r2;
    var m := SaveResults(r2).partialScores.value;
    assert m.Keys == {"memory"};
    assert m["memory"] == FieldScore(m2["memory"]) == FieldTotal(3.0, 4.0, Some(0.75));
    assert m == map["memory" := FieldTotal(3.0, 4.0, Some(0.75))];
  }
}

=== FILE: schemadiff.dfy ===
/** The schema comparison of the database tools (`diff` in
    packages/postgres-tools): given the descriptions of two databases or
    description directories, the report of the tables and enums one has
    and the other lacks, then of the tables and enums whose definitions
    differ. Loading the descriptions, the terminal styling and the
    line-diff algorithm are outside the model. */
module SchemaDiff {
  import opened Wrappers
  import opened Text

  /** What is compared: a live database or a directory of descriptions. */
  datatype Target = Database(name: string) | Directory(path: string) {
    /** The `type` tag printed in headings. */
    function TypeName(): string { if Database? then "database" else "directory" }

    /** The name or the path printed in headings. */
    function Label(): string { if Database? then name else path }
  }

  /** One named definition: a table or an enum and its text. */
  datatype Item = Item(key: string, text: string)

  /** A loaded description: tables and enums, each in the order the
      object's keys enumerate. */
  datatype Description = Description(tables: seq<Item>, enums: seq<Item>)

  /** The styles the report uses. */
  datatype Style = Bold | Underline | Green | Red | Gray

  /** The styling applied to a text, and `structuredPatch` reduced to the
      hunks it finds between two texts (each hunk a list of lines). */
  datatype Tools = Tools(paint: (Style, string) -> string, patch: (string, string, string, string) -> seq<Hunk>)

  datatype Hunk = Hunk(lines: seq<string>)

  /** `formatText`: the styled text when coloured output is on and a
      style is given, the text itself otherwise. */
  function FormatText(colored: bool, tools: Tools, text: string, style: Option<Style>): (r: string)
    ensures !colored || style.None? ==> r == text
  {
    if colored && style.Some? then tools.paint(style.value, text) else text
  }

  function Keys(items: seq<Item>): (ks: seq<string>)
    ensures |ks| == |items| && forall i :: 0 <= i < |items| ==> ks[i] == items[i].key
  {
    seq(|items|, i requires 0 <= i < |items| => items[i].key)
  }

  /** The text stored under `key` (the first entry with that key). */
  function Lookup(items: seq<Item>, key: string): string
    decreases |items|
  {
    if items == [] then "" else if items[0].key == key then items[0].text else Lookup(items[1..], key)
  }

  /** `_.difference(a, b)`: the elements of `a` not in `b`, in `a`'s order. */
  function Difference(a: seq<string>, b: seq<string>): (r: seq<string>)
    ensures forall x :: x in r <==> x in a && x !in b
    ensures |r| <= |a|
    decreases |a|
  {
    if a == [] then []
    else (if a[0] in b then [] else [a[0]]) + Difference(a[1..], b)
  }

  predicate Distinct(xs: seq<string>) {
    forall i, j :: 0 <= i < j < |xs| ==> xs[i] != xs[j]
  }

  /** `_.intersection(a, b)`: the elements of `a` also in `b`, once each,
      in `a`'s order. */
  function Intersection(a: seq<string>, b: set<string>): (r: seq<string>)
    ensures forall x :: x in r <==> x in a && x in b
    ensures Distinct(r)
    decreases |a|
  {
    if a == [] then []
    else if a[0] in b then [a[0]] + Intersection(a[1..], b - {a[0]})
    else Intersection(a[1..], b)
  }

  function AsSet(xs: seq<string>): (s: set<string>)
    ensures forall x :: x in s <==> x in xs
  {
    set x | x in xs
  }

  /** Each name with a marker in front (`+ name` or `- name`). */
  function Marked(marker: string, names: seq<string>): (r: seq<string>)
    ensures |r| == |names| && forall i :: 0 <= i < |names| ==> r[i] == marker + names[i]
  {
    seq(|names|, i requires 0 <= i < |names| => marker + names[i])
  }

  /** A list section: nothing for an empty list, else the underlined
      heading and the marked names, one per line, then a blank line. */
  function ListSection(colored: bool, tools: Tools, heading: string, names: seq<string>, marker: string, style: Style)
    : (r: string)
    ensures names == [] ==> r == []
  {
    if names == [] then []
    else FormatText(colored, tools, heading, Some(Underline))
         + FormatText(colored, tools, Join("\n", Marked(marker, names)) + "\n\n", Some(style))
  }

  /** A heading naming the second target and a type tag. */
  function Heading(what: string, db2: Target, colored: bool, tools: Tools, typeName: string): string {
    what + FormatText(colored, tools, db2.Label(), Some(Bold)) + " (" + typeName + ")\n"
  }

  /** The style of a hunk line: green for an addition, red for a
      removal, none otherwise. */
  function LineStyle(line: string): Option<Style> {
    if line != [] && line[0] == '+' then Some(Green)
    else if line != [] && line[0] == '-' then Some(Red)
    else None
  }

  /** The lines of a hunk, each followed by a line break. */
  function LinesText(colored: bool, tools: Tools, lines: seq<string>): string
    decreases |lines|
  {
    if lines == [] then []
    else FormatText(colored, tools, lines[0], LineStyle(lines[0])) + "\n" + LinesText(colored, tools, lines[1..])
  }

  /** Hunks after the first, each preceded by the separator. */
  function LaterHunks(colored: bool, tools: Tools, hunks: seq<Hunk>): string
    decreases |hunks|
  {
    if hunks == [] then []
    else FormatText(colored, tools, "...\n", Some(Gray)) + LinesText(colored, tools, hunks[0].lines)
         + LaterHunks(colored, tools, hunks[1..])
  }

  /** The hunks of a table diff, a separator between consecutive hunks. */
  function HunksText(colored: bool, tools: Tools, hunks: seq<Hunk>): string {
    if hunks == [] then [] else LinesText(colored, tools, hunks[0].lines) + LaterHunks(colored, tools, hunks[1..])
  }

  lemma {:induction false} LaterHunksAppend(colored: bool, tools: Tools, hunks: seq<Hunk>, h: Hunk)
    ensures LaterHunks(colored, tools, hunks + [h])
            == LaterHunks(colored, tools, hunks) + FormatText(colored, tools, "...\n", Some(Gray)) + LinesText(colored, tools, h.lines)
    decreases |hunks|
  {
    if hunks == [] {
      assert [] + [h] == [h];
      assert [h][1..] == [];
    } else {
      assert (hunks + [h])[0] == hunks[0] && (hunks + [h])[1..] == hunks[1..] + [h];
      LaterHunksAppend(colored, tools, hunks[1..], h);
    }
  }

  /** Appending a hunk appends its lines, preceded by the separator unless
      it is the first hunk. */
  lemma HunksAppend(colored: bool, tools: Tools, hunks: seq<Hunk>, h: Hunk)
    ensures HunksText(colored, tools, hunks + [h])
            == HunksText(colored, tools, hunks)
               + (if hunks == [] then [] else FormatText(colored, tools, "...\n", Some(Gray)))
               + LinesText(colored, tools, h.lines)
  {
    if hunks == [] {
      assert [] + [h] == [h];
      assert [h][1..] == [];
    } else {
      assert (hunks + [h])[0] == hunks[0] && (hunks + [h])[1..] == hunks[1..] + [h];
      LaterHunksAppend(colored, tools, hunks[1..], h);
    }
  }

  /** The part for one table present in both descriptions: nothing when
      the patch has no hunk. */
  function TableDiff(colored: bool, tools: Tools, table: string, hunks: seq<Hunk>): (r: string)
    ensures hunks == [] ==> r == []
  {
    if hunks == [] then []
    else FormatText(colored, tools, "Differences in " + FormatText(colored, tools, table, Some(Bold)) + " table\n", Some(Underline))
         + HunksText(colored, tools, hunks) + "\n\n"
  }

  function TablePatch(tools: Tools, d1: Description, d2: Description, table: string): seq<Hunk> {
    tools.patch("tables/" + table, "tables/" + table, Lookup(d1.tables, table), Lookup(d2.tables, table))
  }

  function TableDiffs(colored: bool, tools: Tools, d1: Description, d2: Description, tables: seq<string>): string
    decreases |tables|
  {
    if tables == [] then []
    else TableDiff(colored, tools, tables[0], TablePatch(tools, d1, d2, tables[0]))
         + TableDiffs(colored, tools, d1, d2, tables[1..])
  }

  /** The part for one enum present in both descriptions: nothing when the
      trimmed values agree, else both trimmed values. */
  function EnumDiff(colored: bool, tools: Tools, name: string, v1: string, v2: string): (r: string)
    ensures JsTrim(v1) == JsTrim(v2) ==> r == []
  {
    if JsTrim(v1) == JsTrim(v2) then []
    else FormatText(colored, tools, "Differences in " + FormatText(colored, tools, name, Some(Bold)) + " enum\n", None)
         + FormatText(colored, tools, "- " + JsTrim(v1) + "\n", Some(Red))
         + FormatText(colored, tools, "+ " + JsTrim(v2) + "\n", Some(Green))
         + "\n\n"
  }

  function EnumDiffs(colored: bool, tools: Tools, d1: Description, d2: Description, enums: seq<string>): string
    decreases |enums|
  {
    if enums == [] then []
    else EnumDiff(colored, tools, enums[0], Lookup(d1.enums, enums[0]), Lookup(d2.enums, enums[0]))
         + EnumDiffs(colored, tools, d1, d2, enums[1..])
  }

  /** "Tables added to": the tables only the second description has. */
  function TablesAdded(db2: Target, d1: Description, d2: Description, colored: bool, tools: Tools): string {
    ListSection(colored, tools, Heading("Tables added to ", db2, colored, tools, db2.TypeName()),
                Difference(Keys(d2.tables), Keys(d1.tables)), "+ ", Green)
  }

  /** "Tables missing from": the tables only the first description has. */
  function TablesMissing(db2: Target, d1: Description, d2: Description, colored: bool, tools: Tools): string {
    ListSection(colored, tools, Heading("Tables missing from ", db2, colored, tools, db2.TypeName()),
                Difference(Keys(d1.tables), Keys(d2.tables)), "- ", Red)
  }

  /** "Enums added to": the enums only the second description has, under
      a heading whose type tag is `typeName`. */
  function EnumsAdded(db2: Target, d1: Description, d2: Description, colored: bool, tools: Tools, typeName: string): string {
    ListSection(colored, tools, Heading("Enums added to ", db2, colored, tools, typeName),
                Difference(Keys(d2.enums), Keys(d1.enums)), "+ ", Green)
  }

  /** "Enums missing from": the enums only the first description has. */
  function EnumsMissing(db2: Target, d1: Description, d2: Description, colored: bool, tools: Tools): string {
    ListSection(colored, tools, Heading("Enums missing from ", db2, colored, tools, db2.TypeName()),
                Difference(Keys(d1.enums), Keys(d2.enums)), "- ", Red)
  }

  /** The per-definition differences: tables, then enums, both in the
      first description's order. */
  function Changes(d1: Description, d2: Description, colored: bool, tools: Tools): string {
    TableDiffs(colored, tools, d1, d2, Intersection(Keys(d1.tables), AsSet(Keys(d2.tables))))
    + EnumDiffs(colored, tools, d1, d2, Intersection(Keys(d1.enums), AsSet(Keys(d2.enums))))
  }

  /** The report, the "Enums added" heading carrying the type tag
      `enumsAddedType`. */
  function Report(db2: Target, d1: Description, d2: Description, colored: bool, tools: Tools, enumsAddedType: string): (r: string)
    ensures !colored ==>
              (r == [] <==> Difference(Keys(d2.tables), Keys(d1.tables)) == [] && Difference(Keys(d1.tables), Keys(d2.tables)) == []
                            && Difference(Keys(d2.enums), Keys(d1.enums)) == [] && Difference(Keys(d1.enums), Keys(d2.enums)) == []
                            && Changes(d1, d2, false, tools) == [])
  {
    UncolouredSectionsEmpty(db2, d1, d2, tools, enumsAddedType);
    TablesAdded(db2, d1, d2, colored, tools) + TablesMissing(db2, d1, d2, colored, tools)
    + EnumsAdded(db2, d1, d2, colored, tools, enumsAddedType) + EnumsMissing(db2, d1, d2, colored, tools)
    + Changes(d1, d2, colored, tools)
  }

  /** `diff` as written: the "Enums added" heading shows the type of the
      first target. */
  function DiffAsWritten(db1: Target, db2: Target, d1: Description, d2: Description, colored: bool, tools: Tools): (r: string)
    ensures Difference(Keys(d2.enums), Keys(d1.enums)) == [] ==> r == Report(db2, d1, d2, colored, tools, db2.TypeName())
  {
    Report(db2, d1, d2, colored, tools, db1.TypeName())
  }

  /** `diff` with the "Enums added" heading showing the type of the
      second target, like its three sibling headings. */
  function Diff(db1: Target, db2: Target, d1: Description, d2: Description, colored: bool, tools: Tools): (r: string)
    ensures db1.TypeName() == db2.TypeName() ==> r == DiffAsWritten(db1, db2, d1, d2, colored, tools)
  {
    Report(db2, d1, d2, colored, tools, db2.TypeName())
  }

  /** Without colour, each list section is empty exactly when its list
      is. */
  lemma UncolouredSectionsEmpty(db2: Target, d1: Description, d2: Description, tools: Tools, ty: string)
    ensures TablesAdded(db2, d1, d2, false, tools) == [] <==> Difference(Keys(d2.tables), Keys(d1.tables)) == []
    ensures TablesMissing(db2, d1, d2, false, tools) == [] <==> Difference(Keys(d1.tables), Keys(d2.tables)) == []
    ensures EnumsAdded(db2, d1, d2, false, tools, ty) == [] <==> Difference(Keys(d2.enums), Keys(d1.enums)) == []
    ensures EnumsMissing(db2, d1, d2, false, tools) == [] <==> Difference(Keys(d1.enums), Keys(d2.enums)) == []
  {
    ListSectionContents(tools, Heading("Tables added to ", db2, false, tools, db2.TypeName()), Difference(Keys(d2.tables), Keys(d1.tables)), "+ ", Green);
    ListSectionContents(tools, Heading("Tables missing from ", db2, false, tools, db2.TypeName()), Difference(Keys(d1.tables), Keys(d2.tables)), "- ", Red);
    ListSectionContents(tools, Heading("Enums added to ", db2, false, tools, ty), Difference(Keys(d2.enums), Keys(d1.enums)), "+ ", Green);
    ListSectionContents(tools, Heading("Enums missing from ", db2, false, tools, db2.TypeName()), Difference(Keys(d1.enums), Keys(d2.enums)), "- ", Red);
  }

  /** A list section without colour is empty exactly when its list is, and
      then holds every marked name. */
  lemma ListSectionContents(tools: Tools, heading: string, names: seq<string>, marker: string, style: Style)
    ensures ListSection(false, tools, heading, names, marker, style) == [] <==> names == []
    ensures forall i :: 0 <= i < |names| ==> Contains(ListSection(false, tools, heading, names, marker, style), marker + names[i])
  {
    var body := Join("\n", Marked(marker, names));
    var r := ListSection(false, tools, heading, names, marker, style);
    if names != [] {
      assert r == heading + body + "\n\n";
      assert |r| >= 2;
      forall i | 0 <= i < |names|
        ensures Contains(r, marker + names[i])
      {
        JoinContainsEach("\n", Marked(marker, names), i);
        ContainsWithin(heading, body, "\n\n", marker + names[i]);
      }
    }
  }

  lemma ContainsThrough(lead: string, a: string, m: string, c: string, sub: string)
    requires Contains(lead, sub)
    ensures Contains(lead + a + m + c, sub)
  {
    ContainsExtends(lead, a, sub);
    ContainsExtends(lead + a, m, sub);
    ContainsExtends(lead + a + m, c, sub);
  }

  /** Without colour, an enum present in both descriptions contributes
      exactly when its trimmed values differ, and then shows both. */
  lemma EnumDiffIff(tools: Tools, name: string, v1: string, v2: string)
    ensures EnumDiff(false, tools, name, v1, v2) == [] <==> JsTrim(v1) == JsTrim(v2)
    ensures JsTrim(v1) != JsTrim(v2) ==>
              Contains(EnumDiff(false, tools, name, v1, v2), "- " + JsTrim(v1) + "\n")
              && Contains(EnumDiff(false, tools, name, v1, v2), "+ " + JsTrim(v2) + "\n")
  {
    if JsTrim(v1) != JsTrim(v2) {
      var head := "Differences in " + name + " enum\n";
      var minus, plus := "- " + JsTrim(v1) + "\n", "+ " + JsTrim(v2) + "\n";
      var r := EnumDiff(false, tools, name, v1, v2);
      assert r == head + minus + plus + "\n\n";
      ContainsInMiddle(head, minus, plus + "\n\n");
      assert head + minus + (plus + "\n\n") == r;
      ContainsInMiddle(head + minus, plus, "\n\n");
    }
  }

  /** When every table patch between equal texts has no hunk, comparing a
      description with itself reports nothing. */
  lemma SameDescriptionEmpty(db1: Target, db2: Target, d: Description, colored: bool, tools: Tools)
    requires forall name, text :: tools.patch(name, name, text, text) == []
    ensures Diff(db1, db2, d, d, colored, tools) == []
    ensures DiffAsWritten(db1, db2, d, d, colored, tools) == []
  {
    var t, e := Keys(d.tables), Keys(d.enums);
    DifferenceCovered(t, t);
    DifferenceCovered(e, e);
    TableDiffsSame(colored, tools, d, Intersection(t, AsSet(t)));
    EnumDiffsSame(colored, tools, d, Intersection(e, AsSet(e)));
  }

  lemma {:induction false} DifferenceCovered(a: seq<string>, b: seq<string>)
    requires forall i :: 0 <= i < |a| ==> a[i] in b
    ensures Difference(a, b) == []
    decreases |a|
  {
    if a != [] {
      assert a[0] in b;
      DifferenceCovered(a[1..], b);
    }
  }

  lemma {:induction false} TableDiffsSame(colored: bool, tools: Tools, d: Description, tables: seq<string>)
    requires forall name, text :: tools.patch(name, name, text, text) == []
    ensures TableDiffs(colored, tools, d, d, tables) == []
    decreases |tables|
  {
    if tables != [] {
      assert TablePatch(tools, d, d, tables[0]) == [];
      TableDiffsSame(colored, tools, d, tables[1..]);
    }
  }

  lemma {:induction false} EnumDiffsSame(colored: bool, tools: Tools, d: Description, enums: seq<string>)
    ensures EnumDiffs(colored, tools, d, d, enums) == []
    decreases |enums|
  {
    if enums != [] {
      EnumDiffsSame(colored, tools, d, enums[1..]);
    }
  }

  /** The report's sections, in order. */
  lemma Layout(db2: Target, d1: Description, d2: Description, colored: bool, tools: Tools, ty: string)
    ensures Report(db2, d1, d2, colored, tools, ty)
            == TablesAdded(db2, d1, d2, colored, tools) + TablesMissing(db2, d1, d2, colored, tools)
               + EnumsAdded(db2, d1, d2, colored, tools, ty)
               + EnumsMissing(db2, d1, d2, colored, tools) + Changes(d1, d2, colored, tools)
  {
  }

  /** Without colour, the report names every table the second description
      adds ("+ name") and every table it lacks ("- name"). */
  lemma ReportListsTables(db1: Target, db2: Target, d1: Description, d2: Description, tools: Tools, table: string)
    ensures table in Keys(d2.tables) && table !in Keys(d1.tables) ==> Contains(Diff(db1, db2, d1, d2, false, tools), "+ " + table)
    ensures table in Keys(d1.tables) && table !in Keys(d2.tables) ==> Contains(Diff(db1, db2, d1, d2, false, tools), "- " + table)
  {
    var t1, t2 := Keys(d1.tables), Keys(d2.tables);
    var s1 := TablesAdded(db2, d1, d2, false, tools);
    var s2 := TablesMissing(db2, d1, d2, false, tools);
    var a := EnumsAdded(db2, d1, d2, false, tools, db2.TypeName());
    var m := EnumsMissing(db2, d1, d2, false, tools);
    var c := Changes(d1, d2, false, tools);
    Layout(db2, d1, d2, false, tools, db2.TypeName());
    if table in t2 && table !in t1 {
      TableListed(tools, Heading("Tables added to ", db2, false, tools, db2.TypeName()), Difference(t2, t1), "+ ", Green, table);
      ContainsExtends(s1, s2, "+ " + table);
      ContainsThrough(s1 + s2, a, m, c, "+ " + table);
    }
    if table in t1 && table !in t2 {
      TableListed(tools, Heading("Tables missing from ", db2, false, tools, db2.TypeName()), Difference(t1, t2), "- ", Red, table);
      ContainsAfter(s1, s2, "- " + table);
      ContainsThrough(s1 + s2, a, m, c, "- " + table);
    }
  }

  /** Without colour, the report names every enum the second description
      adds ("+ name") and every enum it lacks ("- name"). */
  lemma ReportListsEnums(db1: Target, db2: Target, d1: Description, d2: Description, tools: Tools, name: string)
    ensures name in Keys(d2.enums) && name !in Keys(d1.enums) ==> Contains(Diff(db1, db2, d1, d2, false, tools), "+ " + name)
    ensures name in Keys(d1.enums) && name !in Keys(d2.enums) ==> Contains(Diff(db1, db2, d1, d2, false, tools), "- " + name)
  {
    var e1, e2 := Keys(d1.enums), Keys(d2.enums);
    var lead := TablesAdded(db2, d1, d2, false, tools) + TablesMissing(db2, d1, d2, false, tools);
    var a := EnumsAdded(db2, d1, d2, false, tools, db2.TypeName());
    var m := EnumsMissing(db2, d1, d2, false, tools);
    var c := Changes(d1, d2, false, tools);
    Layout(db2, d1, d2, false, tools, db2.TypeName());
    assert Diff(db1, db2, d1, d2, false, tools) == lead + a + m + c;
    if name in e2 && name !in e1 {
      TableListed(tools, Heading("Enums added to ", db2, false, tools, db2.TypeName()), Difference(e2, e1), "+ ", Green, name);
      ContainsAfter(lead, a, "+ " + name);
      ContainsExtends(lead + a, m, "+ " + name);
      ContainsExtends(lead + a + m, c, "+ " + name);
    }
    if name in e1 && name !in e2 {
      TableListed(tools, Heading("Enums missing from ", db2, false, tools, db2.TypeName()), Difference(e1, e2), "- ", Red, name);
      ContainsAfter(lead + a, m, "- " + name);
      ContainsExtends(lead + a + m, c, "- " + name);
    }
  }

  /** Without colour, the per-definition part is empty exactly when no
      table in both descriptions has a hunk in its patch and every enum in
      both has the same trimmed values on either side. */
  lemma ChangesEmptyIff(d1: Description, d2: Description, tools: Tools)
    ensures Changes(d1, d2, false, tools) == [] <==>
              (forall t :: t in Keys(d1.tables) && t in Keys(d2.tables) ==> TablePatch(tools, d1, d2, t) == [])
              && (forall e :: e in Keys(d1.enums) && e in Keys(d2.enums) ==> JsTrim(Lookup(d1.enums, e)) == JsTrim(Lookup(d2.enums, e)))
  {
    var ts := Intersection(Keys(d1.tables), AsSet(Keys(d2.tables)));
    var es := Intersection(Keys(d1.enums), AsSet(Keys(d2.enums)));
    TableDiffsEmpty(tools, d1, d2, ts);
    EnumDiffsEmpty(tools, d1, d2, es);
  }

  lemma {:induction false} TableDiffsEmpty(tools: Tools, d1: Description, d2: Description, tables: seq<string>)
    ensures TableDiffs(false, tools, d1, d2, tables) == [] <==> forall t :: t in tables ==> TablePatch(tools, d1, d2, t) == []
    decreases |tables|
  {
    if tables != [] {
      TableDiffIff(tools, tables[0], TablePatch(tools, d1, d2, tables[0]));
      TableDiffsEmpty(tools, d1, d2, tables[1..]);
      assert forall t :: t in tables <==> t == tables[0] || t in tables[1..];
    }
  }

  lemma {:induction false} EnumDiffsEmpty(tools: Tools, d1: Description, d2: Description, enums: seq<string>)
    ensures EnumDiffs(false, tools, d1, d2, enums) == [] <==>
              forall e :: e in enums ==> JsTrim(Lookup(d1.enums, e)) == JsTrim(Lookup(d2.enums, e))
    decreases |enums|
  {
    if enums != [] {
      assert EnumDiffs(false, tools, d1, d2, enums)
             == EnumDiff(false, tools, enums[0], Lookup(d1.enums, enums[0]), Lookup(d2.enums, enums[0]))
                + EnumDiffs(false, tools, d1, d2, enums[1..]);
      EnumDiffIff(tools, enums[0], Lookup(d1.enums, enums[0]), Lookup(d2.enums, enums[0]));
      EnumDiffsEmpty(tools, d1, d2, enums[1..]);
      assert forall e :: e in enums <==> e == enums[0] || e in enums[1..];
    }
  }

  lemma TableListed(tools: Tools, heading: string, names: seq<string>, marker: string, style: Style, name: string)
    requires name in names
    ensures Contains(ListSection(false, tools, heading, names, marker, style), marker + name)
  {
    var i :| 0 <= i < |names| && names[i] == name;
    ListSectionContents(tools, heading, names, marker, style);
  }

  /** Without colour, a nonempty "Enums added" section opens with its
      heading. */
  lemma EnumsAddedOpensWithHeading(db2: Target, d1: Description, d2: Description, tools: Tools, typeName: string)
    requires Difference(Keys(d2.enums), Keys(d1.enums)) != []
    ensures Heading("Enums added to ", db2, false, tools, typeName) <= EnumsAdded(db2, d1, d2, false, tools, typeName)
  {
  }

  /** The heading of `diff` as written: when the second description adds
      an enum, the "Enums added" heading carries the first target's type,
      where the corrected `Diff`, like the three sibling headings, carries
      the second target's; the two reports differ whenever the targets
      are of different kinds. */
  lemma EnumsAddedHeadingFinding(db1: Target, db2: Target, d1: Description, d2: Description, tools: Tools)
    requires Difference(Keys(d2.enums), Keys(d1.enums)) != []
    ensures var lead := TablesAdded(db2, d1, d2, false, tools) + TablesMissing(db2, d1, d2, false, tools);
            lead + Heading("Enums added to ", db2, false, tools, db1.TypeName()) <= DiffAsWritten(db1, db2, d1, d2, false, tools)
            && lead + Heading("Enums added to ", db2, false, tools, db2.TypeName()) <= Diff(db1, db2, d1, d2, false, tools)
    ensures db1.TypeName() != db2.TypeName() ==> DiffAsWritten(db1, db2, d1, d2, false, tools) != Diff(db1, db2, d1, d2, false, tools)
  {
    HeadingsCarried(db1, db2, d1, d2, tools);
    if db1.TypeName() != db2.TypeName() {
      KindsDiffer(db1, db2, d1, d2, tools);
    }
  }

  lemma HeadingsCarried(db1: Target, db2: Target, d1: Description, d2: Description, tools: Tools)
    requires Difference(Keys(d2.enums), Keys(d1.enums)) != []
    ensures var lead := TablesAdded(db2, d1, d2, false, tools) + TablesMissing(db2, d1, d2, false, tools);
            lead + Heading("Enums added to ", db2, false, tools, db1.TypeName()) <= DiffAsWritten(db1, db2, d1, d2, false, tools)
            && lead + Heading("Enums added to ", db2, false, tools, db2.TypeName()) <= Diff(db1, db2, d1, d2, false, tools)
  {
    assert DiffAsWritten(db1, db2, d1, d2, false, tools) == Report(db2, d1, d2, false, tools, db1.TypeName());
    assert Diff(db1, db2, d1, d2, false, tools) == Report(db2, d1, d2, false, tools, db2.TypeName());
    HeadingLeads(db2, d1, d2, tools, db1.TypeName());
    HeadingLeads(db2, d1, d2, tools, db2.TypeName());
  }

  lemma KindsDiffer(db1: Target, db2: Target, d1: Description, d2: Description, tools: Tools)
    requires Difference(Keys(d2.enums), Keys(d1.enums)) != [] && db1.TypeName() != db2.TypeName()
    ensures DiffAsWritten(db1, db2, d1, d2, false, tools) != Diff(db1, db2, d1, d2, false, tools)
  {
    assert DiffAsWritten(db1, db2, d1, d2, false, tools) == Report(db2, d1, d2, false, tools, db1.TypeName());
    assert Diff(db1, db2, d1, d2, false, tools) == Report(db2, d1, d2, false, tools, db2.TypeName());
    TypeLettersDiffer(db1, db2);
    ReportsDiffer(db2, d1, d2, tools, db1.TypeName(), db2.TypeName());
  }

  /** "database" and "directory" part at their second letter. */
  lemma TypeLettersDiffer(db1: Target, db2: Target)
    requires db1.TypeName() != db2.TypeName()
    ensures |db1.TypeName()| >= 2 && |db2.TypeName()| >= 2 && db1.TypeName()[1] != db2.TypeName()[1]
  {
    assert "database"[1] == 'a' && "directory"[1] == 'i';
  }

  /** Two reports whose "Enums added" headings carry type tags that part
      at their second letter differ. */
  lemma ReportsDiffer(db2: Target, d1: Description, d2: Description, tools: Tools, t1: string, t2: string)
    requires Difference(Keys(d2.enums), Keys(d1.enums)) != []
    requires |t1| >= 2 && |t2| >= 2 && t1[1] != t2[1]
    ensures Report(db2, d1, d2, false, tools, t1) != Report(db2, d1, d2, false, tools, t2)
  {
    var lead := TablesAdded(db2, d1, d2, false, tools) + TablesMissing(db2, d1, d2, false, tools);
    var at := |"Enums added to " + db2.Label() + " ("| + 1;
    HeadingLeads(db2, d1, d2, tools, t1);
    HeadingLeads(db2, d1, d2, tools, t2);
    HeadingTypeLetter(db2, tools, t1);
    HeadingTypeLetter(db2, tools, t2);
    PrefixesDiffer(lead, Heading("Enums added to ", db2, false, tools, t1), Heading("Enums added to ", db2, false, tools, t2),
                   Report(db2, d1, d2, false, tools, t1), Report(db2, d1, d2, false, tools, t2), at);
  }

  /** Without colour, when an enum is added, the report reaches the
      "Enums added" heading right after the two table sections. */
  lemma HeadingLeads(db2: Target, d1: Description, d2: Description, tools: Tools, ty: string)
    requires Difference(Keys(d2.enums), Keys(d1.enums)) != []
    ensures TablesAdded(db2, d1, d2, false, tools) + TablesMissing(db2, d1, d2, false, tools)
            + Heading("Enums added to ", db2, false, tools, ty) <= Report(db2, d1, d2, false, tools, ty)
  {
    var lead := TablesAdded(db2, d1, d2, false, tools) + TablesMissing(db2, d1, d2, false, tools);
    EnumsAddedOpensWithHeading(db2, d1, d2, tools, ty);
    Layout(db2, d1, d2, false, tools, ty);
    PrefixThrough(lead, Heading("Enums added to ", db2, false, tools, ty), EnumsAdded(db2, d1, d2, false, tools, ty),
                  EnumsMissing(db2, d1, d2, false, tools), Changes(d1, d2, false, tools));
  }

  lemma HeadingTypeLetter(db2: Target, tools: Tools, typeName: string)
    requires |typeName| >= 2
    ensures var at := |"Enums added to " + db2.Label() + " ("| + 1;
            at < |Heading("Enums added to ", db2, false, tools, typeName)|
            && Heading("Enums added to ", db2, false, tools, typeName)[at] == typeName[1]
  {
    var lead := "Enums added to " + db2.Label() + " (";
    assert Heading("Enums added to ", db2, false, tools, typeName) == lead + typeName + ")\n";
  }

  lemma PrefixesDiffer(lead: string, h1: string, h2: string, x: string, y: string, at: nat)
    requires lead + h1 <= x && lead + h2 <= y
    requires at < |h1| && at < |h2| && h1[at] != h2[at]
    ensures x != y
  {
    assert x[|lead| + at] == h1[at];
    assert y[|lead| + at] == h2[at];
  }

  lemma PrefixThrough(lead: string, h: string, a: string, m: string, c: string)
    requires h <= a
    ensures lead + h <= lead + a + m + c
  {
    assert (lead + a + m + c)[..|lead + h|] == lead + h;
  }

  /** Without colour, a table present in both descriptions contributes
      exactly when its patch has a hunk, and then opens with its heading
      and ends with a blank line. */
  lemma TableDiffIff(tools: Tools, table: string, hunks: seq<Hunk>)
    ensures TableDiff(false, tools, table, hunks) == [] <==> hunks == []
    ensures hunks != [] ==>
              ("Differences in " + table + " table\n") <= TableDiff(false, tools, table, hunks)
              && EndsWith(TableDiff(false, tools, table, hunks), "\n\n")
  {
    if hunks != [] {
      var head := "Differences in " + table + " table\n";
      var r := TableDiff(false, tools, table, hunks);
      assert r == head + HunksText(false, tools, hunks) + "\n\n";
      assert r[..|head|] == head;
      assert r[|r| - 2..] == "\n\n";
    }
  }

  /** Without colour the styling is never consulted: two painters give the
      same report. */
  lemma UncolouredIgnoresPaint(db1: Target, db2: Target, d1: Description, d2: Description, tools: Tools,
                               paint: (Style, string) -> string)
    ensures Diff(db1, db2, d1, d2, false, tools) == Diff(db1, db2, d1, d2, false, tools.(paint := paint))
    ensures DiffAsWritten(db1, db2, d1, d2, false, tools) == DiffAsWritten(db1, db2, d1, d2, false, tools.(paint := paint))
  {
    var other := tools.(paint := paint);
    ReportIgnoresPaint(db2, d1, d2, tools, other, db2.TypeName());
    ReportIgnoresPaint(db2, d1, d2, tools, other, db1.TypeName());
  }

  lemma ReportIgnoresPaint(db2: Target, d1: Description, d2: Description, tools: Tools, other: Tools, ty: string)
    requires other.patch == tools.patch
    ensures Report(db2, d1, d2, false, tools, ty) == Report(db2, d1, d2, false, other, ty)
  {
    Layout(db2, d1, d2, false, tools, ty);
    Layout(db2, d1, d2, false, other, ty);
    assert TablesAdded(db2, d1, d2, false, tools) == TablesAdded(db2, d1, d2, false, other);
    assert TablesMissing(db2, d1, d2, false, tools) == TablesMissing(db2, d1, d2, false, other);
    assert EnumsAdded(db2, d1, d2, false, tools, ty) == EnumsAdded(db2, d1, d2, false, other, ty);
    assert EnumsMissing(db2, d1, d2, false, tools) == EnumsMissing(db2, d1, d2, false, other);
    TableDiffsIgnorePaint(tools, other, d1, d2, Intersection(Keys(d1.tables), AsSet(Keys(d2.tables))));
    EnumDiffsIgnorePaint(tools, other, d1, d2, Intersection(Keys(d1.enums), AsSet(Keys(d2.enums))));
  }

  lemma {:induction false} LinesIgnorePaint(tools: Tools, other: Tools, lines: seq<string>)
    ensures LinesText(false, tools, lines) == LinesText(false, other, lines)
    decreases |lines|
  {
    if lines != [] {
      LinesIgnorePaint(tools, other, lines[1..]);
    }
  }

  lemma {:induction false} LaterHunksIgnorePaint(tools: Tools, other: Tools, hunks: seq<Hunk>)
    ensures LaterHunks(false, tools, hunks) == LaterHunks(false, other, hunks)
    decreases |hunks|
  {
    if hunks != [] {
      LinesIgnorePaint(tools, other, hunks[0].lines);
      LaterHunksIgnorePaint(tools, other, hunks[1..]);
    }
  }

  lemma {:induction false} TableDiffsIgnorePaint(tools: Tools, other: Tools, d1: Description, d2: Description, tables: seq<string>)
    requires other.patch == tools.patch
    ensures TableDiffs(false, tools, d1, d2, tables) == TableDiffs(false, other, d1, d2, tables)
    decreases |tables|
  {
    if tables != [] {
      var hunks := TablePatch(tools, d1, d2, tables[0]);
      assert TablePatch(other, d1, d2, tables[0]) == hunks;
      if hunks != [] {
        LinesIgnorePaint(tools, other, hunks[0].lines);
        LaterHunksIgnorePaint(tools, other, hunks[1..]);
      }
      TableDiffsIgnorePaint(tools, other, d1, d2, tables[1..]);
    }
  }

  lemma {:induction false} EnumDiffsIgnorePaint(tools: Tools, other: Tools, d1: Description, d2: Description, enums: seq<string>)
    ensures EnumDiffs(false, tools, d1, d2, enums) == EnumDiffs(false, other, d1, d2, enums)
    decreases |enums|
  {
    if enums != [] {
      EnumDiffsIgnorePaint(tools, other, d1, d2, enums[1..]);
    }
  }
}

=== FILE: session.dfy ===
/** A grading session (`CGrader.start`): a fresh report, the question's
    `tests()` run as a script of autograder calls, the submission marked
    ungradable when one of them raises `UngradableError`, and the scores
    saved in a `finally` clause. `Grade` composes the corrected
    operations; `GradeAsWritten` composes the operations as written, in
    which another exception can escape `start` and saving itself can
    fail. */
module Session {
  import opened Wrappers
  import opened Report
  import TestRun
  import Build
  import CheckSuite

  /** One call the question's `tests()` makes. */
  datatype Step =
    | AddResult(entry: Entry)
    | RunTest(call: TestRun.Call)
    | Compile(args: Build.CompileArgs)
    | CompileTest(test: Build.TestCompileArgs)
    | LinkObjects(link: Build.LinkArgs)
    | RunSuite(log: CheckSuite.SuiteLog, parts: CheckSuite.NameParts)

  /** The outside world the calls use. */
  datatype World = World(
    tests: TestRun.Host,
    build: Build.Host,
    defaultCompiler: string)

  /** A script `test_run` can name every test of. */
  predicate Runnable(steps: seq<Step>) {
    forall i :: 0 <= i < |steps| ==> (steps[i].RunTest? ==> TestRun.Nameable(steps[i].call))
  }

  /** One call on the state the session has reached. */
  function RunStep(s: Build.State, step: Step, w: World): (o: Outcome<Build.State, ()>)
    requires step.RunTest? ==> TestRun.Nameable(step.call)
    ensures step.AddResult? || step.RunTest? ==> o.Done? && |o.state.report.tests| == |s.report.tests| + 1
    ensures o.Ungradable? ==> step.Compile? || step.CompileTest? || step.LinkObjects? || step.RunSuite?
  {
    match step
    case AddResult(e) => Done(Build.State(s.files, AddTestResult(s.report, e).report), ())
    case RunTest(c) => Done(Build.State(s.files, TestRun.Run(s.report, c, w.tests).report), ())
    case Compile(a) =>
      (match Build.CompileFile(s, a, w.defaultCompiler, w.build)
       case Done(s1, _) => Done(s1, ())
       case Ungradable(s1, why) => Ungradable(s1, why))
    case CompileTest(t) =>
      (match Build.TestCompileFile(s, t, w.defaultCompiler, w.build)
       case Done(s1, _) => Done(s1, ())
       case Ungradable(s1, why) => Ungradable(s1, why))
    case LinkObjects(l) =>
      (match Build.Link(s, l, w.defaultCompiler, w.build)
       case Done(s1, _) => Done(s1, ())
       case Ungradable(s1, why) => Ungradable(s1, why))
    case RunSuite(log, parts) =>
      (match CheckSuite.RunCheckSuite(s.report, log, parts)
       case Done(r, _) => Done(Build.State(s.files, r), ())
       case Ungradable(r, why) => Ungradable(Build.State(s.files, r), why))
  }

  /** The script, call after call, stopping at the first that raises.
      No call writes the `gradable` flag. */
  function RunSteps(s: Build.State, steps: seq<Step>, w: World): (o: Outcome<Build.State, ()>)
    requires Runnable(steps)
    ensures o.State().report.gradable == s.report.gradable
    decreases |steps|
  {
    if steps == [] then Done(s, ())
    else
      RunnableTail(steps);
      StepKeepsGradable(s, steps[0], w);
      match RunStep(s, steps[0], w)
      case Ungradable(s1, why) => Ungradable(s1, why)
      case Done(s1, _) => RunSteps(s1, steps[1..], w)
  }

  /** The report `start` saves: the one the script reached, marked
      ungradable when a call raised `UngradableError`. */
  function Marked(files: set<string>, steps: seq<Step>, w: World): Report
    requires Runnable(steps)
  {
    var o := RunSteps(Build.State(files, Start()), steps, w);
    if o.Ungradable? then o.state.report.(gradable := false) else o.State().report
  }

  /** `start`: the final, saved report of a session that begins with the
      files `files`. It holds the tests and the message the script
      produced before it stopped. */
  function Grade(files: set<string>, steps: seq<Step>, w: World): (r: Report)
    requires Runnable(steps)
    ensures r.tests == RunSteps(Build.State(files, Start()), steps, w).State().report.tests
    ensures r.message == RunSteps(Build.State(files, Start()), steps, w).State().report.message
    ensures r.gradable <==> RunSteps(Build.State(files, Start()), steps, w).Done?
  {
    SaveResults(Marked(files, steps, w))
  }

  lemma RunnableTail(steps: seq<Step>)
    requires Runnable(steps) && steps != []
    ensures Runnable(steps[1..])
    ensures steps[0].RunTest? ==> TestRun.Nameable(steps[0].call)
  {
    assert forall i :: 0 <= i < |steps[1..]| ==> steps[1..][i] == steps[i + 1];
  }

  /** A script of plain `add_test_result` and `test_run` calls never
      aborts, and records one test per call. */
  lemma {:induction false} TestsOnlyNeverAbort(s: Build.State, steps: seq<Step>, w: World)
    requires Runnable(steps)
    requires forall i :: 0 <= i < |steps| ==> steps[i].AddResult? || steps[i].RunTest?
    ensures RunSteps(s, steps, w).Done?
    ensures |RunSteps(s, steps, w).state.report.tests| == |s.report.tests| + |steps|
    decreases |steps|
  {
    if steps != [] {
      RunnableTail(steps);
      var s1 := RunStep(s, steps[0], w).state;
      assert forall i :: 0 <= i < |steps[1..]| ==> steps[1..][i] == steps[i + 1];
      TestsOnlyNeverAbort(s1, steps[1..], w);
    }
  }

  lemma StepKeepsGradable(s: Build.State, step: Step, w: World)
    requires step.RunTest? ==> TestRun.Nameable(step.call)
    ensures RunStep(s, step, w).State().report.gradable == s.report.gradable
  {
    match step
    case AddResult(e) =>
    case RunTest(c) =>
    case Compile(a) =>
    case CompileTest(t) =>
      var c := Build.CompileFile(s, t.compile.(added := Build.AddedWithMain(t)), w.defaultCompiler, w.build);
      assert c.State().report.gradable == s.report.gradable;
    case LinkObjects(l) =>
    case RunSuite(log, parts) =>
      if log.LogParsed? {
        CheckSuite.ParsedLogTotals(s.report, log.suites, parts);
      }
  }

  /** An empty script: a gradable report with no test, scored 0.0. */
  lemma EmptyScript(files: set<string>, w: World)
    ensures Grade(files, [], w).gradable && Grade(files, [], w).tests == []
    ensures Grade(files, [], w).score == 0.0
  {
  }

  /** How a call ends in the program as written: as a corrected call
      does, or with an exception other than `UngradableError`, which
      `start` does not catch, leaving the state as it was. */
  datatype StepEnd = Ended(outcome: Outcome<Build.State, ()>) | Crashed(state: Build.State) {
    function State(): Build.State {
      if Ended? then outcome.State() else state
    }
  }

  /** A call on which the program as written behaves as the corrected
      one: a `test_run` that does not reach the empty "partial" division,
      or a compile whose flag list reaches the link step unchanged. */
  predicate Unaffected(step: Step, w: World) {
    match step
    case RunTest(c) => !TestRun.RaisesAsWritten(c, w.tests)
    case Compile(a) => Build.HandedOnFlags(a, w.build) == a.flags
    case CompileTest(t) => Build.HandedOnFlags(t.compile, w.build) == t.compile.flags
    case AddResult(_) => true
    case LinkObjects(_) => true
    case RunSuite(_, _) => true
  }

  predicate AllUnaffected(steps: seq<Step>, w: World) {
    forall i :: 0 <= i < |steps| ==> Unaffected(steps[i], w)
  }

  /** One call as written. */
  function RunStepAsWritten(s: Build.State, step: Step, w: World): (e: StepEnd)
    requires step.RunTest? ==> TestRun.Nameable(step.call)
    ensures Unaffected(step, w) ==> e == Ended(RunStep(s, step, w))
    ensures e.Crashed? <==> step.RunTest? && TestRun.RaisesAsWritten(step.call, w.tests)
    ensures e.Crashed? ==> e.state == s
  {
    match step
    case RunTest(c) =>
      (match TestRun.RunAsWritten(s.report, c, w.tests)
       case None => Crashed(s)
       case Some(a) => Ended(Done(Build.State(s.files, a.report), ())))
    case Compile(a) =>
      Ended(match Build.CompileFileAsWritten(s, a, w.defaultCompiler, w.build)
            case Done(s1, _) => Done(s1, ())
            case Ungradable(s1, why) => Ungradable(s1, why))
    case CompileTest(t) =>
      Ended(match Build.TestCompileFileAsWritten(s, t, w.defaultCompiler, w.build)
            case Done(s1, _) => Done(s1, ())
            case Ungradable(s1, why) => Ungradable(s1, why))
    case AddResult(_) => Ended(RunStep(s, step, w))
    case LinkObjects(_) => Ended(RunStep(s, step, w))
    case RunSuite(_, _) => Ended(RunStep(s, step, w))
  }

  /** The script as written: it stops at the first call that raises,
      whatever it raises. It agrees with the corrected script when every
      call is unaffected. */
  function RunStepsAsWritten(s: Build.State, steps: seq<Step>, w: World): (e: StepEnd)
    requires Runnable(steps)
    ensures AllUnaffected(steps, w) ==> e == Ended(RunSteps(s, steps, w))
    decreases |steps|
  {
    if steps == [] then Ended(Done(s, ()))
    else
      RunnableTail(steps);
      assert AllUnaffected(steps, w) ==> Unaffected(steps[0], w) && AllUnaffected(steps[1..], w) by {
        if AllUnaffected(steps, w) {
          assert Unaffected(steps[0], w);
          forall i | 0 <= i < |steps[1..]|
            ensures Unaffected(steps[1..][i], w)
          {
            assert steps[1..][i] == steps[i + 1];
          }
        }
      }
      match RunStepAsWritten(s, steps[0], w)
      case Crashed(s1) => Crashed(s1)
      case Ended(Ungradable(s1, why)) => Ended(Ungradable(s1, why))
      case Ended(Done(s1, _)) => RunStepsAsWritten(s1, steps[1..], w)
  }

  /** What `start` as written leaves behind: the saved report, if saving
      did not raise, and whether an exception escaped `start`. */
  datatype Graded = Graded(saved: Option<Report>, crashed: bool)

  /** `start` as written. A crash in the script still saves the report
      reached (gradable, since only `UngradableError` is caught) before the
      exception escapes; a field with a zero maximum makes the saving
      raise, so nothing is saved. */
  function GradeAsWritten(files: set<string>, steps: seq<Step>, w: World): (g: Graded)
    requires Runnable(steps)
    ensures g.saved.None? ==> g.crashed
    ensures AllUnaffected(steps, w) ==>
              g == Graded(SaveResultsAsWritten(Marked(files, steps, w)), ZeroField(Marked(files, steps, w)))
    ensures AllUnaffected(steps, w) && !ZeroField(Marked(files, steps, w)) && NoNegativeField(Marked(files, steps, w)) ==>
              g == Graded(Some(Grade(files, steps, w)), false)
  {
    var e := RunStepsAsWritten(Build.State(files, Start()), steps, w);
    var reached := e.State().report;
    var marked := if e.Ended? && e.outcome.Ungradable? then reached.(gradable := false) else reached;
    var saved := SaveResultsAsWritten(marked);
    Graded(saved, e.Crashed? || saved.None?)
  }

  /** A first `test_run` with an explicit empty list under "partial" (and
      a run that is not disqualified) crashes the session as written: the
      report saved is the fresh one, still gradable and with no test, no
      later call runs, and the exception escapes `start`. The corrected
      session records the test with full credit. */
  lemma EmptyPartialCrashesSession(files: set<string>, c: TestRun.Call, rest: seq<Step>, w: World)
    requires TestRun.Nameable(c) && TestRun.RaisesAsWritten(c, w.tests) && Runnable([RunTest(c)] + rest)
    ensures GradeAsWritten(files, [RunTest(c)] + rest, w) == Graded(Some(SaveResults(Start())), true)
    ensures SaveResults(Start()).gradable && SaveResults(Start()).tests == []
    ensures |Grade(files, [RunTest(c)], w).tests| == 1 && Grade(files, [RunTest(c)], w).tests[0].points == c.maxPoints
  {
    var steps := [RunTest(c)] + rest;
    assert steps[0] == RunTest(c);
    var s0 := Build.State(files, Start());
    assert RunStepsAsWritten(s0, steps, w) == Crashed(s0);
    var one := [RunTest(c)];
    assert Runnable(one);
    assert one[1..] == [];
    assert RunSteps(s0, one, w) == RunStep(s0, RunTest(c), w);
  }

  /** A single `add_test_result` with a zero maximum and a field makes
      `start` as written save nothing and raise, while the corrected
      session saves one test. */
  lemma ZeroFieldLosesReport(files: set<string>, e: Entry, w: World)
    requires e.maxPoints == 0.0 && e.field.Some?
    ensures GradeAsWritten(files, [AddResult(e)], w) == Graded(None, true)
    ensures |Grade(files, [AddResult(e)], w).tests| == 1
  {
    var steps := [AddResult(e)];
    assert steps[1..] == [];
    var s0 := Build.State(files, Start());
    var r1 := AddTestResult(Start(), e).report;
    assert RunStepsAsWritten(s0, steps, w) == Ended(Done(Build.State(files, r1), ()));
    assert r1.partialScores.Some? && e.field.value in r1.partialScores.value;
    assert r1.partialScores.value[e.field.value].maxPoints == 0.0;
    assert ZeroField(r1);
  }

  /** A script of plain `add_test_result` and `test_run` calls as written
      never raises `UngradableError`: it either completes or crashes. */
  lemma {:induction false} TestsOnlyAsWritten(s: Build.State, steps: seq<Step>, w: World)
    requires Runnable(steps)
    requires forall i :: 0 <= i < |steps| ==> steps[i].AddResult? || steps[i].RunTest?
    ensures RunStepsAsWritten(s, steps, w).Crashed? || RunStepsAsWritten(s, steps, w).outcome.Done?
    decreases |steps|
  {
    if steps != [] {
      RunnableTail(steps);
      var e := RunStepAsWritten(s, steps[0], w);
      if e.Ended? {
        assert forall i :: 0 <= i < |steps[1..]| ==> steps[1..][i] == steps[i + 1];
        TestsOnlyAsWritten(e.outcome.state, steps[1..], w);
      }
    }
  }
}

=== FILE: testrun.dfy ===
/** `CGrader.test_run`: run a command on an input, compare its output
    against expected and rejected patterns, and record the outcome as one
    test of the report. */
module TestRun {
  import opened Wrappers
  import opened Text
  import opened Process
  import opened Matcher
  import opened Report

  /** A pattern that may be passed on its own: a string or a compiled
      regex (any other scalar is not iterable and makes `test_run` raise
      `TypeError`). */
  type SinglePattern = p: PatternValue | p.Regex? || p.value.Str? witness Plain(Str([]))

  /** The `exp_output` / `reject_output` argument when given: a single
      string or compiled regex, or a list of values. */
  datatype OutputMatch = Single(p: SinglePattern) | Several(ps: seq<PatternValue>)

  /** `must_match_all_outputs`: a flag, or one of the names "all", "any",
      "partial" (any other name is accepted and behaves as "any" when
      scoring). */
  datatype Quantifier = Flag(all: bool) | Named(mode: string)

  /** The command: one command line (split with `shlex.split`) or an
      argument vector. */
  datatype Command = CommandLine(line: string) | CommandArgv(argv: seq<string>)

  /** The `args` argument when given: one scalar or a list of them. */
  datatype ArgsArg = OneArg(v: Value) | ArgList(vs: seq<Value>)

  /** The arguments of one `test_run` call. */
  datatype Call = Call(
    command: Command,
    input: Option<string>,
    expOutput: Option<OutputMatch>,
    quantifier: Quantifier,
    rejectOutput: Option<OutputMatch>,
    field: Option<string>,
    ignoreCase: bool,
    timeout: real,
    sizeLimit: int,
    collapse: bool,
    args: Option<ArgsArg>,
    name: Option<string>,
    msg: Option<string>,
    maxPoints: real,
    highlight: bool)

  /** A call that gives only the command and the input, every other
      argument keeping its default. */
  function Defaults(command: Command, input: Option<string>): (c: Call)
    ensures c.ignoreCase && c.collapse && !c.highlight
    ensures c.timeout == 1.0 && c.sizeLimit == 10240 && c.maxPoints == 1.0
    ensures c.quantifier == Named("any") && c.expOutput.None? && c.rejectOutput.None?
    ensures c.command == command && c.input == input
  {
    Call(command, input, None, Named("any"), None, None, true, 1.0, 10240, true, None, None, None, 1.0, false)
  }

  /** What the autograder cannot compute itself: `shlex.split` of a command
      line, running a command in the sandbox (with its input and timeout),
      and the highlighting substitution `re.sub` performs with the expected
      (green) and rejected (red) matchers. */
  datatype Host = Host(
    split: string -> seq<string>,
    run: (seq<string>, Option<string>, real) -> ProcessRun,
    paint: (seq<Compiled>, seq<Compiled>, string) -> string)

  /** The values a pattern argument stands for. */
  function Patterns(m: Option<OutputMatch>): (ps: seq<PatternValue>)
    ensures m.None? ==> ps == []
    ensures m.Some? && m.value.Single? ==> ps == [m.value.p]
    ensures m.Some? && m.value.Several? ==> ps == m.value.ps
  {
    match m
    case None => []
    case Some(Single(p)) => [p]
    case Some(Several(ps)) => ps
  }

  /** The quantifier in force: without `exp_output` it is "all" whatever
      was passed, and a flag stands for "all" or "any". */
  function Mode(c: Call): (mode: string)
    ensures c.expOutput.None? ==> mode == "all"
    ensures c.expOutput.Some? && c.quantifier.Flag? ==> mode == (if c.quantifier.all then "all" else "any")
    ensures c.expOutput.Some? && c.quantifier.Named? ==> mode == c.quantifier.mode
  {
    if c.expOutput.None? then "all"
    else match c.quantifier
      case Flag(all) => if all then "all" else "any"
      case Named(mode) => mode
  }

  /** `[compile_re(t) for t in ps]`. */
  function CompileAll(ps: seq<PatternValue>, collapse: bool, ignoreCase: bool): (cs: seq<Compiled>)
    ensures |cs| == |ps|
    ensures forall i :: 0 <= i < |ps| ==> cs[i] == CompileRe(ps[i], collapse, ignoreCase)
  {
    seq(|ps|, i requires 0 <= i < |ps| => CompileRe(ps[i], collapse, ignoreCase))
  }

  function Expected(c: Call): seq<Compiled> {
    CompileAll(Patterns(c.expOutput), c.collapse, c.ignoreCase)
  }

  function Rejected(c: Call): seq<Compiled> {
    CompileAll(Patterns(c.rejectOutput), c.collapse, c.ignoreCase)
  }

  /** `list(map(str, args))`, a scalar standing for a one-element list. */
  function ArgStrings(a: ArgsArg): (r: seq<string>)
    ensures a.OneArg? ==> r == [Stringify(a.v)]
    ensures a.ArgList? ==> |r| == |a.vs| && forall i :: 0 <= i < |r| ==> r[i] == Stringify(a.vs[i])
  {
    match a
    case OneArg(v) => [Stringify(v)]
    case ArgList(vs) => seq(|vs|, i requires 0 <= i < |vs| => Stringify(vs[i]))
  }

  /** The argument vector actually run: the command, then the arguments. */
  function Argv(c: Call, host: Host): (argv: seq<string>)
    ensures c.args.None? ==> argv == CommandWords(c.command, host)
    ensures c.args.Some? ==> argv == CommandWords(c.command, host) + ArgStrings(c.args.value)
  {
    var words := CommandWords(c.command, host);
    if c.args.None? then words else words + ArgStrings(c.args.value)
  }

  function CommandWords(cmd: Command, host: Host): seq<string> {
    match cmd
    case CommandLine(line) => host.split(line)
    case CommandArgv(argv) => argv
  }

  /** A name can be derived for the call: `next(iter(command))` needs a
      non-empty argument vector when no name, input or arguments are
      given. */
  predicate Nameable(c: Call) {
    c.name.Some? || c.input.Some? || c.args.Some? || c.command.CommandLine? || c.command.argv != []
  }

  /** The test's name: the given one, else one derived from the input (its
      lines joined by spaces), the arguments, the first word of an argument
      vector, or the command line. */
  function TestName(c: Call): (name: string)
    requires Nameable(c)
    ensures c.name.Some? ==> name == c.name.value
    ensures c.name.None? && c.input.Some? ==>
              name == "Test with input \"" + Join(" ", SplitLines(c.input.value)) + "\""
    ensures c.name.None? && c.input.None? && c.args.Some? ==>
              name == "Test with arguments \"" + Join(" ", ArgStrings(c.args.value)) + "\""
    ensures c.name.None? && c.input.None? && c.args.None? && c.command.CommandArgv? ==>
              name == "Test command: " + c.command.argv[0]
    ensures c.name.None? && c.input.None? && c.args.None? && c.command.CommandLine? ==>
              name == "Test command: " + c.command.line
  {
    if c.name.Some? then c.name.value
    else if c.input.Some? then "Test with input \"" + Join(" ", SplitLines(c.input.value)) + "\""
    else if c.args.Some? then "Test with arguments \"" + Join(" ", ArgStrings(c.args.value)) + "\""
    else match c.command
      case CommandArgv(argv) => "Test command: " + argv[0]
      case CommandLine(line) => "Test command: " + line
  }

  /** A name derived from the input shows the input on one line. */
  lemma InputNameIsOneLine(c: Call)
    requires c.name.None? && c.input.Some?
    ensures NoLineBreak(TestName(c)[|"Test with input \""|..|TestName(c)| - 1])
  {
    var joined := Join(" ", SplitLines(c.input.value));
    JoinWithSpaceHasNoLineBreak(SplitLines(c.input.value));
    assert TestName(c)[|"Test with input \""|..|TestName(c)| - 1] == joined;
  }

  const GREEN: string := "\U{1b}[32m"
  const RED: string := "\U{1b}[31m"
  const RESET: string := "\U{1b}[0m"

  /** The output shown to the student before any truncation: the
      highlighted output (only when highlighting is on and there is
      output), "(NO OUTPUT)" in place of nothing, and a marker when the
      last line is not terminated. */
  function Display(c: Call, host: Host, outcmp: string): (d: string)
    ensures d != []
    ensures outcmp == [] ==> d == "(NO OUTPUT)"
    ensures !c.highlight && outcmp != [] ==> outcmp <= d
  {
    var painted := if c.highlight && outcmp != [] then host.paint(Expected(c), Rejected(c), outcmp) else outcmp;
    if painted == [] then "(NO OUTPUT)"
    else if EndsWith(painted, "\n") then painted
    else painted + "\n(NO ENDING LINE BREAK)"
  }

  /** Without highlighting, the shown output is never empty: an empty
      output is shown as "(NO OUTPUT)", any other is shown in full, and
      it is shown unchanged exactly when it ends with a line break. */
  lemma DisplayKeepsOutput(c: Call, host: Host, outcmp: string)
    requires !c.highlight
    ensures Display(c, host, outcmp) != []
    ensures outcmp == [] ==> Display(c, host, outcmp) == "(NO OUTPUT)"
    ensures outcmp != [] ==> outcmp <= Display(c, host, outcmp)
    ensures outcmp != [] ==> (Display(c, host, outcmp) == outcmp <==> EndsWith(outcmp, "\n"))
  {
    var d := Display(c, host, outcmp);
    if outcmp != [] && !EndsWith(outcmp, "\n") {
      assert |d| > |outcmp|;
    }
  }

  /** How a pattern is shown in the message: in colour when highlighting
      is on and it finds a match in the output. */
  function ShownPattern(cp: Compiled, colour: string, highlight: bool, outcmp: string): (t: string)
    ensures highlight && Search(cp.matcher, outcmp) ==> t == colour + cp.shown + RESET
    ensures !(highlight && Search(cp.matcher, outcmp)) ==> t == cp.shown
  {
    if highlight && Search(cp.matcher, outcmp) then colour + cp.shown + RESET else cp.shown
  }

  function ShownPatterns(cs: seq<Compiled>, colour: string, highlight: bool, outcmp: string): (ts: seq<string>)
    ensures |ts| == |cs|
    ensures forall i :: 0 <= i < |cs| ==> ts[i] == ShownPattern(cs[i], colour, highlight, outcmp)
  {
    seq(|cs|, i requires 0 <= i < |cs| => ShownPattern(cs[i], colour, highlight, outcmp))
  }

  /** Patterns are listed one per line, or separated by blank lines as
      soon as one of them spans several lines. */
  function Separator(cs: seq<Compiled>): (sep: string)
    ensures (exists i :: 0 <= i < |cs| && '\n' in cs[i].shown) ==> sep == "\n\n"
    ensures (forall i :: 0 <= i < |cs| ==> '\n' !in cs[i].shown) ==> sep == "\n\t"
  {
    if exists i :: 0 <= i < |cs| && '\n' in cs[i].shown then "\n\n" else "\n\t"
  }

  /** The word after "Expected": none for a single pattern, otherwise
      " one of" exactly for the "any" quantifier and " all of" for any
      other. */
  function QuantifierWord(count: nat, mode: string): (w: string)
    ensures count <= 1 ==> w == []
    ensures count > 1 ==> w == (if mode == "any" then " one of" else " all of")
  {
    if count > 1 then (if mode == "any" then " one of" else " all of") else []
  }

  /** The message of the test: the caller's, else a description of the
      expected patterns followed by the rejected ones, else nothing. */
  function Message(c: Call, outcmp: string): (m: string)
    ensures c.msg.Some? ==> m == c.msg.value
    ensures c.msg.None? && Patterns(c.expOutput) == [] ==> m == []
    ensures c.msg.None? && Patterns(c.expOutput) != [] ==> "Expected" <= m
  {
    if c.msg.Some? then c.msg.value
    else
      var exp, rej := Expected(c), Rejected(c);
      if exp == [] then []
      else
        var sep := Separator(exp);
        var head := "Expected" + QuantifierWord(|exp|, Mode(c)) + ":" + sep
                    + Join(sep, ShownPatterns(exp, GREEN, c.highlight, outcmp));
        if rej == [] then head
        else
          var sep' := Separator(rej);
          head + "\nBut not:" + sep' + Join(sep', ShownPatterns(rej, RED, c.highlight, outcmp))
  }

  /** The generated message names every expected and every rejected
      pattern as shown by `compile_re` (highlighting off). */
  lemma MessageListsPatterns(c: Call, outcmp: string)
    requires c.msg.None? && !c.highlight
    ensures forall i :: 0 <= i < |Expected(c)| ==> Contains(Message(c, outcmp), Expected(c)[i].shown)
    ensures Expected(c) != [] ==>
              forall i :: 0 <= i < |Rejected(c)| ==> Contains(Message(c, outcmp), Rejected(c)[i].shown)
  {
    var exp, rej := Expected(c), Rejected(c);
    var m := Message(c, outcmp);
    if exp != [] {
      var sep := Separator(exp);
      var expShown := ShownPatterns(exp, GREEN, false, outcmp);
      var head := "Expected" + QuantifierWord(|exp|, Mode(c)) + ":" + sep;
      var tail := if rej == [] then [] else
        "\nBut not:" + Separator(rej) + Join(Separator(rej), ShownPatterns(rej, RED, false, outcmp));
      assert m == head + Join(sep, expShown) + tail;
      forall i | 0 <= i < |exp|
        ensures Contains(m, exp[i].shown)
      {
        JoinContainsEach(sep, expShown, i);
        ContainsWithin(head, Join(sep, expShown), tail, exp[i].shown);
      }
      if rej != [] {
        var sep' := Separator(rej);
        var rejShown := ShownPatterns(rej, RED, false, outcmp);
        var front := head + Join(sep, expShown) + "\nBut not:" + sep';
        assert m == front + Join(sep', rejShown) + [];
        forall i | 0 <= i < |rej|
          ensures Contains(m, rej[i].shown)
        {
          JoinContainsEach(sep', rejShown, i);
          ContainsWithin(front, Join(sep', rejShown), [], rej[i].shown);
        }
      }
    }
  }

  /** Why a test gets no credit before its patterns are weighed, in the
      order the autograder checks: a timeout, then an oversized output, then a
      rejected pattern that matched. */
  datatype Check = TimedOut | OutputTooLong | RejectedMatch | Weighed

  function Disqualify(c: Call, outcmp: string): (d: Check)
    ensures d == Weighed <==>
              (c.timeout == 0.0 || !Contains(outcmp, "TIMEOUT")) && (c.sizeLimit == 0 || |outcmp| <= c.sizeLimit)
              && forall i :: 0 <= i < |Rejected(c)| ==> !Search(Rejected(c)[i].matcher, outcmp)
    ensures d == RejectedMatch ==> exists i :: 0 <= i < |Rejected(c)| && Search(Rejected(c)[i].matcher, outcmp)
  {
    if c.timeout != 0.0 && Contains(outcmp, "TIMEOUT") then TimedOut
    else if c.sizeLimit != 0 && |outcmp| > c.sizeLimit then OutputTooLong
    else if exists i :: 0 <= i < |Rejected(c)| && Search(Rejected(c)[i].matcher, outcmp) then RejectedMatch
    else Weighed
  }

  /** How many of the matchers find a match in the output. */
  function CountMatches(cs: seq<Compiled>, outcmp: string): (n: nat)
    ensures n <= |cs|
    decreases |cs|
  {
    if cs == [] then 0
    else (if Search(cs[0].matcher, outcmp) then 1 else 0) + CountMatches(cs[1..], outcmp)
  }

  predicate AllMatch(cs: seq<Compiled>, outcmp: string) {
    forall i :: 0 <= i < |cs| ==> Search(cs[i].matcher, outcmp)
  }

  predicate AnyMatch(cs: seq<Compiled>, outcmp: string) {
    exists i :: 0 <= i < |cs| && Search(cs[i].matcher, outcmp)
  }

  /** Every matcher matched exactly when the count is full. */
  lemma {:induction false} CountFullIffAll(cs: seq<Compiled>, outcmp: string)
    ensures CountMatches(cs, outcmp) == |cs| <==> AllMatch(cs, outcmp)
    decreases |cs|
  {
    if cs != [] {
      CountFullIffAll(cs[1..], outcmp);
      if AllMatch(cs[1..], outcmp) && Search(cs[0].matcher, outcmp) {
        forall i | 0 <= i < |cs|
          ensures Search(cs[i].matcher, outcmp)
        {
          if i > 0 { assert cs[i] == cs[1..][i - 1]; }
        }
      }
      if AllMatch(cs, outcmp) {
        assert Search(cs[0].matcher, outcmp);
        forall i | 0 <= i < |cs| - 1
          ensures Search(cs[1..][i].matcher, outcmp)
        {
          assert cs[1..][i] == cs[i + 1];
        }
      }
    }
  }

  /** No matcher matched exactly when the count is zero. */
  lemma {:induction false} CountZeroIffNone(cs: seq<Compiled>, outcmp: string)
    ensures CountMatches(cs, outcmp) == 0 <==> !AnyMatch(cs, outcmp)
    decreases |cs|
  {
    if cs != [] {
      CountZeroIffNone(cs[1..], outcmp);
      if AnyMatch(cs[1..], outcmp) {
        var i :| 0 <= i < |cs[1..]| && Search(cs[1..][i].matcher, outcmp);
        assert cs[i + 1] == cs[1..][i];
      }
      if AnyMatch(cs, outcmp) && !Search(cs[0].matcher, outcmp) {
        var i :| 0 <= i < |cs| && Search(cs[i].matcher, outcmp);
        assert cs[1..][i - 1] == cs[i];
      }
    }
  }

  /** The credit for a test that was not disqualified, with the empty
      "partial" case corrected: no expected pattern means nothing can
      fail, so the test earns its maximum. */
  function Credit(mode: string, exp: seq<Compiled>, outcmp: string, maxPoints: real): (p: real)
    ensures mode != "partial" ==> p == maxPoints || p == 0.0
    ensures mode == "partial" && exp == [] ==> p == maxPoints
    ensures mode == "all" && AllMatch(exp, outcmp) ==> p == maxPoints
    ensures mode != "partial" && mode != "all" && !AnyMatch(exp, outcmp) ==> p == 0.0
  {
    if mode == "partial" then
      (if exp == [] then maxPoints else maxPoints * (CountMatches(exp, outcmp) as real) / (|exp| as real))
    else if mode == "all" then (if AllMatch(exp, outcmp) then maxPoints else 0.0)
    else (if AnyMatch(exp, outcmp) then maxPoints else 0.0)
  }

  /** The credit exactly as written: with "partial" and an empty list of
      expected patterns the count is divided by zero, which raises
      `ZeroDivisionError` (`None` here). */
  function CreditAsWritten(mode: string, exp: seq<Compiled>, outcmp: string, maxPoints: real): (r: Option<real>)
    ensures r.None? <==> mode == "partial" && exp == []
    ensures r.Some? ==> r.value == Credit(mode, exp, outcmp, maxPoints)
  {
    if mode == "partial" then
      (if exp == [] then None else Some(maxPoints * (CountMatches(exp, outcmp) as real) / (|exp| as real)))
    else Some(Credit(mode, exp, outcmp, maxPoints))
  }

  /** "all" and "any" (and every name other than "partial") are all or
      nothing: "all" needs every expected pattern, the others one. */
  lemma BinaryModes(mode: string, exp: seq<Compiled>, outcmp: string, maxPoints: real)
    requires mode != "partial"
    ensures Credit(mode, exp, outcmp, maxPoints) == maxPoints || Credit(mode, exp, outcmp, maxPoints) == 0.0
    ensures mode == "all" ==> (Credit(mode, exp, outcmp, maxPoints) == maxPoints <== AllMatch(exp, outcmp))
    ensures mode == "all" && maxPoints != 0.0 ==> (Credit(mode, exp, outcmp, maxPoints) == maxPoints ==> AllMatch(exp, outcmp))
    ensures mode != "all" ==> (Credit(mode, exp, outcmp, maxPoints) == maxPoints <== AnyMatch(exp, outcmp))
    ensures mode != "all" && maxPoints != 0.0 ==> (Credit(mode, exp, outcmp, maxPoints) == maxPoints ==> AnyMatch(exp, outcmp))
  {
  }

  /** "partial" gives the share of expected patterns that matched: never
      less than nothing nor more than the maximum, the maximum exactly when
      all of them matched and nothing exactly when none did. */
  lemma PartialCredit(exp: seq<Compiled>, outcmp: string, maxPoints: real)
    requires exp != [] && maxPoints > 0.0
    ensures 0.0 <= Credit("partial", exp, outcmp, maxPoints) <= maxPoints
    ensures Credit("partial", exp, outcmp, maxPoints) == maxPoints <==> AllMatch(exp, outcmp)
    ensures Credit("partial", exp, outcmp, maxPoints) == 0.0 <==> !AnyMatch(exp, outcmp)
  {
    CountFullIffAll(exp, outcmp);
    CountZeroIffNone(exp, outcmp);
    Share(maxPoints, CountMatches(exp, outcmp), |exp|);
  }

  /** `maximum * k / n` for `0 <= k <= n`, `n > 0`. */
  lemma Share(maximum: real, k: nat, n: nat)
    requires maximum > 0.0 && 0 < n && k <= n
    ensures 0.0 <= maximum * (k as real) / (n as real) <= maximum
    ensures maximum * (k as real) / (n as real) == maximum <==> k == n
    ensures maximum * (k as real) / (n as real) == 0.0 <==> k == 0
  {
    var x := maximum * (k as real) / (n as real);
    assert x * (n as real) == maximum * (k as real);
    if k < n {
      assert maximum * (k as real) < maximum * (n as real);
    }
  }

  /** The points awarded: nothing when disqualified, else the credit. */
  function Points(c: Call, outcmp: string): (p: real)
    ensures Disqualify(c, outcmp) != Weighed ==> p == 0.0
    ensures Mode(c) != "partial" ==> p == c.maxPoints || p == 0.0
  {
    if Disqualify(c, outcmp) == Weighed then Credit(Mode(c), Expected(c), outcmp, c.maxPoints) else 0.0
  }

  /** The output recorded with the test: the displayed output, cut to
      `size_limit` characters and marked when it was too long. */
  function RecordedOutput(c: Call, host: Host, outcmp: string): (o: string)
    ensures Disqualify(c, outcmp) != OutputTooLong ==> o == Display(c, host, outcmp)
    ensures Disqualify(c, outcmp) == OutputTooLong ==>
              PyPrefix(Display(c, host, outcmp), c.sizeLimit) <= o && EndsWith(o, "\nTRUNCATED: Output too long.")
  {
    var shown := Display(c, host, outcmp);
    if Disqualify(c, outcmp) == OutputTooLong then PyPrefix(shown, c.sizeLimit) + "\nTRUNCATED: Output too long."
    else shown
  }

  /** The record `test_run` adds: the name, no description, the points,
      the message and output above, the maximum and the field. */
  function Recorded(c: Call, host: Host, outcmp: string): Entry
    requires Nameable(c)
  {
    Entry(TestName(c), [], Amount(Points(c, outcmp)), Some(Message(c, outcmp)),
                 RecordedOutput(c, host, outcmp), c.maxPoints, c.field, NoImages)
  }

  /** The captured output of the call's command. */
  function Outcome(c: Call, host: Host): ProcessRun {
    host.run(Argv(c, host), c.input, c.timeout)
  }

  /** `test_run` (with the empty "partial" case corrected): runs the
      command once and adds exactly one test to the report, named and
      scored as above, worth the call's maximum. */
  function Run(r: Report, c: Call, host: Host): (a: Added)
    requires Nameable(c)
    ensures a.report.tests == r.tests + [a.test]
    ensures a.test.name == TestName(c) && a.test.maxPoints == c.maxPoints
    ensures a.test.points == Points(c, CommandOutput(Outcome(c, host)))
    ensures a.test.message == Message(c, CommandOutput(Outcome(c, host)))
    ensures a.test.output == RecordedOutput(c, host, CommandOutput(Outcome(c, host)))
    ensures a.report.points == r.points + a.test.points
    ensures a.report.maxPoints == r.maxPoints + c.maxPoints
    ensures a.report.gradable == r.gradable && a.report.message == r.message
    ensures a.report.score == r.score && a.report.output == r.output && a.test.description == []
    ensures c.field.None? ==> a.report.partialScores == r.partialScores
    ensures c.field.Some? ==> a.report.partialScores == Some(AddToField(r.partialScores, c.field.value, a.test.points, c.maxPoints))
  {
    AddTestResult(r, Recorded(c, host, CommandOutput(Outcome(c, host))))
  }

  /** The call reaches the division by zero of the program as written: it
      is not disqualified, and it asks for "partial" credit over no
      expected pattern. */
  predicate RaisesAsWritten(c: Call, host: Host) {
    var outcmp := CommandOutput(Outcome(c, host));
    Disqualify(c, outcmp) == Weighed && CreditAsWritten(Mode(c), Expected(c), outcmp, c.maxPoints).None?
  }

  /** `test_run` exactly as written: the same, except that the empty
      "partial" case raises instead of adding a test. */
  function RunAsWritten(r: Report, c: Call, host: Host): (a: Option<Added>)
    requires Nameable(c)
    ensures a.None? <==> RaisesAsWritten(c, host)
    ensures a.Some? ==> a.value == Run(r, c, host)
  {
    if RaisesAsWritten(c, host) then None else Some(Run(r, c, host))
  }

  /** A run that hits the timeout scores nothing, whatever the patterns,
      as long as the timeout is not zero. */
  lemma KilledRunScoresZero(r: Report, c: Call, host: Host)
    requires Nameable(c) && c.timeout != 0.0 && Outcome(c, host).Killed?
    ensures Disqualify(c, CommandOutput(Outcome(c, host))) == TimedOut
    ensures Run(r, c, host).test.points == 0.0
  {
  }

  /** An output too long (and free of the timeout marker) scores nothing
      and is recorded cut to the size limit plus the truncation note. */
  lemma LongOutputIsTruncated(c: Call, host: Host, outcmp: string)
    requires c.sizeLimit > 0 && |outcmp| > c.sizeLimit
    requires c.timeout == 0.0 || !Contains(outcmp, "TIMEOUT")
    ensures Points(c, outcmp) == 0.0
    ensures |RecordedOutput(c, host, outcmp)| <= c.sizeLimit + |"\nTRUNCATED: Output too long."|
    ensures RecordedOutput(c, host, outcmp)[..|PyPrefix(Display(c, host, outcmp), c.sizeLimit)|]
            == PyPrefix(Display(c, host, outcmp), c.sizeLimit)
  {
  }

  /** The disqualifiers are tried in order and the first that holds
      decides: a timed-out run scores nothing and its output is kept whole
      even when it is also too long; an oversized output scores nothing
      whatever the rejected patterns say. */
  lemma DisqualifiersInOrder(c: Call, host: Host, outcmp: string)
    ensures c.timeout != 0.0 && Contains(outcmp, "TIMEOUT") ==>
              Points(c, outcmp) == 0.0 && RecordedOutput(c, host, outcmp) == Display(c, host, outcmp)
    ensures !(c.timeout != 0.0 && Contains(outcmp, "TIMEOUT")) && c.sizeLimit != 0 && |outcmp| > c.sizeLimit ==>
              Points(c, outcmp) == 0.0
              && RecordedOutput(c, host, outcmp) == PyPrefix(Display(c, host, outcmp), c.sizeLimit) + "\nTRUNCATED: Output too long."
    ensures Disqualify(c, outcmp) != OutputTooLong ==> RecordedOutput(c, host, outcmp) == Display(c, host, outcmp)
  {
  }

  /** A rejected pattern that matches costs all credit, even when every
      expected pattern matched too. */
  lemma RejectionWins(c: Call, outcmp: string, i: nat)
    requires i < |Rejected(c)| && Search(Rejected(c)[i].matcher, outcmp)
    ensures Points(c, outcmp) == 0.0
  {
  }

  /** Without `exp_output` a test that is not disqualified earns its
      maximum. */
  lemma NoExpectationFullCredit(c: Call, outcmp: string)
    requires c.expOutput.None? && Disqualify(c, outcmp) == Weighed
    ensures Points(c, outcmp) == c.maxPoints
  {
  }

  /** An explicit empty list under the default "any" is not the same as no
      list: nothing can match, so the test earns nothing. */
  lemma EmptyListUnderAnyScoresZero(c: Call, outcmp: string)
    requires c.expOutput == Some(Several([])) && c.quantifier == Named("any")
    ensures Points(c, outcmp) == 0.0
  {
    assert Expected(c) == [];
  }

  /** The division by zero of `test_run` as written: an explicit empty
      list under "partial", with a run that is not disqualified, raises
      instead of scoring; the corrected `Run` awards the maximum, as the
      absence of `exp_output` does. */
  lemma EmptyPartialFinding(r: Report, c: Call, host: Host)
    requires Nameable(c) && c.expOutput == Some(Several([])) && c.quantifier == Named("partial")
    requires Disqualify(c, CommandOutput(Outcome(c, host))) == Weighed
    ensures RunAsWritten(r, c, host).None?
    ensures Run(r, c, host).test.points == c.maxPoints
  {
    assert Expected(c) == [];
  }
}

=== FILE: text.dfy ===
/** Character classes and string helpers with the semantics of the Python
    and JavaScript built-ins the autograder and the schema diff rely on. */
module Text {

  /** Python's `str.isspace`, which is also what the `\s` class of `re`
      matches in a `str` pattern: the ASCII controls 9-13 and 28-31, the
      space, and the Unicode separators. */
  predicate IsSpace(c: char) {
    var n := c as int;
    (9 <= n <= 13) || (28 <= n <= 32) || n == 0x85 || n == 0xa0 || n == 0x1680
    || (0x2000 <= n <= 0x200a) || n == 0x2028 || n == 0x2029 || n == 0x202f
    || n == 0x205f || n == 0x3000
  }

  /** The line boundaries of Python's `str.splitlines` (`\r\n` is handled
      as one boundary by `SplitLines`). */
  predicate IsLineBreak(c: char) {
    var n := c as int;
    (10 <= n <= 13) || (28 <= n <= 30) || n == 0x85 || n == 0x2028 || n == 0x2029
  }

  /** The white space and line terminators removed by JavaScript's
      `String.prototype.trim`. */
  predicate IsJsSpace(c: char) {
    var n := c as int;
    (9 <= n <= 13) || n == 32 || n == 0xa0 || n == 0x1680 || (0x2000 <= n <= 0x200a)
    || n == 0x2028 || n == 0x2029 || n == 0x202f || n == 0x205f || n == 0x3000
    || n == 0xfeff
  }

  predicate NoSpace(s: string) {
    forall k :: 0 <= k < |s| ==> !IsSpace(s[k])
  }

  predicate AllSpace(s: string) {
    forall k :: 0 <= k < |s| ==> IsSpace(s[k])
  }

  predicate NoLineBreak(s: string) {
    forall k :: 0 <= k < |s| ==> !IsLineBreak(s[k])
  }

  /** Python's `sub in s`. */
  predicate Contains(s: string, sub: string) {
    exists i :: 0 <= i <= |s| && sub <= s[i..]
  }

  /** Python's `s.endswith(suffix)`. */
  predicate EndsWith(s: string, suffix: string) {
    |suffix| <= |s| && s[|s| - |suffix|..] == suffix
  }

  lemma ContainsAt(s: string, sub: string, i: nat)
    requires i + |sub| <= |s| && s[i..i + |sub|] == sub
    ensures Contains(s, sub)
  {
    assert sub <= s[i..];
  }

  lemma ContainsInMiddle(a: string, sub: string, b: string)
    ensures Contains(a + sub + b, sub)
  {
    var s := a + sub + b;
    assert s[|a|..|a| + |sub|] == sub;
    ContainsAt(s, sub, |a|);
  }

  /** An occurrence inside the middle part is an occurrence in the
      whole. */
  lemma ContainsWithin(a: string, mid: string, b: string, sub: string)
    requires Contains(mid, sub)
    ensures Contains(a + mid + b, sub)
  {
    var j :| 0 <= j <= |mid| && sub <= mid[j..];
    var whole := a + mid + b;
    assert whole[|a| + j..] == mid[j..] + b;
    assert sub <= whole[|a| + j..];
  }

  lemma ContainsAfter(a: string, b: string, sub: string)
    requires Contains(b, sub)
    ensures Contains(a + b, sub)
  {
    var j :| 0 <= j <= |b| && sub <= b[j..];
    assert (a + b)[|a| + j..] == b[j..];
  }

  lemma ContainsExtends(a: string, b: string, sub: string)
    requires Contains(a, sub)
    ensures Contains(a + b, sub)
  {
    var j :| 0 <= j <= |a| && sub <= a[j..];
    assert (a + b)[j..] == a[j..] + b;
    assert sub <= (a + b)[j..];
  }

  /** ASCII lower-casing, the case folding the model uses for
      `re.IGNORECASE`. */
  function Lower(c: char): char {
    if 'A' <= c <= 'Z' then (c as int + 32) as char else c
  }

  /** `s[0:n]` in Python, where a negative `n` counts from the end. */
  function PyPrefix(s: string, n: int): (r: string)
    ensures r <= s
    ensures 0 <= n ==> |r| == if n < |s| then n else |s|
  {
    if n >= 0 then (if n < |s| then s[..n] else s)
    else if |s| + n > 0 then s[..|s| + n] else []
  }

  /** `sep.join(xs)`. */
  function Join(sep: string, xs: seq<string>): string
    decreases |xs|
  {
    if xs == [] then []
    else if |xs| == 1 then xs[0]
    else xs[0] + sep + Join(sep, xs[1..])
  }

  /** `"".join([x] + xs)` is `x` followed by `"".join(xs)`. */
  lemma JoinEmptyCons(x: string, xs: seq<string>)
    ensures Join("", [x] + xs) == x + Join("", xs)
  {
    if xs != [] {
      assert ([x] + xs)[1..] == xs;
    }
  }

  /** Every joined item occurs in the joined text. */
  lemma {:induction false} JoinContainsEach(sep: string, xs: seq<string>, i: nat)
    requires i < |xs|
    ensures Contains(Join(sep, xs), xs[i])
    decreases |xs|
  {
    if |xs| == 1 {
      ContainsInMiddle([], xs[0], []);
      assert [] + xs[0] + [] == xs[0];
    } else if i == 0 {
      ContainsInMiddle([], xs[0], sep + Join(sep, xs[1..]));
      assert [] + xs[0] + (sep + Join(sep, xs[1..])) == Join(sep, xs);
    } else {
      JoinContainsEach(sep, xs[1..], i - 1);
      var rest := Join(sep, xs[1..]);
      var j :| 0 <= j <= |rest| && xs[i] <= rest[j..];
      var whole := xs[0] + sep + rest;
      assert whole == Join(sep, xs);
      assert whole[|xs[0] + sep| + j..] == rest[j..];
    }
  }

  /** Length of the longest prefix of `t` free of white space. */
  function WordLength(t: string): (n: nat)
    ensures n <= |t|
    ensures n < |t| ==> IsSpace(t[n])
  {
    if t == [] || IsSpace(t[0]) then 0 else 1 + WordLength(t[1..])
  }

  /** Length of the longest prefix of `t` made of white space. */
  function SpaceLength(t: string): (n: nat)
    ensures n <= |t|
    ensures n < |t| ==> !IsSpace(t[n])
  {
    if t == [] || !IsSpace(t[0]) then 0 else 1 + SpaceLength(t[1..])
  }

  lemma {:induction false} WordLengthSpan(t: string)
    ensures NoSpace(t[..WordLength(t)])
    decreases |t|
  {
    if t != [] && !IsSpace(t[0]) {
      WordLengthSpan(t[1..]);
      assert t[..WordLength(t)] == [t[0]] + t[1..][..WordLength(t[1..])];
    }
  }

  lemma {:induction false} SpaceLengthSpan(t: string)
    ensures AllSpace(t[..SpaceLength(t)])
    decreases |t|
  {
    if t != [] && IsSpace(t[0]) {
      SpaceLengthSpan(t[1..]);
      assert t[..SpaceLength(t)] == [t[0]] + t[1..][..SpaceLength(t[1..])];
    }
  }

  /** The first piece of `t`: everything before its first white space. */
  function Word(t: string): string {
    t[..WordLength(t)]
  }

  /** The white-space run that follows the first piece of `t`. */
  function Gap(t: string): string {
    var rest := t[WordLength(t)..];
    rest[..SpaceLength(rest)]
  }

  /** What follows the first piece of `t` and the run after it. */
  function Remainder(t: string): (r: string)
    ensures WordLength(t) < |t| ==> |r| < |t|
  {
    var rest := t[WordLength(t)..];
    rest[SpaceLength(rest)..]
  }

  lemma Decompose(t: string)
    requires WordLength(t) < |t|
    ensures t == Word(t) + Gap(t) + Remainder(t)
    ensures Gap(t) != [] && AllSpace(Gap(t))
  {
    var rest := t[WordLength(t)..];
    SliceThree(t, WordLength(t), SpaceLength(rest));
    SpaceLengthSpan(rest);
  }

  lemma SliceThree<T>(s: seq<T>, i: nat, k: nat)
    requires i + k <= |s|
    ensures s[..i] + s[i..][..k] + s[i..][k..] == s
  {
    assert s[i..][..k] + s[i..][k..] == s[i..];
  }

  /** `re.split(r"\s+", t)`: the pieces between maximal white-space runs,
      keeping an empty first (last) piece when `t` starts (ends) with
      white space. */
  function SplitSpace(t: string): (chunks: seq<string>)
    ensures |chunks| >= 1
    decreases |t|
  {
    if WordLength(t) == |t| then [t] else [Word(t)] + SplitSpace(Remainder(t))
  }

  /** The white-space runs `SplitSpace` removes, in order. */
  function SplitSeparators(t: string): (seps: seq<string>)
    decreases |t|
  {
    if WordLength(t) == |t| then [] else [Gap(t)] + SplitSeparators(Remainder(t))
  }

  /** `cs[0] + seps[0] + cs[1] + ... + cs[n]`. */
  function Interleave(cs: seq<string>, seps: seq<string>): string
    requires |cs| >= 1 && |seps| == |cs| - 1
    decreases |cs|
  {
    if |cs| == 1 then cs[0] else cs[0] + seps[0] + Interleave(cs[1..], seps[1..])
  }

  /** Non-empty runs of white space, as `\s+` matches them. */
  predicate SpaceRuns(seps: seq<string>) {
    forall i :: 0 <= i < |seps| ==> seps[i] != [] && AllSpace(seps[i])
  }

  lemma {:induction false} SplitSeparatorsLength(t: string)
    ensures |SplitSeparators(t)| == |SplitSpace(t)| - 1
    decreases |t|
  {
    if WordLength(t) < |t| {
      SplitSeparatorsLength(Remainder(t));
    }
  }

  /** Every run `SplitSpace` removes is a non-empty stretch of white
      space. */
  lemma {:induction false} SplitSeparatorsShape(t: string)
    ensures SpaceRuns(SplitSeparators(t))
    decreases |t|
  {
    if WordLength(t) < |t| {
      Decompose(t);
      SplitSeparatorsShape(Remainder(t));
    }
  }

  /** Splitting on white-space runs loses nothing: the pieces and the
      removed runs, interleaved, give back the text. */
  lemma {:induction false} SplitRebuilds(t: string)
    ensures |SplitSeparators(t)| == |SplitSpace(t)| - 1
    ensures Interleave(SplitSpace(t), SplitSeparators(t)) == t
    decreases |t|
  {
    SplitSeparatorsLength(t);
    if WordLength(t) < |t| {
      var cs, seps := SplitSpace(t), SplitSeparators(t);
      SplitRebuilds(Remainder(t));
      Decompose(t);
      InterleaveStep(cs, seps);
      assert cs[1..] == SplitSpace(Remainder(t)) && seps[1..] == SplitSeparators(Remainder(t));
    }
  }

  lemma InterleaveStep(cs: seq<string>, seps: seq<string>)
    requires |cs| >= 2 && |seps| == |cs| - 1
    ensures Interleave(cs, seps) == cs[0] + seps[0] + Interleave(cs[1..], seps[1..])
  {
  }

  /** Python's `s.rstrip()`. */
  function StripRight(s: string): (r: string)
    ensures r <= s
    ensures r == [] || !IsSpace(r[|r| - 1])
    ensures AllSpace(s[|r|..])
    decreases |s|
  {
    if s == [] || !IsSpace(s[|s| - 1]) then s else StripRight(s[..|s| - 1])
  }

  /** Python's `s.lstrip()`. */
  function StripLeft(s: string): (r: string)
    ensures |r| <= |s| && r == s[|s| - |r|..]
    ensures r == [] || !IsSpace(r[0])
    ensures AllSpace(s[..|s| - |r|])
    decreases |s|
  {
    if s == [] || !IsSpace(s[0]) then s else StripLeft(s[1..])
  }

  /** Python's `s.strip()`. */
  function Strip(s: string): string {
    StripLeft(StripRight(s))
  }

  /** JavaScript's `s.trim()`. */
  function JsTrim(s: string): (r: string)
    ensures r == [] || (!IsJsSpace(r[0]) && !IsJsSpace(r[|r| - 1]))
    decreases |s|
  {
    if s == [] then s
    else if IsJsSpace(s[0]) then JsTrim(s[1..])
    else if IsJsSpace(s[|s| - 1]) then JsTrim(s[..|s| - 1])
    else s
  }

  /** Length of the longest prefix of `s` without a line boundary. */
  function LineLength(s: string): (n: nat)
    ensures n <= |s|
    ensures NoLineBreak(s[..n])
    ensures n < |s| ==> IsLineBreak(s[n])
  {
    if s == [] || IsLineBreak(s[0]) then 0 else 1 + LineLength(s[1..])
  }

  /** The width of the line boundary at `s[n]`: two for "\r\n", else one. */
  function BoundaryWidth(s: string, n: nat): (w: nat)
    requires n < |s|
    ensures 1 <= w <= 2 && n + w <= |s|
  {
    if s[n] == '\r' && n + 1 < |s| && s[n + 1] == '\n' then 2 else 1
  }

  /** Python's `s.splitlines()`: the lines without their boundaries; a
      final boundary does not start an extra empty line. */
  function SplitLines(s: string): (lines: seq<string>)
    ensures forall i :: 0 <= i < |lines| ==> NoLineBreak(lines[i])
    ensures s == [] <==> lines == []
    decreases |s|
  {
    if s == [] then []
    else
      var n := LineLength(s);
      if n == |s| then [s]
      else [s[..n]] + SplitLines(s[n + BoundaryWidth(s, n)..])
  }

  /** A boundary `splitlines` removes: one line-break character, or the
      pair "\r\n". */
  predicate IsBoundary(b: string) {
    b == "\r\n" || (|b| == 1 && IsLineBreak(b[0]))
  }

  /** Real boundaries, except that the last may be empty. */
  predicate Boundaries(bs: seq<string>) {
    forall i :: 0 <= i < |bs| ==> IsBoundary(bs[i]) || (i == |bs| - 1 && bs[i] == [])
  }

  /** The boundary after each line `SplitLines` yields: empty after a
      last line that the text does not terminate. */
  function LineBoundaries(s: string): seq<string>
    decreases |s|
  {
    if s == [] then []
    else
      var n := LineLength(s);
      if n == |s| then [[]]
      else [s[n..n + BoundaryWidth(s, n)]] + LineBoundaries(s[n + BoundaryWidth(s, n)..])
  }

  /** `lines[0] + bs[0] + lines[1] + bs[1] + ...`. */
  function Glue(lines: seq<string>, bs: seq<string>): string
    requires |bs| == |lines|
    decreases |lines|
  {
    if lines == [] then [] else lines[0] + bs[0] + Glue(lines[1..], bs[1..])
  }

  /** Splitting into lines loses nothing but the boundaries: each line
      followed by its boundary gives back the text, and every boundary is
      a real one except, possibly, an empty one after the last line. */
  lemma {:induction false} SplitLinesRebuilds(s: string)
    ensures |LineBoundaries(s)| == |SplitLines(s)|
    ensures Glue(SplitLines(s), LineBoundaries(s)) == s
    ensures Boundaries(LineBoundaries(s))
    decreases |s|
  {
    if s != [] {
      var n := LineLength(s);
      if n < |s| {
        var w := BoundaryWidth(s, n);
        var rest := s[n + w..];
        SplitLinesRebuilds(rest);
        LinesStep(s, n, w);
        BoundaryShape(s, n, w);
        BoundariesStep(s, n, w);
      } else {
        assert SplitLines(s) == [s] + [] && LineBoundaries(s) == [[]] + [];
        GlueCons(s, [], [], []);
      }
    }
  }

  /** One line and its boundary, then the rest of the text. */
  lemma LinesStep(s: string, n: nat, w: nat)
    requires s != [] && n == LineLength(s) && n < |s| && w == BoundaryWidth(s, n)
    requires |LineBoundaries(s[n + w..])| == |SplitLines(s[n + w..])|
    requires Glue(SplitLines(s[n + w..]), LineBoundaries(s[n + w..])) == s[n + w..]
    ensures |LineBoundaries(s)| == |SplitLines(s)|
    ensures Glue(SplitLines(s), LineBoundaries(s)) == s
  {
    var rest := s[n + w..];
    assert SplitLines(s) == [s[..n]] + SplitLines(rest);
    assert LineBoundaries(s) == [s[n..n + w]] + LineBoundaries(rest);
    GlueCons(s[..n], SplitLines(rest), s[n..n + w], LineBoundaries(rest));
    SliceThree(s, n, w);
    assert s[n..][..w] == s[n..n + w] && s[n..][w..] == rest;
  }

  lemma GlueCons(line: string, lines: seq<string>, b: string, bs: seq<string>)
    requires |bs| == |lines|
    ensures Glue([line] + lines, [b] + bs) == line + b + Glue(lines, bs)
  {
    assert ([line] + lines)[1..] == lines && ([b] + bs)[1..] == bs;
  }

  lemma BoundariesStep(s: string, n: nat, w: nat)
    requires s != [] && n == LineLength(s) && n < |s| && w == BoundaryWidth(s, n)
    requires Boundaries(LineBoundaries(s[n + w..]))
    ensures Boundaries(LineBoundaries(s))
  {
    assert LineBoundaries(s) == [s[n..n + w]] + LineBoundaries(s[n + w..]);
    BoundaryShape(s, n, w);
    BoundariesCons(s[n..n + w], LineBoundaries(s[n + w..]));
  }

  lemma BoundariesCons(b: string, bs: seq<string>)
    requires IsBoundary(b) && Boundaries(bs)
    ensures Boundaries([b] + bs)
  {
    forall i | 0 <= i < |[b] + bs|
      ensures IsBoundary(([b] + bs)[i]) || (i == |[b] + bs| - 1 && ([b] + bs)[i] == [])
    {
      if i > 0 {
        assert ([b] + bs)[i] == bs[i - 1];
      }
    }
  }

  /** The boundary cut after the first line is a real one. */
  lemma BoundaryShape(s: string, n: nat, w: nat)
    requires n == LineLength(s) && n < |s| && w == BoundaryWidth(s, n)
    ensures IsBoundary(s[n..n + w])
  {
    if w == 2 {
      assert s[n..n + w] == "\r\n";
    }
  }

  /** Joining single-line pieces with a space gives a single line. */
  lemma {:induction false} JoinWithSpaceHasNoLineBreak(xs: seq<string>)
    requires forall i :: 0 <= i < |xs| ==> NoLineBreak(xs[i])
    ensures NoLineBreak(Join(" ", xs))
    decreases |xs|
  {
    if |xs| > 1 {
      JoinWithSpaceHasNoLineBreak(xs[1..]);
    }
  }

  function DigitChar(d: nat): char
    requires d < 10
  {
    "0123456789"[d]
  }

  function Digits(n: nat): (r: string)
    ensures |r| >= 1
    ensures forall k :: 0 <= k < |r| ==> '0' <= r[k] <= '9'
    decreases n
  {
    if n < 10 then [DigitChar(n)] else Digits(n / 10) + [DigitChar(n % 10)]
  }

  /** Python's `str(i)` for an `int`. */
  function IntToString(i: int): (r: string)
    ensures |r| >= 1
    ensures NoSpace(r)
    ensures i < 0 <==> r[0] == '-'
  {
    if i < 0 then "-" + Digits(-i) else Digits(i)
  }
}

=== FILE: wrappers.dfy ===
/** Small failure-compatible datatypes shared by the autograder model. */
module Wrappers {

  /** An optional value: Python's `None` versus a present value. */
  datatype Option<+T> = None | Some(value: T) {

    /** The value when present, `default` otherwise. */
    function GetOr(default: T): T {
      match this
      case Some(v) => v
      case None => default
    }
  }

  /** The result of one grading operation: it either completes with a new
      state and a value, or raises the autograder's `UngradableError`, which
      still carries the state reached so far (the report with the
      diagnostic already appended). */
  datatype Outcome<+S, +T> = Done(state: S, value: T) | Ungradable(state: S, reason: string) {

    /** The state reached, whether or not the operation completed. */
    function State(): S {
      match this
      case Done(s, _) => s
      case Ungradable(s, _) => s
    }
  }
}
